=== FILE: README.md ===
# Campaign-plan recovery and bookkeeping, modelled in Dafny

CampaignIdeationAI asks a language model for a marketing campaign plan as a JSON object.
The answer text is untrustworthy. The object may sit inside chat scaffolding and role
markers. It may be truncated or broken. It may spell the same field in several shapes.
This project models the code that turns such text into a plan record, and the scripts that
clean and split the resulting training data. It proves what that code guarantees.

Modules, one per concern of the source:

- `Wrappers`, `Text`, `Json`, `Rounding`, `Seqs`, `Sorting`: shared vocabulary.
  - `Option` and `Result`.
  - Python's string helpers: `find`, `rfind`, `lower`, `strip`.
  - A `JsonValue` datatype with insertion-ordered objects, Python truthiness and `dict.get`.
  - `round` as round-half-to-even on exact reals.
  - Subsequences, filters and first-per-key dedupe.
  - Python's stable `sorted` and string order.
- `Scanner`: the quote- and escape-aware brace scanner that both recovery routines share.
  It is a fold of one step function over the text. `Spans(s)` lists every complete
  top-level object.
- `Recovery` models the serving path in `deploy/utils.py`:
  - `extract_first_json_block`;
  - `text_after_assistant`, anchoring on the last `json` line, else the last `assistant`;
  - `extract_balanced_json`;
  - `json_after_assistant`.
- `SynthRecovery`: `try_parse_json` from the synthetic-data generator. It keeps every span,
  anchors on the last `assistant` and picks the longest span that parses.
- `Budget` models `_to_fraction` (including the `_pct` pattern), `_renorm_pairs` with its
  drift fix, and `normalize_budget_split`. Shares are integer hundredths.
- `Align`: `align_plan_to_schema` and the serving `_default_activation_for`.
- `SynthSchema` models the generator's own variants, kept separate because they behave
  differently: `normalize_plan`, `_default_activation_for` and `normalize_to_schema`.
- `Split`: `normalize_val_size`, `dedupe`, `stratified_split`, `random_split` and
  `compute_stats` from `scripts/split_jsonl.py`.
- `Qc`: `pack_text` and the gate, coarse-key dedupe and windowed fuzzy prune of
  `scripts/qc_and_dedupe.py`. The steps are pulled out of `main` as pure functions.

Foreign calls are parameters of the operations that make them. Their results are not
constrained beyond what Python guarantees:

- `json.loads` is `parse: string -> Option<JsonValue>`, with `None` when it raises.
- `json_repair.repair_json` is `repair: string -> Option<string>`, with `None` when it is
  missing or raises.
- `str()` of floats and containers is `show`.
- The md5 fingerprint is `fingerprint`.
- `difflib`'s ratio is `sim`.
- `rng.shuffle` is `shuffle`: any function that returns a permutation of its input, chosen
  per call.

Where Python would raise, the operation carries a precondition naming the inputs that do
not raise. Examples are `AlignUsable`, `SynthUsable`, `PlanUsable` and `RecordDefined`.

Where the code and its own docstrings disagree, the model follows the code:

- `text_after_assistant`'s docstring speaks of a line that equals `assistant`. Its regular
  expression matches a line holding only `json`. The model uses `json` (`Recovery.JsonLineAt`).
- The docstring of `normalize_budget_split` (deploy/utils.py:14) promises a split that
  sums to about 1.0; that function rounds each share and fixes no drift. The docstring of
  `_renorm_pairs` (deploy/utils.py:61) also promises that the rounding drift is fixed on
  the largest item. The clamp at 0 in `_renorm_pairs` breaks that fix for many equal
  entries: `Budget.RenormClampsEighteenEqual` proves that eighteen equal weights give shares
  summing to 1.02, and `Budget.RenormClampsSeventeen` that six weights of 79 and eleven of
  66 give 1.01. `Budget.RenormSumsToOne` proves the exact sum of 1.00 for up to fifteen
  entries; sixteen entries are covered by neither side.

## Model

| member | source | states |
|---|---|---|
| `Recovery.FirstJsonBlock` | deploy/utils.py:6-11 | a slice exists exactly when some `{` comes before some `}`; it occurs in the text from the first `{` to the last `}`, so it starts with `{` and ends with `}` |
| `Recovery.JsonLineAtIsRegex` | deploy/utils.py:168 | the hand-written line test holds exactly when `^\s*json\s*$` (multi-line, case-insensitive) has a match whose word is at that index: whitespace back to a line start and on to a line end |
| `Recovery.LastJsonLine` | deploy/utils.py:167-169 | -1 exactly when no line is a `json` line, otherwise the index of the last one |
| `Recovery.TextAfterAssistant` | deploy/utils.py:162-174 | the result is a suffix of the input; with no marker it is the whole input, otherwise it does not start with whitespace |
| `Recovery.TextAfterJsonLine` | deploy/utils.py:170-171 | when some line is `json`, the result is the text after the last such line, left-stripped |
| `Recovery.TextAfterAssistantWord` | deploy/utils.py:172-174 | with no `json` line but an `assistant` in any case, the result is the text after the last `assistant`, left-stripped |
| `Recovery.TextAfterNoMarker` | deploy/utils.py:172-174 | with neither marker the input comes back unchanged |
| `Recovery.ExtractBalancedJson` | deploy/utils.py:176-204 | the early-returning loop yields the text of the first complete top-level object of the full scan; `None` exactly when no object closes; the result starts with `{` and ends with `}` |
| `Recovery.FirstCloseIsFirstSpan` | deploy/utils.py:199-203 | the first `}` that brings the depth back to zero closes the first span of the whole text |
| `Recovery.JsonAfterAssistant` | deploy/utils.py:206-229 | the parsed tail when it parses; else `None` when no object closes; else the parsed first block, or the parse of its repair |
| `Scanner.Step` | scripts/generate_synthetic_plans.py:61-82 | one character: at most one span is added, exactly when an unescaped-string `}` closes depth 1 of an open object, and it runs from the object's start through this character; inside a string depth and start do not move; a string opens or closes only on an unescaped quote |
| `Scanner.Spans` | scripts/generate_synthetic_plans.py:55-82 | every span lies inside the text, starts on `{` and ends on `}`, and spans come left to right without overlapping |
| `Scanner.SpansAreBalanced` | scripts/generate_synthetic_plans.py:55-82 | scanning one span's text on its own finds exactly one object, covering all of it |
| `Scanner.InStringCharIrrelevant` | deploy/utils.py:185-191 | changing a character inside a string literal (one that is not a quote or backslash, or one that is escaped) leaves the spans unchanged: braces in strings do not count |
| `Scanner.SpansOfExtension` | scripts/generate_synthetic_plans.py:61-82 | appending text never removes or alters a span already found, so a truncated object is simply missing |
| `Scanner.ScanInv` | scripts/generate_synthetic_plans.py:56-82 | after any prefix the scanner state is consistent: closed spans ordered and balanced, an open object started on a `{` after them |
| `SynthRecovery.CollectSpans` | scripts/generate_synthetic_plans.py:55-82 | the scanning loop collects exactly the spans of the scanner fold |
| `SynthRecovery.AtOrAfter` | scripts/generate_synthetic_plans.py:97 | the kept spans are a subsequence of the spans, all at or after the bound, and no span at or after it is dropped |
| `SynthRecovery.CandidatesAnchored` | scripts/generate_synthetic_plans.py:95-99 | when some span starts at or after the last `assistant`, the candidates are exactly such spans in order; otherwise every span is a candidate |
| `SynthRecovery.SelectBest` | scripts/generate_synthetic_plans.py:101-110 | the pick parses, no parsing candidate is longer, every earlier parsing candidate is strictly shorter; no pick only when none parses |
| `SynthRecovery.BestUnique` | scripts/generate_synthetic_plans.py:101-110 | at most one candidate meets the pick's description, so the choice is determined |
| `SynthRecovery.PickCandidate` | scripts/generate_synthetic_plans.py:101-120 | returns the parse of the longest parsing candidate (the first on a tie); if none parses, the repair of the first longest candidate |
| `SynthRecovery.RepairNaiveSlice` | scripts/generate_synthetic_plans.py:84-93 | with no candidates, the parse of the repaired first-`{`-to-last-`}` slice, `None` when there is no such slice |
| `SynthRecovery.TryParseJson` | scripts/generate_synthetic_plans.py:37-120 | the stripped text's own parse when it has one; else the naive-slice repair when no object closes; else the candidate pick |
| `Budget.ParsePctOfShape` | deploy/utils.py:44 | whitespace, a decimal number, whitespace, an optional `%`, whitespace: every such string reads as that number |
| `Budget.ParsePctHasShape` | deploy/utils.py:44 | conversely, the text read as a number sits between leading whitespace and a tail of whitespace with at most one `%` |
| `Budget.ToFraction` | deploy/utils.py:46-57 | a number in [0, 1] is kept, any other number is divided by 100; a string `_pct` reads as `v` gives `v` when `v` is in [0, 1] and `v / 100` otherwise; anything else is 0; values up to 100 land in [0, 1] |
| `Budget.ToFractionSpellingsAgree` | deploy/utils.py:46-57 | `"60"`, `" 60 % "` and `60` give the same fraction |
| `Budget.ToFractionDecimalString` | deploy/utils.py:52-56 | a string `a.b` gives the fraction of the number a.b |
| `Budget.RenormPairs` | deploy/utils.py:59-75 | empty when the total is not positive; otherwise the same labels in order, each share `round(v/total, 2)` with the drift added to the first largest share and clamped at 0 |
| `Budget.FixDriftAdjusts` | deploy/utils.py:68-74 | only the first largest rounded share changes, becoming the drift-corrected value clamped at 0 |
| `Budget.SharesSumNear` | deploy/utils.py:66-67 | before the drift fix the rounded shares are within half a hundredth per entry of a whole |
| `Budget.SharesInRange` | deploy/utils.py:66-67 | with non-negative weights each rounded share is between 0 and 1 |
| `Budget.DriftNeverClamps` | deploy/utils.py:69-74 | with at most fifteen non-negative shares the corrected largest share is never negative |
| `Budget.RenormSumsToOne` | deploy/utils.py:59-75 | with non-negative weights, a positive total and at most fifteen entries, the shares sum to exactly 1.00 (the promised "sum ~1.0" with drift fixed) and each lies in [0, 1] |
| `Budget.RenormClampsEighteenEqual` | deploy/utils.py:69-74 | eighteen equal weights give shares summing to 1.02: the clamp leaves drift uncorrected |
| `Budget.RenormClampsSeventeen` | deploy/utils.py:69-74 | six weights of 79 and eleven of 66 give shares summing to 1.01: seventeen entries already defeat the drift fix |
| `Budget.RenormPairsFixedPoint` | deploy/utils.py:59-75 | shares that already sum to 1.00 come back unchanged |
| `Budget.ArgMax` | deploy/utils.py:72 | the first index holding the maximum |
| `Budget.NormalizeBudgetSplit` | deploy/utils.py:13-24 | only `budget_split` changes; a non-list, or numeric pairs totalling at most 0, leaves the plan as it is; otherwise the list becomes only the numeric pairs with rounded shares, near a whole |
| `Budget.NumericPairsOfRows` | deploy/utils.py:20-22 | rows `[label, h/100]` are read back as exactly those pairs |
| `Budget.NormalizeBudgetSplitFixedPoint` | deploy/utils.py:13-24 | a plan whose split already sums to 1.00 comes back unchanged |
| `Rounding.RoundHalfEven` | deploy/utils.py:67 | the nearest integer, ties to the even one |
| `Rounding.RoundHalfEvenUnique` | deploy/utils.py:67 | any integer within half of x, even on a tie, is the rounding of x |
| `Rounding.HundredthsOfExact` | deploy/utils.py:67 | rounding an exact hundredth to two places gives it back |
| `Align.DefaultActivation` | deploy/utils.py:34-42 | each activation is chosen exactly when its test is the first to pass on the lower-cased name: `line`, `facebook`, `instagram`, `tiktok` by substring, then `twitter` or the exact name `x`, then `email`, else the generic plan |
| `Align.AssetText` | deploy/utils.py:93-100 | a string asset is kept, a dict gives a string, anything else is dropped; a dict whose name and description have clean ends reads `"name: description"`, or the name alone with no description |
| `Align.JoinAssetReads` | deploy/utils.py:97-100 | a clean name and description join as `"name: description"`, and a name with no description stays the name |
| `Align.AssetTextsKeepStrings` | deploy/utils.py:90-101 | a list of strings passes through unchanged |
| `Align.AlignAssets` | deploy/utils.py:89-101 | a non-list `assets` becomes empty; a list gives one string per string or dict entry, in order, each that entry's asset text |
| `Align.AssetTexts` | deploy/utils.py:92-100 | one string per string or dict entry in order, each the entry's asset text; other entries contribute nothing |
| `Align.HoistMetrics` | deploy/utils.py:112-115 | existing KPI entries are kept, each listed metric on the channel and missing from `kpis` is copied in, nothing else changes |
| `Align.HoistMetricsKeys` | deploy/utils.py:112-115 | the KPI keys afterwards are exactly the old ones plus the listed metrics present on the channel |
| `Align.ChosenName` | deploy/utils.py:109 | the truthy `name`, else the truthy `channel`, else `"Channel"` |
| `Align.ChosenActivation` | deploy/utils.py:110 | the truthy `activation`, else the truthy `description`, else the default activation of the chosen name; always truthy |
| `Align.HoistedKpis` | deploy/utils.py:111-115 | a falsy `kpis` becomes `{}` holding the metrics found on the channel; an object gains the metrics it lacks; any other value is kept |
| `Align.FixChannel` | deploy/utils.py:105-116 | strings and dicts give a `{name, activation, kpis}` object and nothing else does; a string gets its default activation and `{}`; a dict gets its chosen name, chosen activation and hoisted `kpis` |
| `Align.FixChannels` | deploy/utils.py:104-117 | one fixed channel per string or dict entry, in order, each that entry's `FixChannel` result; other entries contribute nothing |
| `Align.BudgetLabel` | deploy/utils.py:127 | the truthy `channel`, else `name`, else `label`, else `"Other"` |
| `Align.PyFloat` | deploy/utils.py:134 | `float()`: numbers as they are, strings through the supplied parser, anything else raises |
| `Align.BudgetPair` | deploy/utils.py:123-134 | a pair exactly for two-element rows and dicts with `percentage`, `weight` or `allocation`; a row gives `(str(label), fraction)`; a dict gives its label with the fraction of `percentage`, else of `weight`, else the `float` of `allocation` |
| `Align.BudgetPairs` | deploy/utils.py:120-134 | one pair per entry the loop reads, in order, each that entry's pair |
| `Align.FindOrig` | deploy/utils.py:138 | the first original channel dict whose name equals the given one, or none when no dict matches |
| `Align.WeightPair` | deploy/utils.py:137-140 | a pair exactly when the first original dict with the channel's name carries a `weight`, and then the name with that weight's fraction |
| `Align.WeightPairs` | deploy/utils.py:136-140 | one pair per fixed channel whose original carries a `weight`, in channel order, each that channel's pair |
| `Align.AlignPairs` | deploy/utils.py:119-141 | the pairs read from `budget_split` when it is a list holding an entry the loop reads; otherwise the channel-weight fallback |
| `Align.WeightPairsWithoutWeights` | deploy/utils.py:136-140 | when no original channel carries a `weight`, the fallback yields nothing |
| `Align.PyInt` | deploy/utils.py:145-148 | `int()` keeps ints and bools, truncates floats toward zero (within one, on the side of zero), and fails on null, lists and dicts |
| `Align.AlignWeeks` | deploy/utils.py:143-149 | always at least 1; 4 when missing or not convertible; otherwise the integer clamped to at least 1 |
| `Align.AlignText` | deploy/utils.py:151-154 | a string is kept, a missing or falsy value becomes `""` |
| `Align.Install` | deploy/utils.py:101-158 | the eight schema fields hold the computed values, `kpis` becomes an object when it is not one, and every other field is untouched |
| `Align.AlignPlan` | deploy/utils.py:79-160 | every schema field holds what its step computes, an object `kpis` is kept, and fields outside the schema are untouched |
| `Align.FixSettledChannel` | deploy/utils.py:105-116 | a channel already in the serving shape comes back unchanged |
| `Align.FixChannelsSettle` | deploy/utils.py:104-117 | non-empty string names and object KPIs give channels in the serving shape |
| `Align.AlignPlanFixedPoint` | deploy/utils.py:79-160 | a plan already in the serving schema, with shares summing to 1.00, comes back unchanged |
| `Align.AlignPlanIdempotent` | deploy/utils.py:79-160 | aligning an aligned plan changes nothing, when its channels and budget settle on the first pass |
| `SynthSchema.NormalizePlan` | scripts/generate_synthetic_plans.py:122-128 | only `budget_split` changes, and a non-list or a total of at most 0 leaves the plan as it is |
| `SynthSchema.NormalizePlanAgrees` | scripts/generate_synthetic_plans.py:122-128 | on inputs where it does not raise it computes the same as the serving `normalize_budget_split` |
| `SynthSchema.PlanRowsArePairRows` | scripts/generate_synthetic_plans.py:125-127 | the rewritten rows are the numeric pairs with their rounded shares |
| `SynthSchema.SynthActivation` | scripts/generate_synthetic_plans.py:130-144 | each activation is chosen exactly when its test is the first to pass: facebook, instagram, tiktok by substring, LINE only for three exact names, then influencer, then outdoor or ooh, else the generic text |
| `SynthSchema.ActivationTablesDiffer` | scripts/generate_synthetic_plans.py:130-144 | `Online` gets LINE from the serving table but the generic text here; `LINE + Facebook` gets LINE there and Facebook here |
| `SynthSchema.SynthAssetText` | scripts/generate_synthetic_plans.py:152-159 | strings are kept, dicts give their `type: format` text or the bare `type`/`name`, anything else is dropped; a type and format with clean ends read `"type: format"` |
| `SynthSchema.SynthAssets` | scripts/generate_synthetic_plans.py:150-158 | one asset text per string or dict entry, in input order, each the entry's `SynthAssetText` |
| `SynthSchema.SynthAssetsKeepStrings` | scripts/generate_synthetic_plans.py:150-160 | a list of strings passes through unchanged |
| `SynthSchema.PercPairs` | scripts/generate_synthetic_plans.py:172-175 | the dicts with a numeric `percentage`, in order, each as (label, percentage / 100); nothing else, so no dicts means no pairs |
| `SynthSchema.AmountPairs` | scripts/generate_synthetic_plans.py:169-177 | the amount entries in order: a `[label, number]` row as `(str(label), number)`, a dict without a numeric `percentage` as (label, allocation) |
| `SynthSchema.ScaledSharesNear` | scripts/generate_synthetic_plans.py:179-184 | the rounded shares are within half a hundredth per entry of a whole, and within [0, 1] for non-negative values |
| `SynthSchema.SynthBudget` | scripts/generate_synthetic_plans.py:162-186 | empty for a non-list; the percentage entries when any exist; otherwise the list pairs and allocations, each scaled and rounded without a drift fix |
| `SynthSchema.AmountPairsOfRows` | scripts/generate_synthetic_plans.py:170-171 | rows `[label, h/100]` are read back as exactly those amounts, with no percentage entries |
| `SynthSchema.SynthBudgetFixedPoint` | scripts/generate_synthetic_plans.py:162-186 | a split already summing to 1.00 comes back unchanged |
| `SynthSchema.SynthChannel` | scripts/generate_synthetic_plans.py:191-203 | strings and dicts give a `{name, activation, kpis}` object with a truthy activation; a string gets this table's activation and `{}`; a dict's name is the truthy `name`, else `channel`, else `"Channel"`, and its activation is the truthy `activation`, else this table's default for that name, never its `description` |
| `SynthSchema.SynthChannelKpis` | scripts/generate_synthetic_plans.py:194-200 | truthy `kpis` are kept as they are; otherwise the new `kpis` hold exactly the five metrics present on the channel, with their values |
| `SynthSchema.CopyMetrics` | scripts/generate_synthetic_plans.py:198-200 | the copy holds exactly the listed metrics present on the channel, with their values |
| `SynthSchema.SynthChannels` | scripts/generate_synthetic_plans.py:189-204 | one channel per string or dict entry, in input order, each the entry's `SynthChannel`; every channel out is a `{name, activation, kpis}` object with a truthy activation |
| `SynthSchema.SynthSettledChannel` | scripts/generate_synthetic_plans.py:190-203 | a channel already in the serving shape comes back unchanged |
| `SynthSchema.SynthDefaults` | scripts/generate_synthetic_plans.py:206-211 | existing fields are never overwritten; each missing required field gets its default; a plan with all of them is unchanged |
| `SynthSchema.NormalizeToSchema` | scripts/generate_synthetic_plans.py:146-213 | fields outside the schema are untouched; `assets` is rewritten only when it is a list; `budget_split` and `channels` are always set |
| `SynthSchema.NormalizeToSchemaDefaults` | scripts/generate_synthetic_plans.py:206-211 | present required fields keep their values, absent ones get `""`, `4` or `{}`; weeks are not clamped |
| `SynthSchema.NormalizeToSchemaShape` | scripts/generate_synthetic_plans.py:162-204 | every channel is normalised; the split is `[]`, the percentage rows, or the amount rows, as the input decides |
| `SynthSchema.NormalizeToSchemaFixedPoint` | scripts/generate_synthetic_plans.py:146-213 | a plan already in the serving shape comes back unchanged |
| `Split.NormalizeValSize` | scripts/split_jsonl.py:28-36 | an error exactly for a fraction outside (0, 1]; otherwise the rounded request clamped into [1, n-1], and 0 below two rows |
| `Split.CliCountRejected` | scripts/split_jsonl.py:105 | a count given on the command line, such as 50, is rejected |
| `Split.CliValSizeIntended` | scripts/split_jsonl.py:105 | the documented reading: at most 1 is a fraction, a larger whole number is a count |
| `Split.CliValSizeIntendedAccepts` | scripts/split_jsonl.py:105 | under the documented reading every documented value is accepted, and a count that fits is used as given |
| `Split.KeyOfRow` | scripts/split_jsonl.py:41-46 | the key field's text when a key is named and present, otherwise the fingerprint |
| `Split.Dedupe` | scripts/split_jsonl.py:38-51 | an order-preserving subsequence holding exactly the first row of each key, no two sharing a key |
| `Split.Buckets` | scripts/split_jsonl.py:55-58 | the bucket labels are the group labels in first-seen order, each bucket holds exactly the rows carrying its label in input order, and together they hold the input rows |
| `Split.Groups` | scripts/split_jsonl.py:64 | the labels of the buckets, in bucket order |
| `Split.AddRowOk` | scripts/split_jsonl.py:56-58 | adding a row keeps the buckets well formed and adds exactly that row |
| `Split.Quota` | scripts/split_jsonl.py:63-67 | no rows for an empty group; a single row goes to validation exactly when a validation row is wanted; a larger group sends at least one, else its share `size * k_val / n` within half a row |
| `Split.QuotaWithinGroup` | scripts/split_jsonl.py:67-69 | no group sends more rows than it has |
| `Split.Distribute` | scripts/split_jsonl.py:60-69 | whatever the shuffles, train plus validation is a permutation of the bucketed rows |
| `Split.DistributeTakesQuotas` | scripts/split_jsonl.py:64-69 | validation holds exactly the sum of the groups' quotas |
| `Split.PyCut` | scripts/split_jsonl.py:76-77 | Python slice bounds: negative counts from the end, both clamped into the list |
| `Split.ShedExcess` | scripts/split_jsonl.py:73-77 | surplus validation rows move to train: a permutation, validation shrinks to `k_val` and keeps only its own rows |
| `Split.FillShortfall` | scripts/split_jsonl.py:79-83 | missing validation rows come from train: a permutation, validation grows as far as the rows allow and keeps its prefix |
| `Split.Rebalance` | scripts/split_jsonl.py:71-83 | after rebalancing, validation holds `min(k_val, rows)` rows and the parts are a permutation of what they were |
| `Split.StratifiedSplit` | scripts/split_jsonl.py:53-84 | for any shuffles, train plus validation is a permutation of the input and validation holds `k_val` rows whenever `0 <= k_val <= n` |
| `Split.RandomSplit` | scripts/split_jsonl.py:86-92 | validation then train is the shuffled input; validation holds `min(k_val, n)` rows |
| `Split.Counts` | scripts/split_jsonl.py:97 | each label appears once with the number of rows carrying it, and the counts total the row count |
| `Split.MostCommon` | scripts/split_jsonl.py:98 | the same entries, ordered by count, largest first; entries with equal counts keep their first-seen order |
| `Split.TalliesPermutation` | scripts/split_jsonl.py:98 | reordering the entries keeps their total |
| `Split.MostCommonKeepsCounts` | scripts/split_jsonl.py:98 | ordering keeps labels distinct and counts correct |
| `Split.ComputeStats` | scripts/split_jsonl.py:94-99 | `count` is the row count; with a key, each group once, largest first and ties in first-seen order, with its row count, the counts totalling `count` |
| `Qc.PackText` | scripts/qc_and_dedupe.py:8-11 | the packed text splits back into title, big idea and key message when the first two hold no separator |
| `Qc.Passes` | scripts/qc_and_dedupe.py:19-23 | a passing record has at least one channel, a truthy title and a week count between 1 and 24 that is present |
| `Qc.Names` | scripts/qc_and_dedupe.py:25 | one name per dict with a string `name`, in order; none when no entry is such a dict |
| `Qc.CoarseKeyOf` | scripts/qc_and_dedupe.py:25 | the key is the input's `industry` and `objective` with a channel part; the channel part is the three smallest names, or all of them when fewer, in sorted order, drawn from the names, with no left-out name sorting before a kept one |
| `Qc.CoarseKeyIgnoresOrder` | scripts/qc_and_dedupe.py:25 | records with the same industry, objective and channel names in any order share a key |
| `Qc.GateAndDedupe` | scripts/qc_and_dedupe.py:14-29 | the first passing record of each coarse key, in order: all pass, keys are distinct, the first passing record is kept |
| `Qc.Recent` | scripts/qc_and_dedupe.py:37 | the last 500 texts, or all of them |
| `Qc.Prune` | scripts/qc_and_dedupe.py:32-41 | the kept records are an order-preserving subsequence |
| `Qc.PruneSnoc` | scripts/qc_and_dedupe.py:34-41 | a record is kept exactly when its text is not above 0.92 similar to a recent kept text |
| `Qc.WindowHasDuplicate` | scripts/qc_and_dedupe.py:36-39 | reports a duplicate exactly when some windowed text is more than 0.92 similar |
| `Qc.PruneLoop` | scripts/qc_and_dedupe.py:32-41 | the loop computes the prune fold |
| `Qc.PruneKeepsFirst` | scripts/qc_and_dedupe.py:34-41 | the first record is always kept |
| `Qc.PruneSpaced` | scripts/qc_and_dedupe.py:37-41 | any two kept records at most 500 apart are at most 0.92 similar |
| `Qc.FuzzyPrune` | scripts/qc_and_dedupe.py:31-41 | an order-preserving subsequence that keeps the first record and keeps no near duplicates within the window |
| `Qc.Clean` | scripts/qc_and_dedupe.py:13-41 | the cleaned records are the fuzzy prune of the first passing record per coarse key: a subsequence of the input, all passing the gate, with distinct coarse keys, starting with the first passing record, and no two at most 500 apart more than 0.92 similar |
| `Seqs.FirstPerKeyKeepsFirsts` | scripts/split_jsonl.py:47-50 | the first row of every key is kept |
| `Seqs.FirstPerKeyOnlyFirsts` | scripts/split_jsonl.py:47-50 | only first rows of a key are kept |
| `Seqs.FirstPerKeyCovers` | scripts/split_jsonl.py:47-50 | every key of the input is the key of some kept row |
| `Seqs.FilterThenDedupe` | scripts/qc_and_dedupe.py:16-29 | the loop computes the first passing record per key |
| `Sorting.SortStringsCanonical` | scripts/qc_and_dedupe.py:25 | sorting depends only on which names occur, and how often |
| `Json.FirstTruthy` | deploy/utils.py:109-110 | `a.get(k1) or a.get(k2) or default`: the first truthy value among the keys, else the default |
| `Json.SetDefault` | scripts/generate_synthetic_plans.py:207-211 | an existing key is left alone, a missing one is appended, other keys are untouched |
| `Json.Put` | deploy/utils.py:101 | assignment sets the key in place or appends it, and leaves other keys alone |
| `Text.LStrip` | deploy/utils.py:171 | the result is the input after its leading whitespace |
| `Text.LastIndexOf` | deploy/utils.py:173 | `rfind`: the last occurrence, -1 exactly when there is none |
| `Text.StripChars` | deploy/utils.py:99 | `strip(": ")`: the result is an infix of the input with only stripped characters cut from either end, and it neither starts nor ends with one |

## Left out

- File I/O, `argparse` and the `main` plumbing of the scripts are not modelled. The model
  generation, prompt building and training code is not part of this model. Nor are the
  HTTP, UI and validation wrappers.
- JSON parsing, `json_repair`, `json.dumps`, the md5 fingerprint, `difflib` and Python's
  `str()` of floats and containers are parameters, not definitions.
- Floating point is exact reals. `round(x, 2)` is round-half-to-even on integer hundredths,
  so IEEE results such as `round(2.675, 2) == 2.67` are not reproduced.
- The regular expressions are hand-written predicates. Whitespace is `str.isspace`'s
  Unicode set, but case folding is ASCII-only, so `lower()` of non-ASCII letters is not
  modelled.
- Python's crashes are preconditions, not results: an `allocation` that `float()` rejects,
  a non-string asset name, `.lower()` on a non-string channel name, and the like.
- Align.PyFloat: `float()` of a string is a supplied parser, so which strings it accepts
  (`"inf"`, `"nan"`, `"1_0"`, surrounding whitespace) is left to that parser.
- Align.PyInt: a string reads only as an optionally signed run of ASCII digits between
  whitespace. Python's `int()` also accepts underscores between digits (`"1_0"`) and
  non-ASCII decimal digits; the model turns such strings into the 4-week default.
- `align_plan_to_schema` copies only the top level, so hoisting metrics mutates the
  caller's nested `kpis`. The pure model returns new values and does not show that
  aliasing.
- Budget.RenormSumsToOne: the exact 1.00 sum is proved for at most fifteen entries. The
  clamp can fire with seventeen entries (see `Budget.RenormClampsSeventeen`); sixteen
  entries are not covered either way.
- Align.AlignPlanIdempotent: proved for plans whose channels and budget settle on the
  first pass (non-empty string channels, object KPIs, shares summing to 1.00). Other plans
  are not covered.
- Qc.Prune: states only that the result is a subsequence. What is kept is stated by
  `Qc.PruneSnoc`, `Qc.PruneKeepsFirst` and `Qc.PruneSpaced`.
- Qc.CoarseKeyOf: channel names are modelled as strings only, so `Qc.EntryDefined` drops
  records that Python keys without error: channels whose names are all numbers (bools
  included), or a single named channel whose name is a number, `null` or a bool. Python
  raises only when names of unorderable types meet in `sorted` (a string and a number, two
  `null`s) or when a name is a list or dict, which cannot be hashed.
- Json.PyEq: lists and objects compare structurally, with object keys in order, where
  Python has `[1] == [1.0]` and ignores dict key order. This matters only in
  `Align.NamedAs`, when a truthy `activation` lets a non-string channel name through.
- Split.StratifiedSplit: each `rng.shuffle` call is an arbitrary permutation, not the seeded
  Mersenne Twister. So which rows land in validation is not determined.
- SynthRecovery.TryParseJson: `repair_json` returning something other than a string is
  folded into "raises".

## Findings

| source | as written | input that shows it | evidently intended | confidence | as-written member | corrected member |
|---|---|---|---|---|---|---|
| scripts/split_jsonl.py:105 | `--val-size` is declared `type=float`, so `normalize_val_size` always sees a float and rejects every value above 1 | `--val-size 50` on any input: `ValueError`, although the help text offers "integer (>=1)" | a whole number above 1 is a row count and is clamped like an int | medium, not executed | `Split.CliCountRejected` | `Split.CliValSizeIntended`, proved by `Split.CliValSizeIntendedAccepts` |

=== FILE: align.dfy ===
/** `align_plan_to_schema` (deploy/utils.py): turn a raw plan as a model wrote it into the
    serving schema — assets as strings, channels as `{name, activation, kpis}`, the budget
    as `[[label, share]]` rows summing to one, a whole number of weeks, string text fields
    and a `kpis` object. A plan is the list of fields of a decoded JSON object. */
module Align {
  import opened Wrappers
  import opened Text
  import opened Json
  import opened Seqs
  import opened Budget

  // ---------------------------------------------------------------- `_default_activation_for`

  const LineActivation := "OA broadcast + coupon/stamp card"
  const FacebookActivation := "Paid + organic posts with short-form video"
  const InstagramActivation := "Reels + Stories with branded content"
  const TikTokActivation := "Short-form UGC challenge + creator collab"
  const TwitterActivation := "Community engagement threads"
  const EmailActivation := "Newsletter & lifecycle automations"
  const GenericActivation := "Channel activation plan"

  /** `_default_activation_for`: the first platform named in the lower-cased name decides;
      `line` is checked first, so any name containing it (`Online`, `Offline`) gets the LINE
      activation. */
  function DefaultActivation(name: string): (r: string)
    ensures var n := Lower(name);
      && (r == LineActivation <==> Contains(n, "line"))
      && (r == FacebookActivation <==> !Contains(n, "line") && Contains(n, "facebook"))
      && (r == InstagramActivation <==>
            !Contains(n, "line") && !Contains(n, "facebook") && Contains(n, "instagram"))
      && (r == TikTokActivation <==>
            !Contains(n, "line") && !Contains(n, "facebook") && !Contains(n, "instagram")
            && Contains(n, "tiktok"))
      && (r == TwitterActivation <==>
            !Contains(n, "line") && !Contains(n, "facebook") && !Contains(n, "instagram")
            && !Contains(n, "tiktok") && (Contains(n, "twitter") || n == "x"))
      && (r == EmailActivation <==>
            !Contains(n, "line") && !Contains(n, "facebook") && !Contains(n, "instagram")
            && !Contains(n, "tiktok") && !Contains(n, "twitter") && n != "x"
            && Contains(n, "email"))
      && (r == GenericActivation <==>
            !Contains(n, "line") && !Contains(n, "facebook") && !Contains(n, "instagram")
            && !Contains(n, "tiktok") && !Contains(n, "twitter") && n != "x"
            && !Contains(n, "email"))
  {
    var n := Lower(name);
    if Contains(n, "line") then LineActivation
    else if Contains(n, "facebook") then FacebookActivation
    else if Contains(n, "instagram") then InstagramActivation
    else if Contains(n, "tiktok") then TikTokActivation
    else if Contains(n, "twitter") || n == "x" then TwitterActivation
    else if Contains(n, "email") then EmailActivation
    else GenericActivation
  }

  /** `(name or "")` before `.lower()`: a falsy name reads as the empty string; a truthy one
      must be a string. */
  predicate NameUsable(name: JsonValue) {
    !Truthy(name) || name.JStr?
  }

  function NameText(name: JsonValue): string
    requires NameUsable(name)
  {
    if Truthy(name) then name.s else ""
  }

  // ---------------------------------------------------------------- 1) assets

  /** The chosen name of an asset object: `a.get("name") or a.get("type") or "Asset"`. */
  function AssetName(m: Fields): JsonValue {
    FirstTruthy(m, ["name", "type"], JStr("Asset"))
  }

  /** The chosen description: `a.get("description") or a.get("format") or ""`. */
  function AssetDesc(m: Fields): JsonValue {
    FirstTruthy(m, ["description", "format"], JStr(""))
  }

  /** `.strip()` is called on the chosen name and description, so they must be strings. */
  predicate AssetUsable(a: JsonValue) {
    a.JObj? ==> AssetName(a.fields).JStr? && AssetDesc(a.fields).JStr?
  }

  /** A name and description that the final `strip(": ").strip()` leaves alone: the name is
      non-empty and starts with neither a colon nor whitespace, and the joined text ends with
      neither. */
  predicate CleanAsset(nm: string, desc: string) {
    && |nm| > 0 && nm[0] != ':' && !IsSpace(nm[0])
    && (|desc| > 0 ==> desc[|desc| - 1] != ':' && !IsSpace(desc[|desc| - 1]))
    && (|desc| == 0 ==> nm[|nm| - 1] != ':' && !IsSpace(nm[|nm| - 1]))
  }

  /** The asset line the transformer means to write: `"name: description"`, or the name
      alone when there is no description. */
  function AssetLine(nm: string, desc: string): string {
    if |desc| > 0 then nm + ": " + desc else nm
  }

  /** One asset: a string stays; an object becomes `"name: description"` from its stripped
      name and description, with the separator dropped when there is no description;
      anything else is skipped (`None`). */
  function AssetText(a: JsonValue): (r: Option<string>)
    requires AssetUsable(a)
    ensures a.JStr? ==> r == Some(a.s)
    ensures r.Some? <==> IsStrOrObj(a)
    ensures a.JObj? ==>
      var nm := Strip(AssetName(a.fields).s);
      var desc := Strip(AssetDesc(a.fields).s);
      CleanAsset(nm, desc) ==> r == Some(AssetLine(nm, desc))
  {
    match a
    case JStr(s) => Some(s)
    case JObj(m) =>
      var nm := Strip(AssetName(m).s);
      var desc := Strip(AssetDesc(m).s);
      assert CleanAsset(nm, desc) ==> JoinAsset(nm, desc) == AssetLine(nm, desc) by {
        if CleanAsset(nm, desc) {
          JoinAssetReads(nm, desc);
        }
      }
      Some(JoinAsset(nm, desc))
    case _ => None
  }

  /** `f"{nm}: {desc}".strip(": ").strip()`, falling back to `nm` when that is empty. */
  function JoinAsset(nm: string, desc: string): string {
    var s := Strip(StripChars(nm + ": " + desc, {':', ' '}));
    if |s| > 0 then s else nm
  }

  lemma StripCharsKeeps(s: string, cs: set<char>)
    requires |s| > 0 && s[0] !in cs && s[|s| - 1] !in cs
    ensures StripChars(s, cs) == s
  {
  }

  lemma StripKeeps(s: string)
    requires |s| > 0 && !IsSpace(s[0]) && !IsSpace(s[|s| - 1])
    ensures Strip(s) == s
  {
    assert LStrip(s) == s;
  }

  /** An object asset with a name and a description reads `name: description`, and one
      without a description reads as its name, whenever the name does not start, and the
      text does not end, with a colon or a space. */
  lemma JoinAssetReads(nm: string, desc: string)
    requires |nm| > 0 && nm[0] != ':' && nm[0] != ' ' && !IsSpace(nm[0])
    requires |desc| > 0 ==>
      desc[|desc| - 1] != ':' && desc[|desc| - 1] != ' ' && !IsSpace(desc[|desc| - 1])
    requires |desc| == 0 ==>
      nm[|nm| - 1] != ':' && nm[|nm| - 1] != ' ' && !IsSpace(nm[|nm| - 1])
    ensures |desc| > 0 ==> JoinAsset(nm, desc) == nm + ": " + desc
    ensures |desc| == 0 ==> JoinAsset(nm, desc) == nm
  {
    var joined := nm + ": " + desc;
    if |desc| > 0 {
      assert joined[|joined| - 1] == desc[|desc| - 1];
      StripCharsKeeps(joined, {':', ' '});
      StripKeeps(joined);
    } else {
      StripCharsTail(nm);
      StripKeeps(nm);
    }
  }

  /** Stripping `": "` off `nm + ": "` gives back `nm` when `nm` has clean ends. */
  lemma StripCharsTail(nm: string)
    requires |nm| > 0 && nm[0] != ':' && nm[0] != ' '
    requires nm[|nm| - 1] != ':' && nm[|nm| - 1] != ' '
    ensures StripChars(nm + ": " + "", {':', ' '}) == nm
  {
    var s := nm + ": " + "";
    assert s[..|s| - 1] == nm + ":";
    assert (nm + ":")[..|nm|] == nm;
    StripCharsKeeps(nm, {':', ' '});
  }

  predicate AssetsUsable(v: JsonValue) {
    v.JArr? ==> forall j :: 0 <= j < |v.items| ==> AssetUsable(v.items[j])
  }

  /** The asset strings of a list: one for each string or object entry, in order, and
      nothing for the other entries. */
  function AssetTexts(items: seq<JsonValue>): (r: seq<JsonValue>)
    requires forall j :: 0 <= j < |items| ==> AssetUsable(items[j])
    ensures forall j :: 0 <= j < |r| ==> r[j].JStr?
    ensures |r| <= |items|
    ensures var kept := Filter(items, IsStrOrObj);
      && |r| == |kept|
      && forall k :: 0 <= k < |r| ==> AssetUsable(kept[k]) && Some(r[k].s) == AssetText(kept[k])
    ensures (forall j :: 0 <= j < |items| ==> IsStrOrObj(items[j])) ==>
      |r| == |items| && forall j :: 0 <= j < |r| ==> Some(r[j].s) == AssetText(items[j])
  {
    var f := (a: JsonValue) requires AssetUsable(a) =>
      if IsStrOrObj(a) then Some(JStr(AssetText(a).value)) else None;
    CollectImage(items, f, IsStrOrObj);
    FilterFrom(items, IsStrOrObj);
    FilterAllWhen(items, IsStrOrObj);
    Collect(items, f)
  }

  /** A list of strings is already aligned. */
  lemma AssetTextsKeepStrings(items: seq<JsonValue>)
    requires forall j :: 0 <= j < |items| ==> items[j].JStr?
    ensures AssetTexts(items) == items
  {
    var r := AssetTexts(items);
    forall j | 0 <= j < |items|
      ensures IsStrOrObj(items[j])
    {
    }
    assert |r| == |items|;
    forall j | 0 <= j < |r|
      ensures r[j] == items[j]
    {
      var a := items[j];
      assert AssetText(a) == Some(a.s);
      assert r[j] == JStr(a.s);
    }
  }

  /** Step 1: `assets` becomes a list of strings, one per string or object entry in order;
      a non-list becomes the empty list. */
  function AlignAssets(v: JsonValue): (r: seq<JsonValue>)
    requires AssetsUsable(v)
    ensures forall j :: 0 <= j < |r| ==> r[j].JStr?
    ensures !v.JArr? ==> r == []
    ensures v.JArr? ==> var kept := Filter(v.items, IsStrOrObj);
      && |r| == |kept|
      && forall k :: 0 <= k < |r| ==> AssetUsable(kept[k]) && Some(r[k].s) == AssetText(kept[k])
  {
    if v.JArr? then AssetTexts(v.items) else []
  }

  // ---------------------------------------------------------------- 2) channels

  const MetricKeys: seq<string> :=
    ["reach", "ctr", "cpl", "redemption", "membership_signup", "engagement", "retention"]

  /** Python's `k in v` for a string key: `None` when `v` does not support `in`. */
  function PyIn(k: string, v: JsonValue): Option<bool> {
    match v
    case JStr(s) => Some(Contains(s, k))
    case JArr(a) => Some(exists j :: 0 <= j < |a| && a[j] == JStr(k))
    case JObj(m) => Some(HasKey(m, k))
    case _ => None
  }

  /** `ch.get("name") or ch.get("channel") or "Channel"`. */
  function ChosenName(m: Fields): (r: JsonValue)
    ensures TruthyAt(m, "name") ==> Lookup(m, "name") == Some(r)
    ensures !TruthyAt(m, "name") && TruthyAt(m, "channel") ==> Lookup(m, "channel") == Some(r)
    ensures !TruthyAt(m, "name") && !TruthyAt(m, "channel") ==> r == JStr("Channel")
    ensures Truthy(r)
  {
    var keys := ["name", "channel"];
    assert keys[0] == "name" && keys[1] == "channel";
    FirstTruthy(m, keys, JStr("Channel"))
  }

  /** `ch.get("activation") or ch.get("description")`: falsy (`JNull`) when neither is set. */
  function GivenActivation(m: Fields): (r: JsonValue)
    ensures TruthyAt(m, "activation") ==> Lookup(m, "activation") == Some(r)
    ensures !TruthyAt(m, "activation") && TruthyAt(m, "description") ==>
      Lookup(m, "description") == Some(r)
    ensures !TruthyAt(m, "activation") && !TruthyAt(m, "description") ==> r == JNull
    ensures r != JNull ==> Truthy(r)
  {
    var keys := ["activation", "description"];
    assert keys[0] == "activation" && keys[1] == "description";
    FirstTruthy(m, keys, JNull)
  }

  /** The channel's `kpis`, or a fresh `{}` when it is falsy. */
  function ChannelKpis(m: Fields): (r: JsonValue)
    ensures TruthyAt(m, "kpis") ==> Lookup(m, "kpis") == Some(r)
    ensures !TruthyAt(m, "kpis") ==> r == JObj([])
  {
    var keys := ["kpis"];
    assert keys[0] == "kpis";
    FirstTruthy(m, keys, JObj([]))
  }

  /** A metric sitting on the channel is copied into `kpis` with `kpis[k] = ch[k]`, which
      only an object supports; so for any other `kpis`, every such metric must already be
      `in` it. The default activation is computed only when neither `activation` nor
      `description` is set, and then needs a usable name. */
  predicate ChannelUsable(ch: JsonValue) {
    ch.JObj? ==>
      && (!Truthy(GivenActivation(ch.fields)) ==> NameUsable(ChosenName(ch.fields)))
      && var kpis := ChannelKpis(ch.fields);
         !kpis.JObj? ==>
           forall j :: 0 <= j < |MetricKeys| && HasKey(ch.fields, MetricKeys[j]) ==>
             PyIn(MetricKeys[j], kpis) == Some(true)
  }

  /** Copy each listed metric present on the channel and absent from `kpis` into `kpis`. */
  function HoistMetrics(kpis: Fields, ch: Fields, keys: seq<string>): (r: Fields)
    ensures forall k :: HasKey(kpis, k) ==> Lookup(r, k) == Lookup(kpis, k)
    ensures forall j :: 0 <= j < |keys| && HasKey(ch, keys[j]) && !HasKey(kpis, keys[j]) ==>
      Lookup(r, keys[j]) == Lookup(ch, keys[j])
    ensures forall k :: k !in keys ==> Lookup(r, k) == Lookup(kpis, k)
    ensures (forall j :: 0 <= j < |keys| ==> !HasKey(ch, keys[j])) ==> r == kpis
    decreases |keys|
  {
    if |keys| == 0 then kpis
    else
      var k := keys[0];
      var next := if HasKey(ch, k) && !HasKey(kpis, k) then Put(kpis, k, GetOr(ch, k, JNull))
                  else kpis;
      var r := HoistMetrics(next, ch, keys[1..]);
      assert forall j :: 1 <= j < |keys| ==> keys[j] == keys[1..][j - 1];
      r
  }

  /** The keys of the result: those of `kpis` and the listed metrics found on the channel. */
  lemma {:induction false} HoistMetricsKeys(kpis: Fields, ch: Fields, keys: seq<string>)
    ensures forall k :: (HasKey(HoistMetrics(kpis, ch, keys), k)
                         <==> HasKey(kpis, k) || (k in keys && HasKey(ch, k)))
    decreases |keys|
  {
    if |keys| > 0 {
      var k := keys[0];
      var next := if HasKey(ch, k) && !HasKey(kpis, k) then Put(kpis, k, GetOr(ch, k, JNull))
                  else kpis;
      HoistMetricsKeys(next, ch, keys[1..]);
      assert forall x :: x in keys <==> x == k || x in keys[1..];
    }
  }

  /** A normalised channel object. */
  function ChannelObj(name: JsonValue, activation: JsonValue, kpis: JsonValue): JsonValue {
    JObj([("name", name), ("activation", activation), ("kpis", kpis)])
  }

  /** A channel with exactly the fields `name`, `activation` and `kpis`, in that order. */
  predicate NormalChannel(v: JsonValue) {
    v.JObj? && |v.fields| == 3
    && v == ChannelObj(v.fields[0].1, v.fields[1].1, v.fields[2].1)
  }

  function ChannelName(v: JsonValue): JsonValue
    requires NormalChannel(v)
  {
    v.fields[0].1
  }

  function ChannelActivation(v: JsonValue): JsonValue
    requires NormalChannel(v)
  {
    v.fields[1].1
  }

  function ChannelKpisOf(v: JsonValue): JsonValue
    requires NormalChannel(v)
  {
    v.fields[2].1
  }

  /** `activation`, else `description`, else the default activation for the chosen name. */
  function ChosenActivation(m: Fields): (r: JsonValue)
    requires ChannelUsable(JObj(m))
    ensures Truthy(r)
    ensures Truthy(GivenActivation(m)) ==> r == GivenActivation(m)
    ensures !TruthyAt(m, "activation") && !TruthyAt(m, "description") ==>
      r == JStr(DefaultActivation(NameText(ChosenName(m))))
  {
    var given := GivenActivation(m);
    if Truthy(given) then given
    else
      DefaultActivationTruthy(NameText(ChosenName(m)));
      JStr(DefaultActivation(NameText(ChosenName(m))))
  }

  /** The channel's `kpis` with the bare metrics moved in: an object gains the listed
      metrics it lacks; a falsy `kpis` becomes `{}` holding the metrics found on the
      channel; any other value is kept as it is. */
  function HoistedKpis(m: Fields): (r: JsonValue)
    ensures !TruthyAt(m, "kpis") ==> r == JObj(HoistMetrics([], m, MetricKeys))
    ensures TruthyAt(m, "kpis") && GetOr(m, "kpis", JNull).JObj? ==>
      r == JObj(HoistMetrics(GetOr(m, "kpis", JNull).fields, m, MetricKeys))
    ensures TruthyAt(m, "kpis") && !GetOr(m, "kpis", JNull).JObj? ==> r == GetOr(m, "kpis", JNull)
  {
    var kpis := ChannelKpis(m);
    if kpis.JObj? then JObj(HoistMetrics(kpis.fields, m, MetricKeys)) else kpis
  }

  /** One channel: a string `s` becomes `{s, default activation, {}}`; an object keeps its
      name (or `channel`, or `"Channel"`), its activation (or `description`, or the default
      for its name) and its `kpis`, with bare metrics moved into them; anything else is
      skipped (`None`). */
  function FixChannel(ch: JsonValue): (r: Option<JsonValue>)
    requires ChannelUsable(ch)
    ensures r.Some? <==> ch.JStr? || ch.JObj?
    ensures ch.JStr? ==> r == Some(ChannelObj(ch, JStr(DefaultActivation(ch.s)), JObj([])))
    ensures r.Some? ==> NormalChannel(r.value)
    ensures ch.JObj? ==> r.Some? && Truthy(ChannelName(r.value)) && Truthy(ChannelActivation(r.value))
    ensures ch.JObj? && ChannelKpis(ch.fields).JObj? ==> ChannelKpisOf(r.value).JObj?
    ensures ch.JObj? ==>
      r == Some(ChannelObj(ChosenName(ch.fields), ChosenActivation(ch.fields), HoistedKpis(ch.fields)))
  {
    match ch
    case JStr(s) => Some(ChannelObj(ch, JStr(DefaultActivation(s)), JObj([])))
    case JObj(m) => Some(ChannelObj(ChosenName(m), ChosenActivation(m), HoistedKpis(m)))
    case _ => None
  }

  /** Every channel entry is usable. */
  predicate ChannelsUsable(v: JsonValue) {
    PyIter(v).Some?
    && forall j :: 0 <= j < |PyIter(v).value| ==> ChannelUsable(PyIter(v).value[j])
  }

  /** Step 2's loop: one fixed channel per string or object entry, in order, and nothing
      for the other entries. */
  function FixChannels(chs: seq<JsonValue>): (r: seq<JsonValue>)
    requires forall j :: 0 <= j < |chs| ==> ChannelUsable(chs[j])
    ensures |r| <= |chs|
    ensures forall j :: 0 <= j < |r| ==> r[j].JObj?
    ensures var kept := Filter(chs, IsStrOrObj);
      && |r| == |kept|
      && forall k :: 0 <= k < |r| ==> ChannelUsable(kept[k]) && Some(r[k]) == FixChannel(kept[k])
    ensures (forall j :: 0 <= j < |chs| ==> IsStrOrObj(chs[j])) ==>
      |r| == |chs| && forall j :: 0 <= j < |r| ==> Some(r[j]) == FixChannel(chs[j])
  {
    CollectImage(chs, FixChannel, IsStrOrObj);
    FilterFrom(chs, IsStrOrObj);
    FilterAllWhen(chs, IsStrOrObj);
    Collect(chs, FixChannel)
  }

  // ---------------------------------------------------------------- 3) budget_split

  /** Python's `float(s)` on a string: the value it denotes, `None` when `float` raises.
      Supplied by the caller. */
  type FloatParser = string -> Option<real>

  /** `float(v)`: numbers (bools included) as they are, strings through `num`; any other
      value raises (`None`). */
  function PyFloat(v: JsonValue, num: FloatParser): (r: Option<real>)
    ensures IsNumber(v) ==> r == Some(NumValue(v))
    ensures v.JStr? ==> r == num(v.s)
    ensures !IsNumber(v) && !v.JStr? ==> r.None?
  {
    if IsNumber(v) then Some(NumValue(v)) else if v.JStr? then num(v.s) else None
  }

  /** `float(item["allocation"])` is only reached for an object with neither `percentage`
      nor `weight`; it must not raise. */
  predicate BudgetItemUsable(item: JsonValue, num: FloatParser) {
    item.JObj? && !HasKey(item.fields, "percentage") && !HasKey(item.fields, "weight")
      && HasKey(item.fields, "allocation")
    ==> PyFloat(GetOr(item.fields, "allocation", JNull), num).Some?
  }

  predicate BudgetUsable(v: JsonValue, num: FloatParser) {
    v.JArr? ==> forall j :: 0 <= j < |v.items| ==> BudgetItemUsable(v.items[j], num)
  }

  /** The entries step 3 reads: `[label, weight]` rows, and objects carrying a `percentage`,
      a `weight` or an `allocation`. */
  predicate BudgetEntry(item: JsonValue) {
    || (item.JArr? && |item.items| == 2)
    || (item.JObj? && (HasKey(item.fields, "percentage") || HasKey(item.fields, "weight")
                       || HasKey(item.fields, "allocation")))
  }

  /** `item.get("channel") or item.get("name") or item.get("label") or "Other"`. */
  function BudgetLabel(m: Fields): (r: JsonValue)
    ensures TruthyAt(m, "channel") ==> Lookup(m, "channel") == Some(r)
    ensures !TruthyAt(m, "channel") && TruthyAt(m, "name") ==> Lookup(m, "name") == Some(r)
    ensures !TruthyAt(m, "channel") && !TruthyAt(m, "name") && TruthyAt(m, "label") ==>
      Lookup(m, "label") == Some(r)
    ensures !TruthyAt(m, "channel") && !TruthyAt(m, "name") && !TruthyAt(m, "label") ==>
      r == JStr("Other")
  {
    var keys := ["channel", "name", "label"];
    assert keys[0] == "channel" && keys[1] == "name" && keys[2] == "label";
    FirstTruthy(m, keys, JStr("Other"))
  }

  /** One `budget_split` entry as a (label, weight) pair: `[label, weight]` rows take
      `str(label)` and the fraction of the weight; objects take their label and the fraction
      of `percentage`, else of `weight`, else the raw `float` of `allocation`. Anything else
      contributes nothing. */
  function BudgetPair(item: JsonValue, show: Show, num: FloatParser): (r: Option<(JsonValue, real)>)
    requires BudgetItemUsable(item, num)
    ensures r.Some? <==> BudgetEntry(item)
    ensures item.JArr? && |item.items| == 2 ==>
      r == Some((JStr(PyStr(item.items[0], show)), ToFraction(item.items[1])))
    ensures item.JObj? && HasKey(item.fields, "percentage") ==>
      r == Some((BudgetLabel(item.fields), ToFraction(GetOr(item.fields, "percentage", JNull))))
    ensures item.JObj? && !HasKey(item.fields, "percentage") && HasKey(item.fields, "weight") ==>
      r == Some((BudgetLabel(item.fields), ToFraction(GetOr(item.fields, "weight", JNull))))
    ensures item.JObj? && !HasKey(item.fields, "percentage") && !HasKey(item.fields, "weight")
            && HasKey(item.fields, "allocation") ==>
      r == Some((BudgetLabel(item.fields), PyFloat(GetOr(item.fields, "allocation", JNull), num).value))
  {
    match item
    case JArr(a) =>
      if |a| == 2 then Some((JStr(PyStr(a[0], show)), ToFraction(a[1]))) else None
    case JObj(m) =>
      var name := BudgetLabel(m);
      if HasKey(m, "percentage") then Some((name, ToFraction(GetOr(m, "percentage", JNull))))
      else if HasKey(m, "weight") then Some((name, ToFraction(GetOr(m, "weight", JNull))))
      else if HasKey(m, "allocation") then
        Some((name, PyFloat(GetOr(m, "allocation", JNull), num).value))
      else None
    case _ => None
  }

  /** The pairs of a `budget_split` list: one per entry step 3 reads, in order. */
  function BudgetPairs(items: seq<JsonValue>, show: Show, num: FloatParser): (r: seq<(JsonValue, real)>)
    requires forall j :: 0 <= j < |items| ==> BudgetItemUsable(items[j], num)
    ensures |r| <= |items|
    ensures var kept := Filter(items, BudgetEntry);
      && |r| == |kept|
      && forall k :: 0 <= k < |r| ==>
           BudgetItemUsable(kept[k], num) && Some(r[k]) == BudgetPair(kept[k], show, num)
  {
    var f := (x: JsonValue) requires BudgetItemUsable(x, num) => BudgetPair(x, show, num);
    CollectImage(items, f, BudgetEntry);
    FilterFrom(items, BudgetEntry);
    Collect(items, f)
  }

  /** `c.get("name") or c.get("channel")`. */
  function OrigName(c: Fields): JsonValue {
    var n := GetOr(c, "name", JNull);
    if Truthy(n) then n else GetOr(c, "channel", JNull)
  }

  /** The original channel object `c` is named `name`. */
  predicate NamedAs(c: JsonValue, name: JsonValue) {
    c.JObj? && PyEq(OrigName(c.fields), name)
  }

  /** The `next(...)` search: the first original channel object whose name equals `name`. */
  function FindOrig(orig: seq<JsonValue>, name: JsonValue): (r: Option<Fields>)
    ensures r.Some? ==> exists j :: 0 <= j < |orig| && orig[j] == JObj(r.value)
                                    && NamedAs(orig[j], name)
                                    && forall i :: 0 <= i < j ==> !NamedAs(orig[i], name)
    ensures r.None? ==> forall j :: 0 <= j < |orig| ==> !NamedAs(orig[j], name)
  {
    if |orig| == 0 then None
    else if NamedAs(orig[0], name) then Some(orig[0].fields)
    else
      var r := FindOrig(orig[1..], name);
      assert forall j :: 1 <= j < |orig| ==> orig[j] == orig[1..][j - 1];
      assert r.Some? ==> exists j :: 0 <= j < |orig| && orig[j] == JObj(r.value)
                                     && NamedAs(orig[j], name)
                                     && forall i :: 0 <= i < j ==> !NamedAs(orig[i], name) by {
        if r.Some? {
          var j :| 0 <= j < |orig[1..]| && orig[1..][j] == JObj(r.value)
                   && NamedAs(orig[1..][j], name)
                   && forall i :: 0 <= i < j ==> !NamedAs(orig[1..][i], name);
          assert orig[j + 1] == JObj(r.value);
          assert forall i :: 0 <= i < j + 1 ==> !NamedAs(orig[i], name);
        }
      }
      r
  }

  /** The original object found for fixed channel `c` carries a `weight`. */
  predicate OrigWeighted(orig: seq<JsonValue>, c: JsonValue)
    requires c.JObj?
  {
    var o := FindOrig(orig, GetOr(c.fields, "name", JNull));
    o.Some? && HasKey(o.value, "weight")
  }

  /** The fixed channels whose original object carries a `weight`. */
  function WeightedIn(orig: seq<JsonValue>): JsonValue -> bool {
    (c: JsonValue) => c.JObj? && OrigWeighted(orig, c)
  }

  /** The fallback pair of one fixed channel: its name with the fraction of the `weight` of
      the first original object carrying that name, when that object has one. */
  function WeightPair(orig: seq<JsonValue>, c: JsonValue): (r: Option<(JsonValue, real)>)
    requires c.JObj?
    ensures r.Some? <==> OrigWeighted(orig, c)
    ensures r.Some? ==> var name := GetOr(c.fields, "name", JNull);
      r.value == (name, ToFraction(GetOr(FindOrig(orig, name).value, "weight", JNull)))
  {
    var name := GetOr(c.fields, "name", JNull);
    match FindOrig(orig, name)
    case Some(o) =>
      if HasKey(o, "weight") then Some((name, ToFraction(GetOr(o, "weight", JNull)))) else None
    case None => None
  }

  /** The fallback: one pair per fixed channel whose original object carries a `weight`, in
      channel order. */
  function WeightPairs(fixed: seq<JsonValue>, orig: seq<JsonValue>): (r: seq<(JsonValue, real)>)
    requires forall j :: 0 <= j < |fixed| ==> fixed[j].JObj?
    ensures |r| <= |fixed|
    ensures var kept := Filter(fixed, WeightedIn(orig));
      && |r| == |kept|
      && forall k :: 0 <= k < |r| ==> kept[k].JObj? && Some(r[k]) == WeightPair(orig, kept[k])
    ensures (forall j :: 0 <= j < |fixed| ==> OrigWeighted(orig, fixed[j])) ==> |r| == |fixed|
  {
    var f := (c: JsonValue) requires c.JObj? => WeightPair(orig, c);
    CollectImage(fixed, f, WeightedIn(orig));
    FilterAllWhen(fixed, WeightedIn(orig));
    Collect(fixed, f)
  }

  // ---------------------------------------------------------------- 4) timeline_weeks

  /** `int(v)`: booleans and ints as they are, floats truncated toward zero, strings holding
      an optionally signed decimal integer between whitespace; anything else raises
      (`None`). */
  function PyInt(v: JsonValue): (r: Option<int>)
    ensures v.JBool? ==> r == Some(if v.b then 1 else 0)
    ensures v.JInt? ==> r == Some(v.i)
    ensures v.JFloat? && v.f >= 0.0 ==> r.Some? && 0.0 <= v.f - r.value as real < 1.0
    ensures v.JFloat? && v.f < 0.0 ==> r.Some? && -1.0 < v.f - r.value as real <= 0.0
    ensures v.JNull? || v.JArr? || v.JObj? ==> r.None?
  {
    match v
    case JBool(b) => Some(if b then 1 else 0)
    case JInt(i) => Some(i)
    case JFloat(f) => Some(if f >= 0.0 then f.Floor else -((-f).Floor))
    case JStr(s) => ParseIntLiteral(Strip(s))
    case _ => None
  }

  /** An optionally signed run of ASCII digits. */
  function ParseIntLiteral(t: string): (r: Option<int>)
    ensures AllDigits(t) && |t| > 0 ==> r == Some(DigitsValue(t))
  {
    if |t| > 0 && (t[0] == '+' || t[0] == '-') then
      var ds := t[1..];
      if |ds| > 0 && AllDigits(ds) then
        var v: int := DigitsValue(ds);
        Some(if t[0] == '-' then -v else v)
      else None
    else if |t| > 0 && AllDigits(t) then Some(DigitsValue(t))
    else None
  }

  /** Step 4: `max(1, int(tw))`, with 4 when the key is missing or `int` raises. */
  function AlignWeeks(v: Option<JsonValue>): (r: int)
    ensures r >= 1
    ensures v.None? ==> r == 4
    ensures v.Some? && PyInt(v.value).None? ==> r == 4
    ensures v.Some? && PyInt(v.value).Some? && PyInt(v.value).value >= 1 ==>
      r == PyInt(v.value).value
    ensures v.Some? && PyInt(v.value).Some? && PyInt(v.value).value < 1 ==> r == 1
  {
    var tw := match v case Some(x) => (match PyInt(x) case Some(n) => n case None => 4)
              case None => 4;
    if tw < 1 then 1 else tw
  }

  // ---------------------------------------------------------------- 5) text fields

  /** `str(v or "")`. */
  function AlignText(v: Option<JsonValue>, show: Show): (r: string)
    ensures v.Some? && v.value.JStr? ==> r == v.value.s
    ensures v.None? || !Truthy(v.value) ==> r == ""
  {
    match v
    case Some(x) => if Truthy(x) then PyStr(x, show) else ""
    case None => ""
  }

  // ---------------------------------------------------------------- the transformer

  /** What `align_plan_to_schema` needs of its input not to raise. */
  predicate AlignUsable(plan: Fields, num: FloatParser) {
    && AssetsUsable(GetOr(plan, "assets", JArr([])))
    && ChannelsUsable(GetOr(plan, "channels", JArr([])))
    && BudgetUsable(GetOr(plan, "budget_split", JArr([])), num)
  }

  /** `budget_split` is a list holding an entry step 3 reads. */
  predicate HasBudgetEntry(plan: Fields) {
    var bs := GetOr(plan, "budget_split", JArr([]));
    bs.JArr? && exists j :: 0 <= j < |bs.items| && BudgetEntry(bs.items[j])
  }

  /** The (label, weight) pairs of step 3: those read from `budget_split` when it is a list
      holding an entry step 3 reads; otherwise the fallback from the weights on the original
      channel objects. */
  function AlignPairs(plan: Fields, show: Show, num: FloatParser): (r: seq<(JsonValue, real)>)
    requires AlignUsable(plan, num)
    ensures HasBudgetEntry(plan) ==>
      r == BudgetPairs(GetOr(plan, "budget_split", JArr([])).items, show, num)
    ensures !HasBudgetEntry(plan) ==>
      r == WeightPairs(AlignedChannels(plan), PyIter(GetOr(plan, "channels", JArr([]))).value)
  {
    var fixed := AlignedChannels(plan);
    var bs := GetOr(plan, "budget_split", JArr([]));
    var pairs := if bs.JArr? && |bs.items| > 0 then BudgetPairs(bs.items, show, num) else [];
    assert |pairs| > 0 <==> HasBudgetEntry(plan) by {
      if bs.JArr? {
        var kept := Filter(bs.items, BudgetEntry);
        FilterFrom(bs.items, BudgetEntry);
        FilterKeeps(bs.items, BudgetEntry);
        if |kept| > 0 {
          assert BudgetEntry(kept[0]) && kept[0] in bs.items;
        }
        if HasBudgetEntry(plan) {
          var j :| 0 <= j < |bs.items| && BudgetEntry(bs.items[j]);
          assert bs.items[j] in kept;
        }
      }
    }
    if |pairs| > 0 then pairs
    else WeightPairs(fixed, PyIter(GetOr(plan, "channels", JArr([]))).value)
  }

  const AlignedKeys: set<string> :=
    {"assets", "channels", "budget_split", "timeline_weeks", "concept_title", "big_idea",
     "key_message", "kpis"}

  /** The values steps 1 to 5 compute, in the order they are stored. */
  datatype Aligned = Aligned(assets: JsonValue, channels: JsonValue, budget: JsonValue,
                             weeks: JsonValue, title: JsonValue, idea: JsonValue,
                             message: JsonValue)

  /** Store the computed values in source order, then make sure `kpis` is an object. */
  function Install(plan: Fields, v: Aligned): (r: Fields)
    ensures forall k :: k !in AlignedKeys ==> Lookup(r, k) == Lookup(plan, k)
    ensures Lookup(r, "assets") == Some(v.assets)
    ensures Lookup(r, "channels") == Some(v.channels)
    ensures Lookup(r, "budget_split") == Some(v.budget)
    ensures Lookup(r, "timeline_weeks") == Some(v.weeks)
    ensures Lookup(r, "concept_title") == Some(v.title)
    ensures Lookup(r, "big_idea") == Some(v.idea)
    ensures Lookup(r, "key_message") == Some(v.message)
    ensures Lookup(r, "kpis").Some? && Lookup(r, "kpis").value.JObj?
    ensures Lookup(plan, "kpis").Some? && Lookup(plan, "kpis").value.JObj? ==>
      Lookup(r, "kpis") == Lookup(plan, "kpis")
  {
    KeySetsSplit();
    InstallTexts(InstallStructure(plan, v), v)
  }

  const StructureKeys: set<string> := {"assets", "channels", "budget_split", "timeline_weeks"}
  const TextKeys: set<string> := {"concept_title", "big_idea", "key_message", "kpis"}

  /** The keys steps 1 to 4 write are not those steps 5 and 6 write, and together they are
      the aligned keys. */
  lemma KeySetsSplit()
    ensures forall k :: k in StructureKeys ==> k !in TextKeys
    ensures AlignedKeys == StructureKeys + TextKeys
  {
  }

  /** Steps 1 to 4: `assets`, `channels`, `budget_split`, `timeline_weeks`. */
  function InstallStructure(plan: Fields, v: Aligned): (r: Fields)
    ensures forall k :: k !in StructureKeys ==> Lookup(r, k) == Lookup(plan, k)
    ensures Lookup(r, "assets") == Some(v.assets)
    ensures Lookup(r, "channels") == Some(v.channels)
    ensures Lookup(r, "budget_split") == Some(v.budget)
    ensures Lookup(r, "timeline_weeks") == Some(v.weeks)
  {
    var p1 := Put(plan, "assets", v.assets);
    var p2 := Put(p1, "channels", v.channels);
    var p3 := Put(p2, "budget_split", v.budget);
    Put(p3, "timeline_weeks", v.weeks)
  }

  /** Steps 5 and 6: the three text fields, then `kpis`. */
  function InstallTexts(plan: Fields, v: Aligned): (r: Fields)
    ensures forall k :: k !in TextKeys ==> Lookup(r, k) == Lookup(plan, k)
    ensures Lookup(r, "concept_title") == Some(v.title)
    ensures Lookup(r, "big_idea") == Some(v.idea)
    ensures Lookup(r, "key_message") == Some(v.message)
    ensures Lookup(r, "kpis").Some? && Lookup(r, "kpis").value.JObj?
    ensures Lookup(plan, "kpis").Some? && Lookup(plan, "kpis").value.JObj? ==>
      Lookup(r, "kpis") == Lookup(plan, "kpis")
  {
    var p5 := Put(plan, "concept_title", v.title);
    var p6 := Put(p5, "big_idea", v.idea);
    var p7 := Put(p6, "key_message", v.message);
    var kp := Lookup(p7, "kpis");
    if kp.Some? && kp.value.JObj? then p7 else Put(p7, "kpis", JObj([]))
  }

  /** The values `align_plan_to_schema` stores. */
  function AlignValues(plan: Fields, show: Show, num: FloatParser): Aligned
    requires AlignUsable(plan, num)
  {
    Aligned(
      JArr(AlignAssets(GetOr(plan, "assets", JArr([])))),
      JArr(AlignedChannels(plan)),
      JArr(SplitRows(RenormPairs(AlignPairs(plan, show, num)))),
      JInt(AlignWeeks(Lookup(plan, "timeline_weeks"))),
      JStr(AlignText(Lookup(plan, "concept_title"), show)),
      JStr(AlignText(Lookup(plan, "big_idea"), show)),
      JStr(AlignText(Lookup(plan, "key_message"), show)))
  }

  /** `align_plan_to_schema`. */
  function AlignPlan(plan: Fields, show: Show, num: FloatParser): (r: Fields)
    requires AlignUsable(plan, num)
    ensures forall k :: k !in AlignedKeys ==> Lookup(r, k) == Lookup(plan, k)
    ensures Lookup(r, "assets") == Some(JArr(AlignAssets(GetOr(plan, "assets", JArr([])))))
    ensures Lookup(r, "channels") == Some(JArr(AlignedChannels(plan)))
    ensures Lookup(r, "budget_split")
      == Some(JArr(SplitRows(RenormPairs(AlignPairs(plan, show, num)))))
    ensures Lookup(r, "timeline_weeks") == Some(JInt(AlignWeeks(Lookup(plan, "timeline_weeks"))))
    ensures Lookup(r, "concept_title") == Some(JStr(AlignText(Lookup(plan, "concept_title"), show)))
    ensures Lookup(r, "big_idea") == Some(JStr(AlignText(Lookup(plan, "big_idea"), show)))
    ensures Lookup(r, "key_message") == Some(JStr(AlignText(Lookup(plan, "key_message"), show)))
    ensures Lookup(r, "kpis").Some? && Lookup(r, "kpis").value.JObj?
    ensures Lookup(plan, "kpis").Some? && Lookup(plan, "kpis").value.JObj? ==>
      Lookup(r, "kpis") == Lookup(plan, "kpis")
  {
    Install(plan, AlignValues(plan, show, num))
  }

  /** Step 2's list of fixed channels. */
  function AlignedChannels(plan: Fields): (r: seq<JsonValue>)
    requires ChannelsUsable(GetOr(plan, "channels", JArr([])))
    ensures forall j :: 0 <= j < |r| ==> r[j].JObj?
  {
    FixChannels(PyIter(GetOr(plan, "channels", JArr([]))).value)
  }

  // ---------------------------------------------------------------- idempotence

  /** A channel as the transformer leaves it, ready to pass through again unchanged: a
      name and an activation that are truthy and `kpis` that are an object. */
  predicate SettledChannel(c: JsonValue) {
    NormalChannel(c) && Truthy(ChannelName(c)) && Truthy(ChannelActivation(c))
    && ChannelKpisOf(c).JObj?
  }

  /** Budget rows as the transformer leaves them, ready to pass through again unchanged:
      string labels, shares between 0 and 1, summing to one unless there are none. */
  predicate SettledBudget(rp: seq<(JsonValue, int)>) {
    SettledRows(rp) && (|rp| == 0 || SumInts(Values(rp)) == 100)
  }

  predicate SettledRows(rp: seq<(JsonValue, int)>) {
    forall j :: 0 <= j < |rp| ==> rp[j].0.JStr? && 0 <= rp[j].1 <= 100
  }

  /** A plan in the serving schema, with budget rows `rp`. */
  predicate Settled(q: Fields, rp: seq<(JsonValue, int)>) {
    && ArrAt(q, "assets") && AllStrings(Lookup(q, "assets").value.items)
    && ArrAt(q, "channels")
    && (forall j :: 0 <= j < |Lookup(q, "channels").value.items| ==>
          SettledChannel(Lookup(q, "channels").value.items[j]))
    && Lookup(q, "budget_split") == Some(JArr(SplitRows(rp))) && SettledBudget(rp)
    && Lookup(q, "timeline_weeks").Some? && Lookup(q, "timeline_weeks").value.JInt?
    && Lookup(q, "timeline_weeks").value.i >= 1
    && StrAt(q, "concept_title") && StrAt(q, "big_idea") && StrAt(q, "key_message")
    && Lookup(q, "kpis").Some? && Lookup(q, "kpis").value.JObj?
  }

  /** `q[k]` exists and is a list. */
  predicate ArrAt(q: Fields, k: string) {
    Lookup(q, k).Some? && Lookup(q, k).value.JArr?
  }

  /** `q[k]` exists and is a string. */
  predicate StrAt(q: Fields, k: string) {
    Lookup(q, k).Some? && Lookup(q, k).value.JStr?
  }

  predicate AllStrings(a: seq<JsonValue>) {
    forall j :: 0 <= j < |a| ==> a[j].JStr?
  }

  /** The fields of a normalised channel, read back. */
  lemma NormalChannelFields(c: JsonValue)
    requires NormalChannel(c)
    ensures Lookup(c.fields, "name") == Some(ChannelName(c))
    ensures Lookup(c.fields, "activation") == Some(ChannelActivation(c))
    ensures Lookup(c.fields, "kpis") == Some(ChannelKpisOf(c))
    ensures forall k :: k != "name" && k != "activation" && k != "kpis" ==> !HasKey(c.fields, k)
  {
    var m := c.fields;
    var m1 := [("activation", ChannelActivation(c)), ("kpis", ChannelKpisOf(c))];
    var m2 := [("kpis", ChannelKpisOf(c))];
    assert m[1..] == m1 && m1[1..] == m2 && m2[1..] == [];
    forall k | k != "name" && k != "activation" && k != "kpis"
      ensures !HasKey(m, k)
    {
      assert Lookup(m, k) == Lookup(m1, k) == Lookup(m2, k) == Lookup([], k);
    }
    assert Lookup(m, "kpis") == Lookup(m1, "kpis") == Lookup(m2, "kpis");
  }

  /** What `FixChannel` reads from a settled channel: its own name, activation and `kpis`,
      and none of the bare metrics. */
  lemma SettledChannelParts(c: JsonValue)
    requires SettledChannel(c)
    ensures ChosenName(c.fields) == ChannelName(c)
    ensures GivenActivation(c.fields) == ChannelActivation(c)
    ensures ChannelKpis(c.fields) == ChannelKpisOf(c)
    ensures forall j :: 0 <= j < |MetricKeys| ==> !HasKey(c.fields, MetricKeys[j])
  {
    var m := c.fields;
    NormalChannelFields(c);
    var k := ChannelKpisOf(c);
    assert ChannelKpis(m) == k by {
      if !Truthy(k) {
        assert k == JObj([]);
      }
    }
    forall j | 0 <= j < |MetricKeys|
      ensures !HasKey(m, MetricKeys[j])
    {
      assert MetricKeys[j] != "name" && MetricKeys[j] != "activation" && MetricKeys[j] != "kpis";
    }
  }

  /** A settled channel passes through `FixChannel` unchanged. */
  lemma FixSettledChannel(c: JsonValue)
    requires SettledChannel(c)
    ensures ChannelUsable(c) && FixChannel(c) == Some(c)
  {
    SettledChannelParts(c);
    var k := ChannelKpisOf(c);
    assert ChannelUsable(c);
    assert HoistMetrics(k.fields, c.fields, MetricKeys) == k.fields;
    assert c == ChannelObj(ChannelName(c), ChannelActivation(c), JObj(k.fields));
  }

  /** Settled channels are usable, and each passes through unchanged. */
  lemma SettledChannelsUnchanged(cs: seq<JsonValue>)
    requires forall j :: 0 <= j < |cs| ==> SettledChannel(cs[j])
    ensures forall j :: 0 <= j < |cs| ==> ChannelUsable(cs[j]) && FixChannel(cs[j]) == Some(cs[j])
  {
    forall j | 0 <= j < |cs|
      ensures ChannelUsable(cs[j]) && FixChannel(cs[j]) == Some(cs[j])
    {
      FixSettledChannel(cs[j]);
    }
  }

  /** A list of channels each of which passes through unchanged passes through unchanged. */
  lemma FixChannelsUnchanged(cs: seq<JsonValue>)
    requires forall j :: 0 <= j < |cs| ==> ChannelUsable(cs[j])
    requires forall j :: 0 <= j < |cs| ==> FixChannel(cs[j]) == Some(cs[j])
    ensures FixChannels(cs) == cs
  {
    var r := FixChannels(cs);
    forall j | 0 <= j < |cs|
      ensures IsStrOrObj(cs[j])
    {
      assert FixChannel(cs[j]).Some?;
    }
    forall j | 0 <= j < |r|
      ensures r[j] == cs[j]
    {
      assert Some(r[j]) == FixChannel(cs[j]);
    }
  }

  /** Settled budget rows read back as the pairs they came from. */
  lemma BudgetPairsOfRows(rp: seq<(JsonValue, int)>, show: Show, num: FloatParser)
    requires SettledRows(rp)
    ensures forall j :: 0 <= j < |rp| ==> BudgetItemUsable(SplitRows(rp)[j], num)
    ensures |BudgetPairs(SplitRows(rp), show, num)| == |rp|
    ensures forall j :: 0 <= j < |rp| ==>
      BudgetPairs(SplitRows(rp), show, num)[j] == (rp[j].0, rp[j].1 as real / 100.0)
  {
    var rows := SplitRows(rp);
    forall j | 0 <= j < |rp|
      ensures BudgetItemUsable(rows[j], num)
      ensures BudgetPair(rows[j], show, num) == Some((rp[j].0, rp[j].1 as real / 100.0))
    {
      RowPair(rp[j].0, rp[j].1, show, num);
    }
    BudgetPairsAllRows(rows, show, num);
  }

  /** A settled row reads back as its label and its share. */
  lemma RowPair(name: JsonValue, h: int, show: Show, num: FloatParser)
    requires name.JStr? && 0 <= h <= 100
    ensures BudgetItemUsable(SplitRow(name, h), num)
    ensures BudgetPair(SplitRow(name, h), show, num) == Some((name, h as real / 100.0))
  {
    assert ToFraction(JFloat(h as real / 100.0)) == h as real / 100.0;
  }

  /** When every entry is a `[label, weight]` row, `BudgetPairs` reads each row's label as
      text and its weight as a fraction, entry by entry. */
  lemma BudgetPairsAllRows(items: seq<JsonValue>, show: Show, num: FloatParser)
    requires forall j :: 0 <= j < |items| ==> items[j].JArr? && |items[j].items| == 2
    requires forall j :: 0 <= j < |items| ==> BudgetItemUsable(items[j], num)
    ensures |BudgetPairs(items, show, num)| == |items|
    ensures forall j :: 0 <= j < |items| ==>
      BudgetPairs(items, show, num)[j]
        == (JStr(PyStr(items[j].items[0], show)), ToFraction(items[j].items[1]))
  {
    assert forall j :: 0 <= j < |items| ==> BudgetEntry(items[j]);
    FilterAll(items, BudgetEntry);
    var ps := BudgetPairs(items, show, num);
    forall j | 0 <= j < |items|
      ensures ps[j] == (JStr(PyStr(items[j].items[0], show)), ToFraction(items[j].items[1]))
    {
      assert Some(ps[j]) == BudgetPair(items[j], show, num);
    }
  }

  /** A normalised channel carries no `weight`. */
  lemma NormalChannelHasNoWeight(c: JsonValue)
    requires NormalChannel(c)
    ensures !HasKey(c.fields, "weight")
  {
    NormalChannelFields(c);
  }

  /** With no original channel carrying a `weight`, the fallback yields no pairs. */
  lemma WeightPairsWithoutWeights(fixed: seq<JsonValue>, orig: seq<JsonValue>)
    requires forall j :: 0 <= j < |fixed| ==> fixed[j].JObj?
    requires forall j :: 0 <= j < |orig| && orig[j].JObj? ==> !HasKey(orig[j].fields, "weight")
    ensures WeightPairs(fixed, orig) == []
  {
    var kept := Filter(fixed, WeightedIn(orig));
    if |kept| > 0 {
      assert false;
    }
  }

  /** Storing values that are already in place changes nothing. */
  lemma InstallUnchanged(plan: Fields, v: Aligned)
    requires Lookup(plan, "assets") == Some(v.assets)
    requires Lookup(plan, "channels") == Some(v.channels)
    requires Lookup(plan, "budget_split") == Some(v.budget)
    requires Lookup(plan, "timeline_weeks") == Some(v.weeks)
    requires Lookup(plan, "concept_title") == Some(v.title)
    requires Lookup(plan, "big_idea") == Some(v.idea)
    requires Lookup(plan, "key_message") == Some(v.message)
    requires Lookup(plan, "kpis").Some? && Lookup(plan, "kpis").value.JObj?
    ensures Install(plan, v) == plan
  {
    assert InstallStructure(plan, v) == plan;
  }

  /** A plan already in the serving schema passes through `align_plan_to_schema`
      unchanged. */
  lemma AlignPlanFixedPoint(q: Fields, rp: seq<(JsonValue, int)>, show: Show, num: FloatParser)
    requires Settled(q, rp)
    ensures AlignUsable(q, num)
    ensures AlignPlan(q, show, num) == q
  {
    SettledUsable(q, rp, show, num);
    SettledBudgetKept(q, rp, show, num);
    SettledScalarsKept(q, show);
    var v := AlignValues(q, show, num);
    assert v.assets == Lookup(q, "assets").value;
    assert v.channels == Lookup(q, "channels").value;
    assert v.budget == Lookup(q, "budget_split").value;
    InstallUnchanged(q, v);
  }

  /** Weeks of at least one and string text fields are kept. */
  lemma SettledScalarsKept(q: Fields, show: Show)
    requires Lookup(q, "timeline_weeks").Some? && Lookup(q, "timeline_weeks").value.JInt?
    requires Lookup(q, "timeline_weeks").value.i >= 1
    requires StrAt(q, "concept_title") && StrAt(q, "big_idea") && StrAt(q, "key_message")
    ensures Some(JInt(AlignWeeks(Lookup(q, "timeline_weeks")))) == Lookup(q, "timeline_weeks")
    ensures Some(JStr(AlignText(Lookup(q, "concept_title"), show))) == Lookup(q, "concept_title")
    ensures Some(JStr(AlignText(Lookup(q, "big_idea"), show))) == Lookup(q, "big_idea")
    ensures Some(JStr(AlignText(Lookup(q, "key_message"), show))) == Lookup(q, "key_message")
  {
  }

  /** The parts of a settled plan are usable, and its assets and channels are kept. */
  lemma SettledUsable(q: Fields, rp: seq<(JsonValue, int)>, show: Show, num: FloatParser)
    requires Settled(q, rp)
    ensures AlignUsable(q, num)
    ensures AlignAssets(GetOr(q, "assets", JArr([]))) == Lookup(q, "assets").value.items
    ensures AlignedChannels(q) == Lookup(q, "channels").value.items
  {
    SettledAssetsKept(q, rp);
    SettledChannelsKept(q, rp);
    BudgetPairsOfRows(rp, show, num);
    assert BudgetUsable(GetOr(q, "budget_split", JArr([])), num);
  }

  /** The assets of a settled plan are usable and kept. */
  lemma SettledAssetsKept(q: Fields, rp: seq<(JsonValue, int)>)
    requires Settled(q, rp)
    ensures AssetsUsable(GetOr(q, "assets", JArr([])))
    ensures AlignAssets(GetOr(q, "assets", JArr([]))) == Lookup(q, "assets").value.items
  {
    AssetTextsKeepStrings(Lookup(q, "assets").value.items);
  }

  /** The channels of a settled plan are usable and kept. */
  lemma SettledChannelsKept(q: Fields, rp: seq<(JsonValue, int)>)
    requires Settled(q, rp)
    ensures ChannelsUsable(GetOr(q, "channels", JArr([])))
    ensures AlignedChannels(q) == Lookup(q, "channels").value.items
  {
    var cs := Lookup(q, "channels").value.items;
    SettledChannelsUnchanged(cs);
    FixChannelsUnchanged(cs);
  }

  /** The budget rows of a settled plan are kept. */
  lemma SettledBudgetKept(q: Fields, rp: seq<(JsonValue, int)>, show: Show, num: FloatParser)
    requires Settled(q, rp)
    requires AlignUsable(q, num)
    requires AlignedChannels(q) == Lookup(q, "channels").value.items
    ensures RenormPairs(AlignPairs(q, show, num)) == rp
  {
    if |rp| > 0 {
      SettledRowsKept(q, rp, show, num);
    } else {
      EmptyBudgetKept(q, rp, show, num);
    }
  }

  lemma SettledRowsKept(q: Fields, rp: seq<(JsonValue, int)>, show: Show, num: FloatParser)
    requires Settled(q, rp) && |rp| > 0
    requires AlignUsable(q, num)
    ensures RenormPairs(AlignPairs(q, show, num)) == rp
  {
    SettledRowsRead(q, rp, show, num);
    BudgetPairsOfRows(rp, show, num);
    RowPairsRenormKept(BudgetPairs(SplitRows(rp), show, num), rp);
  }

  /** Pairs whose weights are the hundredths of rows summing to 100 renormalise back to
      those rows. */
  lemma RowPairsRenormKept(pairs: seq<(JsonValue, real)>, rp: seq<(JsonValue, int)>)
    requires |pairs| == |rp| && SumInts(Values(rp)) == 100
    requires forall j :: 0 <= j < |rp| ==> pairs[j] == (rp[j].0, rp[j].1 as real / 100.0)
    ensures RenormPairs(pairs) == rp
  {
    RenormPairsFixedPoint(pairs, Values(rp));
    assert Zip(Labels(pairs), Values(rp)) == rp;
  }

  /** Step 3 reads a settled plan's non-empty budget from its rows. */
  lemma SettledRowsRead(q: Fields, rp: seq<(JsonValue, int)>, show: Show, num: FloatParser)
    requires Settled(q, rp) && |rp| > 0
    requires AlignUsable(q, num)
    ensures AlignPairs(q, show, num) == BudgetPairs(SplitRows(rp), show, num)
  {
    var rows := SplitRows(rp);
    assert GetOr(q, "budget_split", JArr([])) == JArr(rows);
    assert BudgetEntry(rows[0]) by {
      assert rows[0] == SplitRow(rp[0].0, rp[0].1);
    }
    assert HasBudgetEntry(q);
  }

  lemma EmptyBudgetKept(q: Fields, rp: seq<(JsonValue, int)>, show: Show, num: FloatParser)
    requires Settled(q, rp) && |rp| == 0
    requires AlignUsable(q, num)
    requires AlignedChannels(q) == Lookup(q, "channels").value.items
    ensures RenormPairs(AlignPairs(q, show, num)) == rp
  {
    var cs := Lookup(q, "channels").value.items;
    forall j | 0 <= j < |cs| && cs[j].JObj?
      ensures !HasKey(cs[j].fields, "weight")
    {
      NormalChannelHasNoWeight(cs[j]);
    }
    WeightPairsWithoutWeights(cs, cs);
    var pairs := AlignPairs(q, show, num);
    assert pairs == [];
    assert SumReals(Values(pairs)) == 0.0;
  }

  /** What the transformer makes of a channel entry is settled: a non-empty string, or an
      object whose `kpis` (if truthy) are an object. */
  predicate ChannelSettles(c: JsonValue) {
    (c.JStr? ==> |c.s| > 0) && (c.JObj? ==> ChannelKpis(c.fields).JObj?)
  }

  lemma DefaultActivationTruthy(name: string)
    ensures |DefaultActivation(name)| > 0
  {
  }

  /** Every entry the channel fixer keeps from settling entries is itself settled. */
  lemma FixChannelsSettle(chs: seq<JsonValue>)
    requires forall j :: 0 <= j < |chs| ==> ChannelUsable(chs[j]) && ChannelSettles(chs[j])
    ensures forall j :: 0 <= j < |FixChannels(chs)| ==> SettledChannel(FixChannels(chs)[j])
  {
    var r := FixChannels(chs);
    var kept := Filter(chs, IsStrOrObj);
    forall k | 0 <= k < |r|
      ensures SettledChannel(r[k])
    {
      var c := kept[k];
      FilterFrom(chs, IsStrOrObj);
      assert c in chs && ChannelSettles(c);
      assert FixChannel(c) == Some(r[k]);
      if c.JStr? {
        DefaultActivationTruthy(c.s);
      }
    }
  }

  /** Idempotence: when the channels are non-empty strings or objects with object `kpis`,
      and the budget comes out settled, aligning the aligned plan changes nothing. A budget
      the drift correction could not bring to one is renormalised again, and an empty channel
      name would be renamed. */
  lemma AlignPlanIdempotent(p: Fields, show: Show, num: FloatParser)
    requires AlignUsable(p, num)
    requires forall j :: 0 <= j < |PyIter(GetOr(p, "channels", JArr([]))).value| ==>
      ChannelSettles(PyIter(GetOr(p, "channels", JArr([]))).value[j])
    requires SettledBudget(RenormPairs(AlignPairs(p, show, num)))
    ensures AlignUsable(AlignPlan(p, show, num), num)
    ensures AlignPlan(AlignPlan(p, show, num), show, num) == AlignPlan(p, show, num)
  {
    var q := AlignPlan(p, show, num);
    FixChannelsSettle(PyIter(GetOr(p, "channels", JArr([]))).value);
    var a := AlignAssets(GetOr(p, "assets", JArr([])));
    assert Lookup(q, "assets") == Some(JArr(a));
    assert Lookup(q, "channels") == Some(JArr(AlignedChannels(p)));
    var w := AlignWeeks(Lookup(p, "timeline_weeks"));
    assert Lookup(q, "timeline_weeks") == Some(JInt(w));
    AlignPlanFixedPoint(q, RenormPairs(AlignPairs(p, show, num)), show, num);
  }
}

=== FILE: budget.dfy ===
/** Budget arithmetic of the serving path (deploy/utils.py): reading a share written as a
    fraction, a percentage or a percent string (`_to_fraction`), renormalising labelled
    weights to hundredths that sum to one (`_renorm_pairs`), and the older in-place
    normaliser `normalize_budget_split`. Arithmetic is over exact reals; a share `round(x, 2)`
    is carried as a whole number of hundredths. */
module Budget {
  import opened Wrappers
  import opened Text
  import opened Json
  import opened Rounding
  import opened Seqs

  // ---------------------------------------------------------------- `_pct` and `_to_fraction`

  function Pow10(n: nat): (p: nat)
    ensures p > 0
  {
    if n == 0 then 1 else 10 * Pow10(n - 1)
  }

  /** The value of the decimal `a.b` written with digit strings `a` and `b`. */
  function DecimalValue(a: string, b: string): (v: real)
    requires AllDigits(a) && AllDigits(b)
    ensures v >= 0.0
  {
    DigitsValue(a) as real + DigitsValue(b) as real / Pow10(|b|) as real
  }

  /** `[0-9]+(?:\.[0-9]+)?` read as an exact decimal: digits, optionally a point and more
      digits. */
  function ParseDecimal(t: string): (r: Option<real>)
    ensures r.Some? ==> r.value >= 0.0
    ensures r.Some? ==> |t| > 0 && IsDigit(t[0]) && IsDigit(t[|t| - 1])
    ensures AllDigits(t) && |t| > 0 ==> r == Some(DigitsValue(t) as real)
  {
    var i := FindChar(t, '.');
    if i == -1 then
      if |t| > 0 && AllDigits(t) then Some(DigitsValue(t) as real) else None
    else
      var a := t[..i];
      var b := t[i + 1..];
      if |a| > 0 && |b| > 0 && AllDigits(a) && AllDigits(b) then
        assert t[0] == a[0] && t[|t| - 1] == b[|b| - 1];
        Some(DecimalValue(a, b))
      else None
  }

  /** The text the capture group of `_pct` would have to match: `s` stripped, then one
      trailing `%` and the whitespace before it dropped. */
  function PctCore(s: string): string {
    DropPercent(Strip(s))
  }

  /** One trailing `%` and the whitespace before it dropped. */
  function DropPercent(t: string): string {
    if |t| > 0 && t[|t| - 1] == '%' then RStrip(t[..|t| - 1]) else t
  }

  /** `_pct.match(s)`: `^\s*([0-9]+(?:\.[0-9]+)?)\s*%?\s*$`, giving the number it captures. */
  function ParsePct(s: string): (r: Option<real>)
    ensures r.Some? ==> r.value >= 0.0
  {
    ParseDecimal(PctCore(s))
  }

  /** Leading whitespace in front of a non-space is exactly what `lstrip` removes. */
  lemma LStripSpaces(w: string, t: string)
    requires AllSpace(w)
    requires |t| > 0 && !IsSpace(t[0])
    ensures LStrip(w + t) == t
    decreases |w|
  {
    if |w| > 0 {
      assert (w + t)[1..] == w[1..] + t;
      LStripSpaces(w[1..], t);
    }
  }

  /** Trailing whitespace after a non-space is exactly what `rstrip` removes. */
  lemma RStripSpaces(t: string, w: string)
    requires AllSpace(w)
    requires |t| > 0 && !IsSpace(t[|t| - 1])
    ensures RStrip(t + w) == t
    decreases |w|
  {
    if |w| > 0 {
      assert (t + w)[..|t + w| - 1] == t + w[..|w| - 1];
      RStripSpaces(t, w[..|w| - 1]);
    }
  }

  /** The regular expression's reading: whitespace, a decimal, whitespace, an optional `%`
      and whitespace match, capturing the decimal. */
  lemma ParsePctOfShape(w1: string, d: string, w2: string, pct: bool, w3: string)
    requires AllSpace(w1) && AllSpace(w2) && AllSpace(w3)
    requires ParseDecimal(d).Some?
    ensures ParsePct(w1 + d + w2 + (if pct then "%" else "") + w3) == ParseDecimal(d)
  {
    if pct {
      PctCoreWithPercent(w1, d, w2, w3);
    } else {
      assert w1 + d + w2 + "" + w3 == w1 + d + (w2 + w3);
      assert AllSpace(w2 + w3);
      PctCoreBare(w1, d, w2 + w3);
    }
  }

  lemma PctCoreBare(w1: string, d: string, w2: string)
    requires AllSpace(w1) && AllSpace(w2)
    requires |d| > 0 && IsDigit(d[0]) && IsDigit(d[|d| - 1])
    ensures PctCore(w1 + d + w2) == d
  {
    StripAround(w1, d, w2);
  }

  lemma PctCoreWithPercent(w1: string, d: string, w2: string, w3: string)
    requires AllSpace(w1) && AllSpace(w2) && AllSpace(w3)
    requires |d| > 0 && IsDigit(d[0]) && IsDigit(d[|d| - 1])
    ensures PctCore(w1 + d + w2 + "%" + w3) == d
  {
    StripPercentText(w1, d, w2, w3);
    DropPercentSpaced(d, w2);
  }

  lemma StripPercentText(w1: string, d: string, w2: string, w3: string)
    requires AllSpace(w1) && AllSpace(w3)
    requires |d| > 0 && !IsSpace(d[0])
    ensures Strip(w1 + d + w2 + "%" + w3) == d + w2 + "%"
  {
    var core := d + w2 + "%";
    assert w1 + d + w2 + "%" + w3 == w1 + core + w3;
    StripAround(w1, core, w3);
  }

  lemma DropPercentSpaced(d: string, w2: string)
    requires AllSpace(w2)
    requires |d| > 0 && !IsSpace(d[|d| - 1])
    ensures DropPercent(d + w2 + "%") == d
  {
    DropLast(d + w2, '%');
    RStripSpaces(d, w2);
  }

  /** A text with non-space ends is its own strip. */
  lemma StripTight(t: string)
    requires |t| > 0 && !IsSpace(t[0]) && !IsSpace(t[|t| - 1])
    ensures Strip(t) == t
  {
    assert LStrip(t) == t;
  }

  /** Stripping removes exactly the whitespace around a text with non-space ends. */
  lemma StripAround(w1: string, t: string, w2: string)
    requires AllSpace(w1) && AllSpace(w2)
    requires |t| > 0 && !IsSpace(t[0]) && !IsSpace(t[|t| - 1])
    ensures Strip(w1 + t + w2) == t
  {
    assert w1 + t + w2 == w1 + (t + w2);
    LStripSpaces(w1, t + w2);
    RStripSpaces(t, w2);
  }

  /** What may follow the captured number: whitespace, then at most one `%`, then
      whitespace. */
  predicate PctTail(u: string) {
    AllSpace(u) || exists m :: 0 <= m < |u| && PercentAt(u, m)
  }

  predicate PercentAt(u: string, m: int) {
    0 <= m < |u| && u[m] == '%' && AllSpace(u[..m]) && AllSpace(u[m + 1..])
  }

  /** `s[i..j]` is the captured text: whitespace before it and a percent tail after it. */
  predicate PctShape(s: string, i: int, j: int) {
    0 <= i <= j <= |s| && AllSpace(s[..i]) && s[i..j] == PctCore(s) && PctTail(s[j..])
  }

  /** Conversely, the text `ParsePct` reads as a number (`ParsePct(s)` is
      `ParseDecimal(PctCore(s))`) sits between leading whitespace and a tail of whitespace
      with at most one `%`. */
  lemma ParsePctHasShape(s: string)
    ensures exists i, j :: PctShape(s, i, j)
  {
    var l := LStrip(s);
    var i := |s| - |l|;
    assert l == s[i..] && AllSpace(s[..i]);
    assert PctCore(s) == PctCore(l) by {
      assert LStrip(l) == l;
      assert Strip(s) == Strip(l);
    }
    var j := ShapeOfStripped(l);
    ShapeShift(s, l, i, j);
  }

  /** A shape found in the left-stripped text `l == s[i..]` is a shape of `s`. */
  lemma ShapeShift(s: string, l: string, i: int, j: int)
    requires 0 <= i <= |s| && l == s[i..] && AllSpace(s[..i]) && PctCore(s) == PctCore(l)
    requires 0 <= j <= |l| && l[..j] == PctCore(l) && PctTail(l[j..])
    ensures PctShape(s, i, i + j)
  {
    SliceOfSuffix(s, i, j);
  }

  /** The captured text and its tail inside the left-stripped text `l`. */
  lemma ShapeOfStripped(l: string) returns (j: nat)
    requires |l| == 0 || !IsSpace(l[0])
    ensures j <= |l|
    ensures l[..j] == PctCore(l) && PctTail(l[j..])
  {
    var t := RStrip(l);
    assert LStrip(l) == l;
    assert Strip(l) == t;
    assert l[..|t|] == t;
    if |t| > 0 && t[|t| - 1] == '%' {
      var t' := t[..|t| - 1];
      var u := RStrip(t');
      j := |u|;
      assert l[..j] == u;
      assert PercentAt(l[j..], |t'| - |u|) by {
        assert l[j..][..|t'| - |u|] == t'[|u|..];
        assert l[j..][|t'| - |u|] == t[|t| - 1];
        assert l[j..][|t'| - |u| + 1..] == l[|t|..];
      }
    } else {
      j := |t|;
    }
  }

  /** `_to_fraction`: a number in [0, 1] is already a fraction and any other number is a
      percentage; a string that `_pct` matches is read the same way; anything else is 0. */
  function ToFraction(x: JsonValue): (r: real)
    ensures IsNumber(x) && 0.0 <= NumValue(x) <= 1.0 ==> r == NumValue(x)
    ensures IsNumber(x) && !(0.0 <= NumValue(x) <= 1.0) ==> r * 100.0 == NumValue(x)
    ensures x.JStr? && ParsePct(x.s).Some? ==>
      var v := ParsePct(x.s).value;
      && (0.0 <= v <= 1.0 ==> r == v)
      && (!(0.0 <= v <= 1.0) ==> r * 100.0 == v)
      && r >= 0.0
    ensures !IsNumber(x) && !(x.JStr? && ParsePct(x.s).Some?) ==> r == 0.0
    ensures IsNumber(x) && 0.0 <= NumValue(x) <= 100.0 ==> 0.0 <= r <= 1.0
    ensures x.JStr? && ParsePct(x.s).Some? && ParsePct(x.s).value <= 100.0 ==> 0.0 <= r <= 1.0
  {
    if IsNumber(x) then
      var v := NumValue(x);
      if 0.0 <= v <= 1.0 then v else v / 100.0
    else if x.JStr? then
      match ParsePct(x.s)
      case Some(v) => if 0.0 <= v <= 1.0 then v else v / 100.0
      case None => 0.0
    else 0.0
  }

  /** A string that `_pct` reads as `v` is the same share as the number `v`. */
  lemma ToFractionOfString(s: string)
    requires ParsePct(s).Some?
    ensures ToFraction(JStr(s)) == ToFraction(JFloat(ParsePct(s).value))
  {
  }

  /** A bare decimal is read as itself. */
  lemma ParsePctOfBare(d: string)
    requires ParseDecimal(d).Some?
    ensures ParsePct(d) == ParseDecimal(d)
  {
    StripTight(d);
  }

  lemma ParsePctOfPercent(w1: string, d: string, w2: string, w3: string)
    requires AllSpace(w1) && AllSpace(w2) && AllSpace(w3)
    requires ParseDecimal(d).Some?
    ensures ParsePct(w1 + d + w2 + "%" + w3) == ParseDecimal(d)
  {
    ParsePctOfShape(w1, d, w2, true, w3);
  }

  /** The accepted spellings agree: `60`, `"60"`, `"60%"` and `" 60 % "` are the same share. */
  lemma ToFractionSpellingsAgree(n: nat, w1: string, w2: string, w3: string)
    requires AllSpace(w1) && AllSpace(w2) && AllSpace(w3)
    ensures ToFraction(JStr(NatToDecimal(n))) == ToFraction(JInt(n))
    ensures ToFraction(JStr(w1 + NatToDecimal(n) + w2 + "%" + w3)) == ToFraction(JInt(n))
  {
    var d := NatToDecimal(n);
    assert ParseDecimal(d) == Some(n as real);
    assert ToFraction(JFloat(n as real)) == ToFraction(JInt(n));
    ParsePctOfBare(d);
    ToFractionOfString(d);
    ParsePctOfPercent(w1, d, w2, w3);
    ToFractionOfString(w1 + d + w2 + "%" + w3);
  }

  /** A decimal string `a.b` is the share its value is. */
  lemma ToFractionDecimalString(a: string, b: string)
    requires |a| > 0 && |b| > 0 && AllDigits(a) && AllDigits(b)
    ensures ToFraction(JStr(a + "." + b))
      == ToFraction(JFloat(DecimalValue(a, b)))
  {
    var t := a + "." + b;
    ParseDecimalPoint(a, b);
    ParsePctOfBare(t);
    ToFractionOfString(t);
  }

  lemma ParseDecimalPoint(a: string, b: string)
    requires |a| > 0 && |b| > 0 && AllDigits(a) && AllDigits(b)
    ensures ParseDecimal(a + "." + b) == Some(DecimalValue(a, b))
  {
    var t := a + "." + b;
    assert FindChar(t, '.') == |a| by {
      assert t[|a|] == '.';
      assert forall k :: 0 <= k < |a| ==> t[k] == a[k];
    }
    assert t[..|a|] == a && t[|a| + 1..] == b;
  }

  // ---------------------------------------------------------------- rounding many shares

  /** The rounded value of each element. */
  function RoundAll(xs: seq<real>): (h: seq<int>)
    ensures |h| == |xs|
    ensures forall j :: 0 <= j < |xs| ==> h[j] == RoundHalfEven(xs[j])
  {
    seq(|xs|, j requires 0 <= j < |xs| => RoundHalfEven(xs[j]))
  }

  /** Rounding each of `n` numbers moves their sum by at most `n / 2`. */
  lemma {:induction false} RoundAllSumNear(xs: seq<real>)
    ensures SumInts(RoundAll(xs)) as real - SumReals(xs) <= |xs| as real / 2.0
    ensures SumReals(xs) - SumInts(RoundAll(xs)) as real <= |xs| as real / 2.0
    decreases |xs|
  {
    if |xs| > 0 {
      var init := xs[..|xs| - 1];
      var x := xs[|xs| - 1];
      RoundAllSumNear(init);
      assert xs == init + [x];
      assert RoundAll(xs) == RoundAll(init) + [RoundHalfEven(x)];
      SumIntsAppend(RoundAll(init), RoundHalfEven(x));
      SumRealsAppend(init, x);
    }
  }

  /** Each value as a percentage of `total`. */
  function Percents(vals: seq<real>, total: real): (ps: seq<real>)
    requires total != 0.0
    ensures |ps| == |vals|
    ensures forall j :: 0 <= j < |vals| ==> ps[j] == vals[j] / total * 100.0
  {
    seq(|vals|, j requires 0 <= j < |vals| => vals[j] / total * 100.0)
  }

  lemma {:induction false} PercentsSum(vals: seq<real>, total: real)
    requires total != 0.0
    ensures SumReals(Percents(vals, total)) == SumReals(vals) / total * 100.0
    decreases |vals|
  {
    if |vals| > 0 {
      var init := vals[..|vals| - 1];
      var v := vals[|vals| - 1];
      PercentsSum(init, total);
      assert vals == init + [v];
      assert Percents(vals, total) == Percents(init, total) + [v / total * 100.0];
      SumRealsAppend(Percents(init, total), v / total * 100.0);
      SumRealsAppend(init, v);
      PercentOfSum(SumReals(init), v, total);
    }
  }

  lemma DivSelf(t: real)
    requires t != 0.0
    ensures t / t == 1.0
  {
    assert (t / t) * t == t;
  }

  lemma PercentOfSum(a: real, b: real, t: real)
    requires t != 0.0
    ensures (a + b) / t * 100.0 == a / t * 100.0 + b / t * 100.0
  {
  }

  /** `round(v / total, 2)` for each value, in hundredths. */
  function Shares(vals: seq<real>, total: real): (h: seq<int>)
    requires total != 0.0
    ensures |h| == |vals|
    ensures forall j :: 0 <= j < |vals| ==> h[j] == Hundredths(vals[j] / total)
  {
    RoundAll(Percents(vals, total))
  }

  /** The rounded shares of weights that sum to `total` add up to one, give or take half a
      hundredth per share. */
  lemma SharesSumNear(vals: seq<real>, total: real)
    requires total != 0.0 && total == SumReals(vals)
    ensures 2 * (SumInts(Shares(vals, total)) - 100) <= |vals|
    ensures 2 * (100 - SumInts(Shares(vals, total))) <= |vals|
  {
    var ps := Percents(vals, total);
    PercentsSum(vals, total);
    DivSelf(total);
    assert SumReals(ps) == 100.0;
    RoundAllSumNear(ps);
    assert RoundAll(ps) == Shares(vals, total);
    var hs := SumInts(Shares(vals, total));
    assert hs as real - 100.0 <= |vals| as real / 2.0;
    assert 100.0 - hs as real <= |vals| as real / 2.0;
  }

  /** Non-negative weights give shares between 0 and 100 hundredths. */
  lemma SharesInRange(vals: seq<real>, total: real, j: int)
    requires total > 0.0 && total == SumReals(vals)
    requires forall k :: 0 <= k < |vals| ==> vals[k] >= 0.0
    requires 0 <= j < |vals|
    ensures 0 <= Shares(vals, total)[j] <= 100
  {
    SumRealsBoundsElement(vals, j);
    FractionOfWhole(vals[j], total);
    HundredthsInUnitRange(vals[j] / total);
  }

  lemma FractionOfWhole(a: real, t: real)
    requires t > 0.0 && 0.0 <= a <= t
    ensures 0.0 <= a / t <= 1.0
  {
    assert a / t * t == a;
  }

  lemma {:induction false} SumRealsBoundsElement(vals: seq<real>, j: int)
    requires forall k :: 0 <= k < |vals| ==> vals[k] >= 0.0
    requires 0 <= j < |vals|
    ensures 0.0 <= vals[j] <= SumReals(vals)
    decreases |vals|
  {
    var init := vals[..|vals| - 1];
    SumRealsNonneg(init);
    if j < |vals| - 1 {
      SumRealsBoundsElement(init, j);
    }
  }

  lemma {:induction false} SumRealsNonneg(vals: seq<real>)
    requires forall k :: 0 <= k < |vals| ==> vals[k] >= 0.0
    ensures SumReals(vals) >= 0.0
    decreases |vals|
  {
    if |vals| > 0 {
      SumRealsNonneg(vals[..|vals| - 1]);
    }
  }

  // ---------------------------------------------------------------- `_renorm_pairs`

  /** `max(range(len(h)), key=lambda j: h[j])`: the first index holding the largest value. */
  function ArgMax(h: seq<int>): (i: nat)
    requires |h| > 0
    ensures i < |h|
    ensures forall j :: 0 <= j < |h| ==> h[j] <= h[i]
    ensures forall j :: 0 <= j < i ==> h[j] < h[i]
  {
    if |h| == 1 then 0
    else
      var i := ArgMax(h[..|h| - 1]);
      if h[|h| - 1] > h[i] then |h| - 1 else i
  }

  function Labels<L>(pairs: seq<(L, real)>): (ls: seq<L>)
    ensures |ls| == |pairs|
    ensures forall j :: 0 <= j < |pairs| ==> ls[j] == pairs[j].0
  {
    seq(|pairs|, j requires 0 <= j < |pairs| => pairs[j].0)
  }

  /** The numbers of labelled pairs: the weights of `(label, weight)` pairs, or the
      hundredths of budget rows. */
  function Values<L, V>(pairs: seq<(L, V)>): (vs: seq<V>)
    ensures |vs| == |pairs|
    ensures forall j :: 0 <= j < |pairs| ==> vs[j] == pairs[j].1
  {
    seq(|pairs|, j requires 0 <= j < |pairs| => pairs[j].1)
  }

  function Zip<L>(ls: seq<L>, hs: seq<int>): (r: seq<(L, int)>)
    requires |ls| == |hs|
    ensures |r| == |ls|
    ensures forall j :: 0 <= j < |ls| ==> r[j] == (ls[j], hs[j])
  {
    seq(|ls|, j requires 0 <= j < |ls| => (ls[j], hs[j]))
  }

  /** `_renorm_pairs` with two decimals, shares in hundredths: scale the weights to
      fractions of their sum, round each, then push the rounding drift onto the first
      largest share, never below zero. A non-positive sum gives no pairs. */
  function RenormPairs<L>(pairs: seq<(L, real)>): (r: seq<(L, int)>)
    ensures SumReals(Values(pairs)) <= 0.0 ==> r == []
    ensures SumReals(Values(pairs)) > 0.0 ==>
      && |r| == |pairs| > 0
      && (forall j :: 0 <= j < |r| ==> r[j].0 == pairs[j].0)
      && var h := Shares(Values(pairs), SumReals(Values(pairs)));
         RenormAdjusted(h, Values(r), ArgMax(h))
  {
    var s := SumReals(Values(pairs));
    if s <= 0.0 then []
    else
      var h := Shares(Values(pairs), s);
      var r := Zip(Labels(pairs), FixDrift(h));
      assert Values(r) == FixDrift(h);
      FixDriftAdjusts(h);
      r
  }

  /** `diff = 1 - sum(rounded)`, added to the first largest share when non-zero, clamped at
      zero. */
  function FixDrift(h: seq<int>): seq<int>
    requires |h| > 0
  {
    var diff := 100 - SumInts(h);
    var i := ArgMax(h);
    if diff != 0 then h[i := Max0(h[i] + diff)] else h
  }

  lemma FixDriftAdjusts(h: seq<int>)
    requires |h| > 0
    ensures RenormAdjusted(h, FixDrift(h), ArgMax(h))
  {
    var i := ArgMax(h);
    var diff := 100 - SumInts(h);
    if diff != 0 {
      var adj := h[i := Max0(h[i] + diff)];
      assert adj == FixDrift(h);
      SumIntsUpdate(h, i, Max0(h[i] + diff));
      if h[i] + diff >= 0 {
        assert SumInts(adj) == 100;
      } else {
        assert adj[i] == 0 && SumInts(adj) == SumInts(h) - h[i];
      }
    }
  }

  function Max0(x: int): int {
    if x < 0 then 0 else x
  }

  /** `adj` keeps every rounded share `h[j]` except the one at `i`, a largest share; the sum
      comes out at exactly 100 hundredths, unless the correction would have driven that share
      below zero, in which case it is 0 and the sum stays above 100. Shares already summing to
      100 are left alone. */
  ghost predicate RenormAdjusted(h: seq<int>, adj: seq<int>, i: int) {
    && |adj| == |h| && 0 <= i < |h|
    && (forall j :: 0 <= j < |h| && j != i ==> adj[j] == h[j])
    && (forall j :: 0 <= j < |h| ==> h[j] <= h[i])
    && (SumInts(h) == 100 ==> adj == h)
    && (SumInts(adj) == 100 || (adj[i] == 0 && SumInts(adj) > 100))
    && (SumInts(adj) == 100 <==> SumInts(h) == 100 || h[i] + 100 - SumInts(h) >= 0)
  }

  /** With non-negative weights, a positive total and at most fifteen entries, the drift
      correction never clamps: the shares sum to exactly one, each between 0 and 1. */
  lemma RenormSumsToOne<L>(pairs: seq<(L, real)>)
    requires forall j :: 0 <= j < |pairs| ==> pairs[j].1 >= 0.0
    requires SumReals(Values(pairs)) > 0.0
    requires |pairs| <= 15
    ensures SumInts(Values(RenormPairs(pairs))) == 100
    ensures forall j :: 0 <= j < |pairs| ==> 0 <= RenormPairs(pairs)[j].1 <= 100
  {
    var ws := Values(pairs);
    var s := SumReals(ws);
    var h := Shares(ws, s);
    forall j | 0 <= j < |h|
      ensures 0 <= h[j] <= 100
    {
      SharesInRange(ws, s, j);
    }
    SharesSumNear(ws, s);
    DriftNeverClamps(h);
    var a := Values(RenormPairs(pairs));
    assert SumInts(a) == 100;
    AllBelowSum(a);
  }

  /** Few non-negative shares within `n / 2` of 100: the first largest can absorb the drift.
      Fifteen is the most these hypotheses allow: sixteen shares, twelve of 7 and four of 6,
      sum to 108 and the largest cannot absorb the drift of 8. */
  lemma DriftNeverClamps(h: seq<int>)
    requires 0 < |h| <= 15
    requires forall j :: 0 <= j < |h| ==> h[j] >= 0
    requires 2 * (SumInts(h) - 100) <= |h|
    ensures h[ArgMax(h)] + 100 - SumInts(h) >= 0
  {
    var i := ArgMax(h);
    var n := |h|;
    SumBelowMaxTimesCount(h, h[i]);
    var d := SumInts(h) - 100;
    assert n * h[i] >= 100 + d;
    if d > 0 {
      assert d <= 7;
      MulLeMono(n, 15, h[i]);
      assert 15 * h[i] >= 100;
    }
  }

  lemma MulLeMono(a: int, b: int, c: int)
    requires a <= b && c >= 0
    ensures a * c <= b * c
  {
    assert b * c - a * c == (b - a) * c;
  }

  /** Non-negative entries summing to 100 each lie between 0 and 100. */
  lemma AllBelowSum(a: seq<int>)
    requires SumInts(a) == 100
    requires forall j :: 0 <= j < |a| ==> a[j] >= 0
    ensures forall j :: 0 <= j < |a| ==> 0 <= a[j] <= 100
  {
    forall j | 0 <= j < |a|
      ensures a[j] <= 100
    {
      SumIntsDropOne(a, j);
    }
  }

  lemma {:induction false} SumBelowMaxTimesCount(h: seq<int>, m: int)
    requires forall j :: 0 <= j < |h| ==> h[j] <= m
    ensures SumInts(h) <= |h| * m
    decreases |h|
  {
    if |h| > 0 {
      SumBelowMaxTimesCount(h[..|h| - 1], m);
    }
  }

  /** Dropping one element of a sequence of non-negatives never raises the sum. */
  lemma SumIntsDropOne(h: seq<int>, i: int)
    requires 0 <= i < |h|
    requires forall j :: 0 <= j < |h| && j != i ==> h[j] >= 0
    ensures h[i] <= SumInts(h)
  {
    SumIntsUpdate(h, i, 0);
    SumIntsNonneg(h[i := 0]);
  }

  lemma {:induction false} SumIntsNonneg(h: seq<int>)
    requires forall j :: 0 <= j < |h| ==> h[j] >= 0
    ensures SumInts(h) >= 0
    decreases |h|
  {
    if |h| > 0 {
      SumIntsNonneg(h[..|h| - 1]);
    }
  }

  /** Shares already in whole hundredths that sum to one come back unchanged. */
  lemma SharesOfHundredths(ws: seq<real>, hs: seq<int>)
    requires |ws| == |hs|
    requires forall j :: 0 <= j < |hs| ==> ws[j] == hs[j] as real / 100.0
    requires SumInts(hs) == 100
    ensures SumReals(ws) == 1.0
    ensures Shares(ws, 1.0) == hs
  {
    SumOfHundredths(ws, hs);
    forall j | 0 <= j < |hs|
      ensures Shares(ws, 1.0)[j] == hs[j]
    {
      assert ws[j] / 1.0 == hs[j] as real / 100.0;
      HundredthsOfExact(hs[j]);
    }
  }

  lemma {:induction false} SumOfHundredths(ws: seq<real>, hs: seq<int>)
    requires |ws| == |hs|
    requires forall j :: 0 <= j < |hs| ==> ws[j] == hs[j] as real / 100.0
    ensures SumReals(ws) == SumInts(hs) as real / 100.0
    decreases |hs|
  {
    if |hs| > 0 {
      SumOfHundredths(ws[..|ws| - 1], hs[..|hs| - 1]);
    }
  }

  /** Renormalising pairs that are already hundredths summing to one changes nothing: the
      output of `_renorm_pairs` is a fixed point of it. */
  lemma RenormPairsFixedPoint<L>(pairs: seq<(L, real)>, hs: seq<int>)
    requires |hs| == |pairs|
    requires forall j :: 0 <= j < |pairs| ==> pairs[j].1 == hs[j] as real / 100.0
    requires SumInts(hs) == 100
    ensures RenormPairs(pairs) == Zip(Labels(pairs), hs)
  {
    SharesOfHundredths(Values(pairs), hs);
    var h := Shares(Values(pairs), 1.0);
    assert RenormAdjusted(h, Values(RenormPairs(pairs)), ArgMax(h));
    assert Values(RenormPairs(pairs)) == hs;
  }

  /** Equal weights: each entry `w`. */
  function EqualWeights(n: nat, w: real): (ps: seq<(int, real)>)
    ensures |ps| == n
    ensures forall j :: 0 <= j < n ==> ps[j] == (j, w)
  {
    seq(n, j requires 0 <= j < n => (j, w))
  }

  lemma {:induction false} SumRealsConst(xs: seq<real>, w: real)
    requires forall j :: 0 <= j < |xs| ==> xs[j] == w
    ensures SumReals(xs) == |xs| as real * w
    decreases |xs|
  {
    if |xs| > 0 {
      SumRealsConst(xs[..|xs| - 1], w);
    }
  }

  lemma {:induction false} SumIntsConst(xs: seq<int>, w: int)
    requires forall j :: 0 <= j < |xs| ==> xs[j] == w
    ensures SumInts(xs) == |xs| * w
    decreases |xs|
  {
    if |xs| > 0 {
      SumIntsConst(xs[..|xs| - 1], w);
    }
  }

  /** The drift correction can fall short: with eighteen equal weights every share rounds
      to 6 hundredths, the sum is 108, the correction of -8 would take the first share below
      zero, and the clamped result sums to 1.02 rather than 1. */
  lemma RenormClampsEighteenEqual()
    ensures SumInts(Values(RenormPairs(EqualWeights(18, 1.0)))) == 102
  {
    var pairs := EqualWeights(18, 1.0);
    var ws := Values(pairs);
    SumRealsConst(ws, 1.0);
    var h := Shares(ws, 18.0);
    forall j | 0 <= j < 18
      ensures h[j] == 6
    {
      assert ws[j] / 18.0 * 100.0 == 100.0 / 18.0;
      RoundHalfEvenUnique(100.0 / 18.0, 6);
    }
    SumIntsConst(h, 6);
    var a := Values(RenormPairs(pairs));
    assert RenormAdjusted(h, a, ArgMax(h));
    assert a[ArgMax(h)] == 0;
    SumIntsUpdate(h, ArgMax(h), 0);
    assert a == h[ArgMax(h) := 0];
  }

  /** Two levels of weight: the first `k` entries `hi`, the other `n - k` entries `lo`. */
  function SteppedWeights(n: nat, k: nat, hi: real, lo: real): (ps: seq<(int, real)>)
    ensures |ps| == n
    ensures forall j :: 0 <= j < n ==> ps[j] == (j, if j < k then hi else lo)
  {
    seq(n, j requires 0 <= j < n => (j, if j < k then hi else lo))
  }

  lemma {:induction false} SumRealsStepped(xs: seq<real>, k: nat, hi: real, lo: real)
    requires k <= |xs|
    requires forall j :: 0 <= j < |xs| ==> xs[j] == (if j < k then hi else lo)
    ensures SumReals(xs) == k as real * hi + (|xs| - k) as real * lo
    decreases |xs|
  {
    if |xs| > k {
      SumRealsStepped(xs[..|xs| - 1], k, hi, lo);
    } else {
      SumRealsConst(xs, hi);
    }
  }

  lemma {:induction false} SumIntsStepped(xs: seq<int>, k: nat, hi: int, lo: int)
    requires k <= |xs|
    requires forall j :: 0 <= j < |xs| ==> xs[j] == (if j < k then hi else lo)
    ensures SumInts(xs) == k * hi + (|xs| - k) * lo
    decreases |xs|
  {
    if |xs| > k {
      SumIntsStepped(xs[..|xs| - 1], k, hi, lo);
    } else {
      SumIntsConst(xs, hi);
    }
  }

  /** Seventeen entries already defeat the correction: six weights of 79 and eleven of 66
      (total 1200) give shares of 7 and, on the tie 5.5, 6 hundredths. The sum is 108, the
      correction of -8 would take the first 7 below zero, and the clamped result sums to
      1.01. */
  lemma RenormClampsSeventeen()
    ensures SumInts(Values(RenormPairs(SteppedWeights(17, 6, 79.0, 66.0)))) == 101
  {
    var pairs := SteppedWeights(17, 6, 79.0, 66.0);
    var h := SeventeenShares(Values(pairs));
    SumIntsStepped(h, 6, 7, 6);
    var i := ArgMax(h);
    assert h[i] == 7 by {
      assert h[0] <= h[i];
    }
    var a := Values(RenormPairs(pairs));
    assert RenormAdjusted(h, a, i);
    SumIntsUpdate(h, i, 0);
    assert a == h[i := 0];
  }

  /** The shares of the seventeen weights: 7 for each of the six 79s, 6 for each 66. */
  lemma SeventeenShares(ws: seq<real>) returns (h: seq<int>)
    requires ws == Values(SteppedWeights(17, 6, 79.0, 66.0))
    ensures SumReals(ws) == 1200.0
    ensures h == Shares(ws, SumReals(ws))
    ensures |h| == 17 && forall j :: 0 <= j < 17 ==> h[j] == (if j < 6 then 7 else 6)
  {
    SumRealsStepped(ws, 6, 79.0, 66.0);
    h := Shares(ws, 1200.0);
    forall j | 0 <= j < 17
      ensures h[j] == (if j < 6 then 7 else 6)
    {
      if j < 6 {
        assert ws[j] / 1200.0 * 100.0 == 79.0 / 12.0;
        RoundHalfEvenUnique(79.0 / 12.0, 7);
      } else {
        assert ws[j] / 1200.0 * 100.0 == 5.5;
        RoundHalfEvenUnique(5.5, 6);
      }
    }
  }

  // ---------------------------------------------------------------- `normalize_budget_split`

  /** The items `normalize_budget_split` keeps: two-element lists whose second element is a
      number, as (label, weight) pairs. */
  function NumericPairs(items: seq<JsonValue>): (ps: seq<(JsonValue, real)>)
    ensures |ps| <= |items|
  {
    if |items| == 0 then []
    else
      var init := NumericPairs(items[..|items| - 1]);
      var it := items[|items| - 1];
      if it.JArr? && |it.items| == 2 && IsNumber(it.items[1])
      then init + [(it.items[0], NumValue(it.items[1]))]
      else init
  }

  /** One output row `[label, share]`, the share written as a float of hundredths. */
  function SplitRow(name: JsonValue, h: int): JsonValue {
    JArr([name, JFloat(h as real / 100.0)])
  }

  function SplitRows(ps: seq<(JsonValue, int)>): (rows: seq<JsonValue>)
    ensures |rows| == |ps|
    ensures forall j :: 0 <= j < |ps| ==> rows[j] == SplitRow(ps[j].0, ps[j].1)
  {
    seq(|ps|, j requires 0 <= j < |ps| => SplitRow(ps[j].0, ps[j].1))
  }

  /** `normalize_budget_split`: when `budget_split` is a list whose numeric pairs have a
      positive total, replace it by those pairs with each weight rounded to a share of the
      total in hundredths; every other key, and every other case, is left alone. Unlike
      `_renorm_pairs` there is no drift correction. */
  function NormalizeBudgetSplit(plan: Fields): (r: Fields)
    ensures forall k :: k != "budget_split" ==> Lookup(r, k) == Lookup(plan, k)
    ensures !(Lookup(plan, "budget_split").Some? && Lookup(plan, "budget_split").value.JArr?)
      ==> r == plan
    ensures Lookup(plan, "budget_split").Some? && Lookup(plan, "budget_split").value.JArr? ==>
      var ps := NumericPairs(Lookup(plan, "budget_split").value.items);
      var total := SumReals(Values(ps));
      && (total <= 0.0 ==> r == plan)
      && (total > 0.0 ==>
            var hs := Shares(Values(ps), total);
            && Lookup(r, "budget_split") == Some(JArr(SplitRows(Zip(Labels(ps), hs))))
            && 2 * (SumInts(hs) - 100) <= |ps| && 2 * (100 - SumInts(hs)) <= |ps|)
  {
    match Lookup(plan, "budget_split")
    case Some(JArr(items)) =>
      var ps := NumericPairs(items);
      var total := SumReals(Values(ps));
      if total > 0.0 then
        SharesSumNear(Values(ps), total);
        Put(plan, "budget_split", JArr(SplitRows(Zip(Labels(ps), Shares(Values(ps), total)))))
      else plan
    case _ => plan
  }

  /** A budget already written as shares in hundredths that sum to one is left exactly as
      it is. */
  lemma NormalizeBudgetSplitFixedPoint(plan: Fields, labels: seq<JsonValue>, hs: seq<int>)
    requires |labels| == |hs|
    requires Lookup(plan, "budget_split")
      == Some(JArr(SplitRows(Zip(labels, hs))))
    requires SumInts(hs) == 100
    ensures NormalizeBudgetSplit(plan) == plan
  {
    var items := SplitRows(Zip(labels, hs));
    var ps := NumericPairs(items);
    NumericPairsOfRows(labels, hs);
    SharesOfHundredths(Values(ps), hs);
    assert Zip(Labels(ps), Shares(Values(ps), 1.0)) == Zip(labels, hs);
  }

  /** Rows written by `SplitRow` are all kept, with their labels and shares. */
  lemma {:induction false} NumericPairsOfRows(labels: seq<JsonValue>, hs: seq<int>)
    requires |labels| == |hs|
    ensures |NumericPairs(SplitRows(Zip(labels, hs)))| == |hs|
    ensures forall j :: 0 <= j < |hs| ==>
      NumericPairs(SplitRows(Zip(labels, hs)))[j] == (labels[j], hs[j] as real / 100.0)
    decreases |hs|
  {
    if |hs| > 0 {
      var n := |hs| - 1;
      NumericPairsOfRows(labels[..n], hs[..n]);
      assert SplitRows(Zip(labels, hs))[..n] == SplitRows(Zip(labels[..n], hs[..n]));
    }
  }
}

=== FILE: json.dfy ===
/** Decoded JSON values as Python's `json` module hands them to the program, together with
    the handful of Python behaviours the core relies on: truthiness, `isinstance(x, (int, float))`,
    `dict.get`, item assignment, `str()`, iteration and `==`. */
module Json {
  import opened Wrappers
  import opened Text

  /** A decoded JSON value. Python keeps ints and floats apart, so this does too; an object is
      an insertion-ordered list of fields, as a Python `dict` is. */
  datatype JsonValue =
    | JNull
    | JBool(b: bool)
    | JInt(i: int)
    | JFloat(f: real)
    | JStr(s: string)
    | JArr(items: seq<JsonValue>)
    | JObj(fields: seq<(string, JsonValue)>)

  type Fields = seq<(string, JsonValue)>

  /** Python's `str()` for the values whose rendering the model does not spell out
      (floats and containers); supplied by the caller. */
  type Show = JsonValue -> string

  /** Python truthiness: `None`, `False`, zero, and empty strings, lists and dicts are falsy. */
  predicate Truthy(v: JsonValue) {
    match v
    case JNull => false
    case JBool(b) => b
    case JInt(i) => i != 0
    case JFloat(f) => f != 0.0
    case JStr(s) => |s| > 0
    case JArr(a) => |a| > 0
    case JObj(m) => |m| > 0
  }

  /** `isinstance(v, (int, float))`; Python's `bool` is a subclass of `int`. */
  predicate IsNumber(v: JsonValue) {
    v.JBool? || v.JInt? || v.JFloat?
  }

  /** `float(v)` for a number. */
  function NumValue(v: JsonValue): real
    requires IsNumber(v)
  {
    match v
    case JBool(b) => if b then 1.0 else 0.0
    case JInt(i) => i as real
    case JFloat(f) => f
  }

  /** `d.get(k)`: the value stored under the first occurrence of `k`, if any. */
  function Lookup(m: Fields, k: string): Option<JsonValue> {
    if |m| == 0 then None
    else if m[0].0 == k then Some(m[0].1)
    else Lookup(m[1..], k)
  }

  /** `Lookup` finds a value exactly when the key occurs, and then it is the value of the
      key's first occurrence. */
  lemma {:induction false} LookupFinds(m: Fields, k: string)
    ensures Lookup(m, k).Some? <==> exists i :: 0 <= i < |m| && m[i].0 == k
    ensures Lookup(m, k).Some? ==>
      exists i :: 0 <= i < |m| && m[i] == (k, Lookup(m, k).value)
        && forall j :: 0 <= j < i ==> m[j].0 != k
  {
    if |m| > 0 && m[0].0 != k {
      LookupFinds(m[1..], k);
      if Lookup(m, k).Some? {
        var i :| 0 <= i < |m[1..]| && m[1..][i] == (k, Lookup(m, k).value)
          && forall j :: 0 <= j < i ==> m[1..][j].0 != k;
        assert m[i + 1] == (k, Lookup(m, k).value);
      } else {
        assert forall i :: 1 <= i < |m| ==> m[i] == m[1..][i - 1];
      }
    }
  }

  /** A non-empty dict has its first key. */
  lemma FirstKeyFound(m: Fields)
    ensures |m| > 0 ==> HasKey(m, m[0].0)
  {
  }

  /** `k in d`. */
  predicate HasKey(m: Fields, k: string) {
    Lookup(m, k).Some?
  }

  /** `d.get(k, default)`. */
  function GetOr(m: Fields, k: string, default: JsonValue): (r: JsonValue)
    ensures HasKey(m, k) ==> Some(r) == Lookup(m, k)
    ensures !HasKey(m, k) ==> r == default
  {
    match Lookup(m, k)
    case Some(v) => v
    case None => default
  }

  /** `d[k] = v`: overwrite the value in place when the key exists, else append a field. */
  function Put(m: Fields, k: string, v: JsonValue): (r: Fields)
    ensures Lookup(r, k) == Some(v)
    ensures forall k' :: k' != k ==> Lookup(r, k') == Lookup(m, k')
    ensures HasKey(m, k) ==> |r| == |m|
    ensures !HasKey(m, k) ==> r == m + [(k, v)]
    ensures Lookup(m, k) == Some(v) ==> r == m
  {
    if |m| == 0 then [(k, v)]
    else if m[0].0 == k then [(k, v)] + m[1..]
    else
      var r := [m[0]] + Put(m[1..], k, v);
      assert r[1..] == Put(m[1..], k, v);
      r
  }

  /** `d.setdefault(k, v)`: store `v` only when `k` is absent. */
  function SetDefault(m: Fields, k: string, v: JsonValue): (r: Fields)
    ensures HasKey(m, k) ==> r == m
    ensures !HasKey(m, k) ==> r == m + [(k, v)] && Lookup(r, k) == Some(v)
    ensures forall k' :: k' != k ==> Lookup(r, k') == Lookup(m, k')
  {
    if HasKey(m, k) then m else Put(m, k, v)
  }

  /** `d.get(k)` is truthy: the key is present and its value is. */
  predicate TruthyAt(m: Fields, k: string) {
    HasKey(m, k) && Truthy(GetOr(m, k, JNull))
  }

  /** `d.get(k1) or d.get(k2) or ... or default`: the first truthy value among the keys, else
      `default`. */
  function FirstTruthy(m: Fields, keys: seq<string>, default: JsonValue): (r: JsonValue)
    ensures r == default || exists j :: 0 <= j < |keys| && Lookup(m, keys[j]) == Some(r)
    ensures r != default ==> Truthy(r)
    ensures (forall j :: 0 <= j < |keys| ==> !TruthyAt(m, keys[j])) ==> r == default
    ensures forall j :: 0 <= j < |keys| && TruthyAt(m, keys[j])
                        && (forall i :: 0 <= i < j ==> !TruthyAt(m, keys[i])) ==>
              Lookup(m, keys[j]) == Some(r)
  {
    if |keys| == 0 then default
    else
      var rest := keys[1..];
      assert forall j :: 1 <= j < |keys| ==> keys[j] == rest[j - 1];
      match Lookup(m, keys[0])
      case Some(v) =>
        if Truthy(v) then v
        else
          var r := FirstTruthy(m, rest, default);
          assert r != default ==> exists j :: 0 <= j < |rest| && Lookup(m, rest[j]) == Some(r);
          r
      case None =>
        var r := FirstTruthy(m, rest, default);
        assert r != default ==> exists j :: 0 <= j < |rest| && Lookup(m, rest[j]) == Some(r);
        r
  }

  /** Python's `str(v)`; floats and containers are rendered by `show`. */
  function PyStr(v: JsonValue, show: Show): (r: string)
    ensures v.JStr? ==> r == v.s
  {
    match v
    case JNull => "None"
    case JBool(b) => if b then "True" else "False"
    case JInt(i) => IntToDecimal(i)
    case JStr(s) => s
    case _ => show(v)
  }

  /** `for x in v`: a list yields its items, a string its one-character strings, a dict its
      keys; anything else raises (`None`). */
  function PyIter(v: JsonValue): (r: Option<seq<JsonValue>>)
    ensures v.JArr? ==> r == Some(v.items)
    ensures r.Some? <==> v.JArr? || v.JStr? || v.JObj?
    ensures v.JStr? ==> r.Some? && |r.value| == |v.s|
  {
    match v
    case JArr(a) => Some(a)
    case JStr(s) => Some(seq(|s|, i requires 0 <= i < |s| => JStr([s[i]])))
    case JObj(m) => Some(seq(|m|, i requires 0 <= i < |m| => JStr(m[i].0)))
    case _ => None
  }

  /** `isinstance(v, (str, dict))`: the entries the transformers rewrite rather than skip. */
  predicate IsStrOrObj(v: JsonValue) {
    v.JStr? || v.JObj?
  }

  /** `len(v)`, defined for strings, lists and dicts. */
  function PyLen(v: JsonValue): Option<nat> {
    match v
    case JStr(s) => Some(|s|)
    case JArr(a) => Some(|a|)
    case JObj(m) => Some(|m|)
    case _ => None
  }

  /** Python's `a == b` between two decoded values: numbers (bools included) compare by value
      across types; other values compare structurally. Inside lists and objects this is
      stricter than Python, which has `[1] == [1.0]` and ignores the key order of dicts. */
  predicate PyEq(a: JsonValue, b: JsonValue) {
    if IsNumber(a) && IsNumber(b) then NumValue(a) == NumValue(b) else a == b
  }
}

=== FILE: qc.dfy ===
/** `scripts/qc_and_dedupe.py`: clean a generated dataset in two passes. The first pass
    drops records without channels, without a title or with a timeline outside 1..24
    weeks, and keeps the first record of each coarse key (industry, objective, first three
    sorted channel names). The second pass drops a record when its packed text is too
    similar to one of the last 500 texts kept. `difflib.SequenceMatcher(...).ratio()` is the
    parameter `sim`; records are decoded JSON values. */
module Qc {
  import opened Wrappers
  import opened Text
  import opened Json
  import opened Seqs
  import opened Sorting

  // ---------------------------------------------------------------------------------
  // Records
  // ---------------------------------------------------------------------------------

  /** The fields of the object stored under `k` in a record, or none. */
  function Part(rec: JsonValue, k: string): Fields {
    if rec.JObj? then
      match Lookup(rec.fields, k)
      case Some(JObj(m)) => m
      case _ => []
    else []
  }

  /** `rec["output"]`. */
  function OutputOf(rec: JsonValue): Fields {
    Part(rec, "output")
  }

  /** `rec["input"]`. */
  function InputOf(rec: JsonValue): Fields {
    Part(rec, "input")
  }

  // ---------------------------------------------------------------------------------
  // pack_text
  // ---------------------------------------------------------------------------------

  const Sep := " || "

  /** `pack_text`: title, big idea and key message joined by `" || "`, a missing field
      reading as the empty string. Packing loses nothing when neither the title nor the big
      idea holds a separator: the three parts are read back unchanged. */
  function PackText(o: Fields, show: Show): (r: string)
    ensures var t := PyStr(GetOr(o, "concept_title", JStr("")), show);
      var b := PyStr(GetOr(o, "big_idea", JStr("")), show);
      var k := PyStr(GetOr(o, "key_message", JStr("")), show);
      SepFree(t) && SepFree(b) ==> UnpackText(r) == Some((t, b, k))
  {
    var t := PyStr(GetOr(o, "concept_title", JStr("")), show);
    var b := PyStr(GetOr(o, "big_idea", JStr("")), show);
    var k := PyStr(GetOr(o, "key_message", JStr("")), show);
    PackedRoundTrip(t, b, k);
    t + Sep + b + Sep + k
  }

  lemma PackedRoundTrip(t: string, b: string, k: string)
    ensures SepFree(t) && SepFree(b) ==> UnpackText(t + Sep + b + Sep + k) == Some((t, b, k))
  {
    if SepFree(t) && SepFree(b) {
      UnpackJoined(t, b, k);
    }
  }

  /** Cut a packed text at its first two separators. */
  function UnpackText(t: string): Option<(string, string, string)> {
    var i := IndexOf(t, Sep);
    if i == -1 then None
    else
      var rest := t[i + 4..];
      var j := IndexOf(rest, Sep);
      if j == -1 then None
      else Some((t[..i], rest[..j], rest[j + 4..]))
  }

  /** No separator starts inside `s`, not even one completed by the separator that
      follows it. */
  predicate SepFree(s: string) {
    !Contains(s + " ||", Sep)
  }

  /** The first separator of `a + Sep + b` is the one after `a`. */
  lemma FirstSepAfter(a: string, b: string)
    requires SepFree(a)
    ensures IndexOf(a + Sep + b, Sep) == |a|
  {
    var t := a + Sep + b;
    assert t[|a|..|a| + 4] == Sep;
    assert OccursAt(t, Sep, |a|);
    forall i | i < |a|
      ensures !OccursAt(t, Sep, i)
    {
      if 0 <= i {
        assert !OccursAt(a + " ||", Sep, i);
        assert t[i..i + 4] == (a + " ||")[i..i + 4];
      }
    }
  }

  /** Three texts joined by the separator are cut back into the same three when the first
      two hold no separator. */
  lemma UnpackJoined(a: string, b: string, c: string)
    requires SepFree(a) && SepFree(b)
    ensures UnpackText(a + Sep + b + Sep + c) == Some((a, b, c))
  {
    var t := a + Sep + b + Sep + c;
    assert t == a + Sep + (b + Sep + c);
    FirstSepAfter(a, b + Sep + c);
    var rest := t[|a| + 4..];
    assert rest == b + Sep + c;
    FirstSepAfter(b, c);
    assert t[..|a|] == a;
    assert rest[..|b|] == b;
    assert rest[|b| + 4..] == c;
  }

  // ---------------------------------------------------------------------------------
  // Gating
  // ---------------------------------------------------------------------------------

  /** `o.get("channels", [])`. */
  function Channels(o: Fields): JsonValue {
    GetOr(o, "channels", JArr([]))
  }

  /** `o.get("timeline_weeks", 0)`. */
  function Weeks(o: Fields): JsonValue {
    GetOr(o, "timeline_weeks", JInt(0))
  }

  /** The gate runs without raising: `len` applies to the channels, and the week count is
      a number whenever the comparison is reached. */
  predicate GateDefined(o: Fields) {
    && PyLen(Channels(o)).Some?
    && (PyLen(Channels(o)).value != 0 && Truthy(GetOr(o, "concept_title", JNull)) ==>
          IsNumber(Weeks(o)))
  }

  /** The record gate: some channel, a truthy title, and 1 <= weeks <= 24 where a missing
      week count reads as 0. */
  predicate Passes(o: Fields)
    ensures Passes(o) ==> PyLen(Channels(o)).Some? && PyLen(Channels(o)).value > 0
    ensures Passes(o) ==> Truthy(GetOr(o, "concept_title", JNull))
    ensures Passes(o) ==>
      HasKey(o, "timeline_weeks") && IsNumber(Weeks(o)) && 1.0 <= NumValue(Weeks(o)) <= 24.0
  {
    && PyLen(Channels(o)).Some? && PyLen(Channels(o)).value != 0
    && Truthy(GetOr(o, "concept_title", JNull))
    && IsNumber(Weeks(o)) && 1.0 <= NumValue(Weeks(o)) <= 24.0
  }

  predicate PassesRec(rec: JsonValue) {
    Passes(OutputOf(rec))
  }

  // ---------------------------------------------------------------------------------
  // The coarse key
  // ---------------------------------------------------------------------------------

  /** A hashable key component; Python's `1 == 1.0 == True` makes numbers one kind. */
  datatype Atom = ANone | ANum(x: real) | AStr(s: string)

  predicate Hashable(v: JsonValue) {
    !v.JArr? && !v.JObj?
  }

  function AtomOf(v: JsonValue): Atom {
    match v
    case JStr(s) => AStr(s)
    case JBool(_) => ANum(NumValue(v))
    case JInt(_) => ANum(NumValue(v))
    case JFloat(_) => ANum(NumValue(v))
    case _ => ANone
  }

  /** `"name" in c` followed by `c["name"]` runs without raising: a dict, or a list or
      string that does not contain `"name"`; a named dict's name is a string, so that the
      names can be sorted. */
  predicate EntryDefined(c: JsonValue) {
    match c
    case JObj(m) => HasKey(m, "name") ==> Lookup(m, "name").value.JStr?
    case JArr(items) => JStr("name") !in items
    case JStr(s) => !Contains(s, "name")
    case _ => false
  }

  /** The channel entries `for c in o.get("channels", [])` visits. */
  function Entries(o: Fields): seq<JsonValue> {
    match PyIter(Channels(o))
    case Some(es) => es
    case None => []
  }

  /** A dict entry whose `name` is a string. */
  predicate NamedEntry(c: JsonValue) {
    c.JObj? && Lookup(c.fields, "name").Some? && Lookup(c.fields, "name").value.JStr?
  }

  /** `[c["name"] for c in entries if "name" in c]`: one name per named dict, in order. */
  function Names(entries: seq<JsonValue>): (ns: seq<string>)
    ensures |ns| <= |entries|
    ensures (forall j :: 0 <= j < |entries| ==> NamedEntry(entries[j])) ==>
      && |ns| == |entries|
      && forall j :: 0 <= j < |entries| ==> Lookup(entries[j].fields, "name") == Some(JStr(ns[j]))
    ensures (forall j :: 0 <= j < |entries| ==> !NamedEntry(entries[j])) ==> ns == []
  {
    if |entries| == 0 then []
    else
      var init := Names(entries[..|entries| - 1]);
      match entries[|entries| - 1]
      case JObj(m) =>
        (match Lookup(m, "name")
         case Some(JStr(n)) => init + [n]
         case _ => init)
      case _ => init
  }

  /** `(industry, objective, tuple(sorted(names))[:3])`. */
  datatype CoarseKey = CoarseKey(industry: Atom, objective: Atom, channels: seq<string>)

  /** The key of a record. Its channel part is the record's three alphabetically smallest
      channel names, or all of them when there are fewer: sorted, drawn from the names, and
      no name left out sorts before one kept. */
  function CoarseKeyOf(rec: JsonValue): (r: CoarseKey)
    ensures r.industry == AtomOf(GetOr(InputOf(rec), "industry", JNull))
    ensures r.objective == AtomOf(GetOr(InputOf(rec), "objective", JNull))
    ensures var ns := Names(Entries(OutputOf(rec)));
      var ch := r.channels;
      && |ch| == (if |ns| < 3 then |ns| else 3)
      && Sorted(ch, StrLt)
      && multiset(ch) <= multiset(ns)
      && (forall x :: x in multiset(ns) - multiset(ch) ==>
            forall k :: 0 <= k < |ch| ==> !StrLt(x, ch[k]))
  {
    var i := InputOf(rec);
    var ns := Names(Entries(OutputOf(rec)));
    var m := if |ns| < 3 then |ns| else 3;
    SmallestStrings(ns, m);
    CoarseKey(AtomOf(GetOr(i, "industry", JNull)), AtomOf(GetOr(i, "objective", JNull)),
              SortStrings(ns)[..m])
  }

  /** The key is computed without raising: `rec["input"]` is a dict holding a hashable
      industry and objective, and every channel entry answers `"name" in c`. */
  predicate KeyDefined(rec: JsonValue) {
    && rec.JObj?
    && Lookup(rec.fields, "input").Some? && Lookup(rec.fields, "input").value.JObj?
    && HasKey(InputOf(rec), "industry") && Hashable(GetOr(InputOf(rec), "industry", JNull))
    && HasKey(InputOf(rec), "objective") && Hashable(GetOr(InputOf(rec), "objective", JNull))
    && forall k :: 0 <= k < |Entries(OutputOf(rec))| ==> EntryDefined(Entries(OutputOf(rec))[k])
  }

  /** The channel part of the key does not depend on the order of the channels: two
      records naming the same channels, as many times each, agree on it. */
  lemma CoarseKeyIgnoresOrder(r1: JsonValue, r2: JsonValue)
    requires GetOr(InputOf(r1), "industry", JNull) == GetOr(InputOf(r2), "industry", JNull)
    requires GetOr(InputOf(r1), "objective", JNull) == GetOr(InputOf(r2), "objective", JNull)
    requires multiset(Names(Entries(OutputOf(r1)))) == multiset(Names(Entries(OutputOf(r2))))
    ensures CoarseKeyOf(r1) == CoarseKeyOf(r2)
  {
    SortStringsCanonical(Names(Entries(OutputOf(r1))), Names(Entries(OutputOf(r2))));
  }

  // ---------------------------------------------------------------------------------
  // First pass: gate and coarse-key dedupe
  // ---------------------------------------------------------------------------------

  /** The first pass runs on `rec` without raising. */
  predicate RecordDefined(rec: JsonValue) {
    && rec.JObj?
    && Lookup(rec.fields, "output").Some? && Lookup(rec.fields, "output").value.JObj?
    && HasKey(rec.fields, "input")
    && GateDefined(OutputOf(rec))
    && (PassesRec(rec) ==> KeyDefined(rec))
  }

  /** The first loop of `main`: skip records failing the gate, then skip records whose
      coarse key was seen. It is the gate's filter followed by a first-per-key dedupe. */
  method GateAndDedupe(recs: seq<JsonValue>) returns (kept: seq<JsonValue>)
    requires forall k :: 0 <= k < |recs| ==> RecordDefined(recs[k])
    ensures kept == FirstPerKey(Filter(recs, PassesRec), CoarseKeyOf)
    ensures IsSubseq(kept, recs)
    ensures forall k :: 0 <= k < |kept| ==> PassesRec(kept[k])
    ensures forall i, j :: 0 <= i < j < |kept| ==> CoarseKeyOf(kept[i]) != CoarseKeyOf(kept[j])
    ensures |Filter(recs, PassesRec)| > 0 ==> |kept| > 0 && kept[0] == Filter(recs, PassesRec)[0]
  {
    kept := FilterThenDedupe(recs, PassesRec, CoarseKeyOf);
    var gated := Filter(recs, PassesRec);
    SubseqTrans(kept, gated, recs);
    SubseqMembers(kept, gated);
    forall k | 0 <= k < |kept|
      ensures PassesRec(kept[k])
    {
      assert kept[k] in gated;
    }
    if |gated| > 0 {
      FirstKeptIsFirst(gated, CoarseKeyOf);
    }
  }

  // ---------------------------------------------------------------------------------
  // Second pass: windowed near-duplicate prune
  // ---------------------------------------------------------------------------------

  /** `difflib.SequenceMatcher(None, a, b).ratio()`. */
  type Similarity = (string, string) -> real

  const Window: nat := 500
  const DupRatio: real := 0.92

  /** `texts[-500:]`: the last 500 texts kept, or all of them. */
  function Recent(ts: seq<string>): (w: seq<string>)
    ensures |w| == (if |ts| <= Window then |ts| else Window)
    ensures w == ts[|ts| - |w|..]
  {
    if |ts| <= Window then ts else ts[|ts| - Window..]
  }

  /** Some recent text is more than 92% similar to `t`. */
  predicate NearDuplicate(t: string, ts: seq<string>, sim: Similarity) {
    exists k :: 0 <= k < |Recent(ts)| && sim(t, Recent(ts)[k]) > DupRatio
  }

  /** The prune as a fold over items with texts: an item is kept when its text is not a
      near duplicate of the recent texts kept before it. */
  function Prune<T(==)>(xs: seq<T>, text: T -> string, sim: Similarity): (kept: seq<T>)
    ensures IsSubseq(kept, xs)
  {
    if |xs| == 0 then []
    else
      var init := Prune(xs[..|xs| - 1], text, sim);
      var x := xs[|xs| - 1];
      assert xs == xs[..|xs| - 1] + [x];
      if NearDuplicate(text(x), KeysOf(init, text), sim) then
        SubseqSkip(init, xs[..|xs| - 1], x);
        init
      else
        SubseqKeep(init, xs[..|xs| - 1], x);
        init + [x]
  }

  lemma PruneSnoc<T>(xs: seq<T>, x: T, text: T -> string, sim: Similarity)
    ensures Prune(xs + [x], text, sim) ==
      var init := Prune(xs, text, sim);
      if NearDuplicate(text(x), KeysOf(init, text), sim) then init else init + [x]
  {
    assert (xs + [x])[..|xs|] == xs;
  }

  /** The inner loop: scan the window and stop at the first text more than 92% similar. */
  method WindowHasDuplicate(t: string, window: seq<string>, sim: Similarity)
    returns (isDup: bool)
    ensures isDup <==> exists k :: 0 <= k < |window| && sim(t, window[k]) > DupRatio
  {
    isDup := false;
    var j := 0;
    while j < |window|
      invariant 0 <= j <= |window|
      invariant forall k :: 0 <= k < j ==> sim(t, window[k]) <= DupRatio
    {
      if sim(t, window[j]) > DupRatio {
        isDup := true;
        return;
      }
      j := j + 1;
    }
  }

  /** One step of the prune loop over a prefix, with `texts` the texts kept so far. */
  lemma PruneStep<T>(xs: seq<T>, i: int, text: T -> string, sim: Similarity,
                     kept: seq<T>, texts: seq<string>)
    requires 0 <= i < |xs|
    requires kept == Prune(xs[..i], text, sim) && texts == KeysOf(kept, text)
    ensures NearDuplicate(text(xs[i]), texts, sim) ==> Prune(xs[..i + 1], text, sim) == kept
    ensures !NearDuplicate(text(xs[i]), texts, sim) ==>
      && Prune(xs[..i + 1], text, sim) == kept + [xs[i]]
      && KeysOf(kept + [xs[i]], text) == texts + [text(xs[i])]
  {
    TakeSnoc(xs, i);
    PruneSnoc(xs[..i], xs[i], text, sim);
    KeysOfSnoc(kept, xs[i], text);
  }

  /** The outer loop: keep an item unless the window finds a near duplicate. */
  method PruneLoop<T(==)>(xs: seq<T>, text: T -> string, sim: Similarity)
    returns (kept: seq<T>)
    ensures kept == Prune(xs, text, sim)
  {
    kept := [];
    var texts: seq<string> := [];
    var i := 0;
    while i < |xs|
      invariant 0 <= i <= |xs|
      invariant kept == Prune(xs[..i], text, sim)
      invariant texts == KeysOf(kept, text)
    {
      var x := xs[i];
      var t := text(x);
      var isDup := WindowHasDuplicate(t, Recent(texts), sim);
      PruneStep(xs, i, text, sim, kept, texts);
      if !isDup {
        kept := kept + [x];
        texts := texts + [t];
      }
      i := i + 1;
    }
    assert xs[..|xs|] == xs;
  }

  /** The first item always survives the prune. */
  lemma {:induction false} PruneKeepsFirst<T>(xs: seq<T>, text: T -> string, sim: Similarity)
    requires |xs| > 0
    ensures |Prune(xs, text, sim)| > 0 && Prune(xs, text, sim)[0] == xs[0]
    decreases |xs|
  {
    var xl := xs[..|xs| - 1];
    assert xs == xl + [xs[|xs| - 1]];
    PruneSnoc(xl, xs[|xs| - 1], text, sim);
    if |xs| > 1 {
      PruneKeepsFirst(xl, text, sim);
      assert xl[0] == xs[0];
    } else {
      assert Prune(xl, text, sim) == [];
      assert Recent(KeysOf([], text)) == [];
    }
  }

  /** The last item kept passes the window test against the items kept before it. */
  lemma PruneLastSpaced<T>(init: seq<T>, x: T, text: T -> string, sim: Similarity, j: int)
    requires !NearDuplicate(text(x), KeysOf(init, text), sim)
    requires 0 <= j < |init| && |init| - j <= Window
    ensures sim(text(x), text(init[j])) <= DupRatio
  {
    var w := Recent(KeysOf(init, text));
    var idx := j - (|init| - |w|);
    assert w[idx] == KeysOf(init, text)[j];
  }

  /** Every kept item is at most 92% similar to each of the up to 500 items kept just
      before it. */
  lemma {:induction false} PruneSpaced<T>(xs: seq<T>, text: T -> string, sim: Similarity)
    ensures var kept := Prune(xs, text, sim);
      forall k, j :: 0 <= j < k < |kept| && k - j <= Window ==>
        sim(text(kept[k]), text(kept[j])) <= DupRatio
    decreases |xs|
  {
    if |xs| > 0 {
      var xl := xs[..|xs| - 1];
      var x := xs[|xs| - 1];
      var init := Prune(xl, text, sim);
      assert xs == xl + [x];
      PruneSnoc(xl, x, text, sim);
      PruneSpaced(xl, text, sim);
      if !NearDuplicate(text(x), KeysOf(init, text), sim) {
        var kept := init + [x];
        forall k, j | 0 <= j < k < |kept| && k - j <= Window
          ensures sim(text(kept[k]), text(kept[j])) <= DupRatio
        {
          if k == |init| {
            PruneLastSpaced(init, x, text, sim, j);
            assert kept[j] == init[j];
          } else {
            assert kept[k] == init[k] && kept[j] == init[j];
          }
        }
      }
    }
  }

  /** A record's packed text. */
  function PackedText(show: Show): JsonValue -> string {
    rec => PackText(OutputOf(rec), show)
  }

  /** The second loop of `main` on records: keep a record unless its packed text is more
      than 92% similar to one of the last 500 texts kept; the first record is always kept
      and every kept record is spaced from the 500 before it. */
  method FuzzyPrune(recs: seq<JsonValue>, show: Show, sim: Similarity)
    returns (kept: seq<JsonValue>)
    ensures kept == Prune(recs, PackedText(show), sim)
    ensures IsSubseq(kept, recs)
    ensures |recs| > 0 ==> |kept| > 0 && kept[0] == recs[0]
    ensures forall k, j :: 0 <= j < k < |kept| && k - j <= Window ==>
      sim(PackText(OutputOf(kept[k]), show), PackText(OutputOf(kept[j]), show)) <= DupRatio
  {
    kept := PruneLoop(recs, PackedText(show), sim);
    if |recs| > 0 {
      PruneKeepsFirst(recs, PackedText(show), sim);
    }
    PruneSpaced(recs, PackedText(show), sim);
  }

  // ---------------------------------------------------------------------------------
  // Both passes
  // ---------------------------------------------------------------------------------

  /** `main` without the file handling: the fuzzy prune of the first passing record per
      coarse key. Every record kept passed the gate, carries its own coarse key, and they
      appear in input order; the first record to pass the gate is always kept, and no two
      kept records at most 500 apart are more than 92% similar. */
  method Clean(recs: seq<JsonValue>, show: Show, sim: Similarity) returns (out: seq<JsonValue>)
    requires forall k :: 0 <= k < |recs| ==> RecordDefined(recs[k])
    ensures out == Prune(FirstPerKey(Filter(recs, PassesRec), CoarseKeyOf), PackedText(show), sim)
    ensures forall k, j :: 0 <= j < k < |out| && k - j <= Window ==>
      sim(PackText(OutputOf(out[k]), show), PackText(OutputOf(out[j]), show)) <= DupRatio
    ensures IsSubseq(out, recs)
    ensures forall k :: 0 <= k < |out| ==> PassesRec(out[k])
    ensures forall i, j :: 0 <= i < j < |out| ==> CoarseKeyOf(out[i]) != CoarseKeyOf(out[j])
    ensures |Filter(recs, PassesRec)| > 0 ==> |out| > 0 && out[0] == Filter(recs, PassesRec)[0]
  {
    var kept := GateAndDedupe(recs);
    out := FuzzyPrune(kept, show, sim);
    SubseqTrans(out, kept, recs);
    SubseqDistinctKeys(out, kept, CoarseKeyOf);
    SubseqMembers(out, kept);
    forall k | 0 <= k < |out|
      ensures PassesRec(out[k])
    {
      assert out[k] in kept;
    }

  }
}

=== FILE: recovery.dfy ===
/** Output recovery of the serving path (deploy/utils.py): the naive first-`{`-to-last-`}`
    slice, the anchor that narrows a transcript to the answer turn, the first-object brace
    scanner, and the chain that turns a completion into a parsed value. */
module Recovery {
  import opened Wrappers
  import opened Text
  import opened Json
  import opened Scanner

  /** `extract_first_json_block`: the slice from the first `{` to the last `}`, inclusive. */
  function FirstJsonBlock(text: string): (r: Option<string>)
    ensures r.Some? <==> exists i, j :: 0 <= i < j < |text| && text[i] == '{' && text[j] == '}'
    ensures r.Some? ==>
      exists i :: OccursAt(text, r.value, i)
        && (forall k :: 0 <= k < i ==> text[k] != '{')
        && (forall k :: i + |r.value| <= k < |text| ==> text[k] != '}')
    ensures r.Some? ==> |r.value| >= 2 && r.value[0] == '{' && r.value[|r.value| - 1] == '}'
  {
    var s := FindChar(text, '{');
    var e := RFindChar(text, '}');
    if s == -1 || e == -1 || e <= s then None
    else
      var r := text[s..e + 1];
      assert r[|r| - 1] == text[e];
      assert OccursAt(text, r, s);
      Some(r)
  }

  /** Start of the maximal whitespace run that ends just before index `k`. */
  function SpaceRunStart(s: string, k: nat): (p: nat)
    requires k <= |s|
    ensures p <= k && AllSpace(s[p..k])
    ensures p == 0 || !IsSpace(s[p - 1])
    ensures forall p' :: 0 <= p' <= k && AllSpace(s[p'..k]) ==> p <= p'
  {
    if k > 0 && IsSpace(s[k - 1]) then
      var p := SpaceRunStart(s, k - 1);
      assert s[p..k] == s[p..k - 1] + [s[k - 1]];
      p
    else k
  }

  /** End of the maximal whitespace run that starts at index `e`. */
  function SpaceRunEnd(s: string, e: nat): (q: nat)
    requires e <= |s|
    ensures e <= q <= |s| && AllSpace(s[e..q])
    ensures q == |s| || !IsSpace(s[q])
    ensures forall q' :: e <= q' <= |s| && AllSpace(s[e..q']) ==> q' <= q
    decreases |s| - e
  {
    if e < |s| && IsSpace(s[e]) then
      var q := SpaceRunEnd(s, e + 1);
      assert s[e..q] == [s[e]] + s[e + 1..q];
      q
    else e
  }

  /** The pattern `^\s*json\s*$` (multi-line, case-insensitive) has a match whose word `json`
      sits at index `k`: whitespace back to a line start, and whitespace on to a line end. */
  predicate JsonLineAt(s: string, k: int) {
    && 0 <= k && k + 4 <= |s|
    && Lower(s[k..k + 4]) == "json"
    && (var p := SpaceRunStart(s, k); p == 0 || '\n' in s[p..k])
    && (var q := SpaceRunEnd(s, k + 4); q == |s| || '\n' in s[k + 4..q])
  }

  /** The regular expression's own reading: a line start `p`, whitespace, `json`, whitespace,
      and a line end `q` (the end of the text or a newline). */
  ghost predicate RegexJsonLine(s: string, k: int) {
    exists p, q :: MatchBounds(s, p, k, q)
  }

  /** One match of `^\s*json\s*$` from line start `p` to line end `q`, with `json` at `k`. */
  predicate MatchBounds(s: string, p: int, k: int, q: int) {
    0 <= p <= k && k + 4 <= q <= |s|
    && (p == 0 || s[p - 1] == '\n') && AllSpace(s[p..k])
    && Lower(s[k..k + 4]) == "json"
    && AllSpace(s[k + 4..q]) && (q == |s| || s[q] == '\n')
  }

  /** The scanning definition `JsonLineAt` agrees with the regular expression's. */
  lemma JsonLineAtIsRegex(s: string, k: int)
    ensures JsonLineAt(s, k) <==> RegexJsonLine(s, k)
  {
    if JsonLineAt(s, k) {
      var p := LineStartFrom(s, k);
      var q := LineEndFrom(s, k + 4);
      assert MatchBounds(s, p, k, q);
    }
    if RegexJsonLine(s, k) {
      var p, q :| MatchBounds(s, p, k, q);
      RunReachesLineStart(s, k, p);
      RunReachesLineEnd(s, k + 4, q);
    }
  }

  /** A newline inside the whitespace run before `k` gives a line start after it. */
  lemma LineStartFrom(s: string, k: int) returns (p: int)
    requires 0 <= k <= |s|
    requires SpaceRunStart(s, k) == 0 || '\n' in s[SpaceRunStart(s, k)..k]
    ensures 0 <= p <= k && (p == 0 || s[p - 1] == '\n') && AllSpace(s[p..k])
  {
    var P := SpaceRunStart(s, k);
    p := P;
    if P != 0 {
      var j :| P <= j < k && s[j] == '\n';
      p := j + 1;
      assert s[p..k] == s[P..k][j + 1 - P..];
    }
  }

  /** A newline inside the whitespace run after `e` gives a line end before it. */
  lemma LineEndFrom(s: string, e: int) returns (q: int)
    requires 0 <= e <= |s|
    requires SpaceRunEnd(s, e) == |s| || '\n' in s[e..SpaceRunEnd(s, e)]
    ensures e <= q <= |s| && (q == |s| || s[q] == '\n') && AllSpace(s[e..q])
  {
    var Q := SpaceRunEnd(s, e);
    q := Q;
    if Q != |s| {
      var j :| e <= j < Q && s[j] == '\n';
      q := j;
      assert s[e..q] == s[e..Q][..j - e];
    }
  }

  /** Whitespace from a line start to `k` makes the run before `k` reach a newline or the
      start of the text. */
  lemma RunReachesLineStart(s: string, k: int, p: int)
    requires 0 <= p <= k <= |s| && (p == 0 || s[p - 1] == '\n') && AllSpace(s[p..k])
    ensures SpaceRunStart(s, k) == 0 || '\n' in s[SpaceRunStart(s, k)..k]
  {
    var P := SpaceRunStart(s, k);
    if p != 0 {
      assert s[p - 1..k] == [s[p - 1]] + s[p..k];
      assert P <= p - 1;
      assert s[P..k][p - 1 - P] == '\n';
    }
  }

  /** Whitespace from `e` to a line end makes the run after `e` reach a newline or the end
      of the text. */
  lemma RunReachesLineEnd(s: string, e: int, q: int)
    requires 0 <= e <= q <= |s| && (q == |s| || s[q] == '\n') && AllSpace(s[e..q])
    ensures SpaceRunEnd(s, e) == |s| || '\n' in s[e..SpaceRunEnd(s, e)]
  {
    var Q := SpaceRunEnd(s, e);
    if q != |s| {
      assert s[e..q + 1] == s[e..q] + [s[q]];
      assert q + 1 <= Q;
      assert s[e..Q][q - e] == '\n';
    }
  }

  /** The last index at or before `k` where a `json` line's word sits, or -1. */
  function LastJsonLineUpTo(s: string, k: int): (r: int)
    ensures r == -1 || (0 <= r <= k && JsonLineAt(s, r))
    ensures forall j :: r < j <= k ==> !JsonLineAt(s, j)
    decreases k + 1
  {
    if k < 0 then -1 else if JsonLineAt(s, k) then k else LastJsonLineUpTo(s, k - 1)
  }

  /** The index of the last `json` line's word, or -1 when no line is just `json`. */
  function LastJsonLine(s: string): (r: int)
    ensures r == -1 <==> forall k :: !JsonLineAt(s, k)
    ensures r != -1 ==> JsonLineAt(s, r) && forall j :: r < j ==> !JsonLineAt(s, j)
  {
    LastJsonLineUpTo(s, |s|)
  }

  /** Where the answer turn starts: just after the last `json` line's word, else just
      after the last `assistant` in any case, else -1. */
  function AnswerStart(txt: string): (a: int)
    ensures a == -1 || 0 <= a <= |txt|
  {
    var k := LastJsonLine(txt);
    if k != -1 then k + 4
    else
      var i := LastIndexOf(Lower(txt), "assistant");
      if i != -1 then i + 9 else -1
  }

  /** `text_after_assistant`: the text after the last `json` line, else after the last
      `assistant` (any case), left-stripped; the whole text when neither marker occurs. */
  function TextAfterAssistant(txt: string): (r: string)
    ensures |r| <= |txt| && r == txt[|txt| - |r|..]
    ensures AnswerStart(txt) == -1 ==> r == txt
    ensures AnswerStart(txt) != -1 ==> |r| == 0 || !IsSpace(r[0])
  {
    var a := AnswerStart(txt);
    if a == -1 then txt
    else
      LStripOfSuffix(txt, a);
      LStrip(txt[a..])
  }

  /** `k` is where the last `json` line's word sits. */
  ghost predicate IsLastJsonLine(txt: string, k: int) {
    JsonLineAt(txt, k) && forall j :: k < j ==> !JsonLineAt(txt, j)
  }

  /** `i` is where the last `assistant`, in any case, starts. */
  ghost predicate IsLastAssistant(txt: string, i: int) {
    OccursAt(Lower(txt), "assistant", i) && forall j :: i < j ==> !OccursAt(Lower(txt), "assistant", j)
  }

  /** Anchoring on `json`: when some line is just `json`, the tail is what follows the
      last such line, left-stripped. */
  lemma TextAfterJsonLine(txt: string)
    requires exists k :: JsonLineAt(txt, k)
    ensures exists k :: IsLastJsonLine(txt, k) && TextAfterAssistant(txt) == LStrip(txt[k + 4..])
  {
    var k := LastJsonLine(txt);
    assert IsLastJsonLine(txt, k);
    assert AnswerStart(txt) == k + 4;
  }

  /** Anchoring on `assistant`: with no `json` line, the tail is what follows the last
      `assistant` in any case, left-stripped. */
  lemma TextAfterAssistantWord(txt: string)
    requires forall k :: !JsonLineAt(txt, k)
    requires Contains(Lower(txt), "assistant")
    ensures exists i :: IsLastAssistant(txt, i) && TextAfterAssistant(txt) == LStrip(txt[i + 9..])
  {
    var i := LastIndexOf(Lower(txt), "assistant");
    assert i != -1;
    assert IsLastAssistant(txt, i);
    assert LastJsonLine(txt) == -1;
    assert AnswerStart(txt) == i + 9;
  }

  /** With neither marker the text is returned whole. */
  lemma TextAfterNoMarker(txt: string)
    requires forall k :: !JsonLineAt(txt, k)
    requires !Contains(Lower(txt), "assistant")
    ensures TextAfterAssistant(txt) == txt
  {
    assert LastJsonLine(txt) == -1;
  }

  /** `extract_balanced_json`: scan with the string/escape flags and the depth counter, and
      return the first object that closes back to depth 0. It returns the first span the
      collecting scanner finds. */
  method ExtractBalancedJson(text: string) returns (r: Option<string>)
    ensures r == FirstSpanText(text)
    ensures r.Some? ==> |r.value| >= 2 && r.value[0] == '{' && r.value[|r.value| - 1] == '}'
    ensures r.None? <==> |Spans(text)| == 0
  {
    var start := -1;
    var depth := 0;
    var inStr := false;
    var esc := false;
    var i := 0;
    while i < |text|
      invariant 0 <= i <= |text|
      invariant 0 <= depth
      invariant depth > 0 ==> 0 <= start < i
      invariant ScanTo(text, i) == ScanState(inStr, esc, depth, start, [])
    {
      var ch := text[i];
      assert ScanTo(text, i + 1) == Step(ScanState(inStr, esc, depth, start, []), ch, i);
      if inStr {
        if esc {
          esc := false;
        } else if ch == '\\' {
          esc := true;
        } else if ch == '"' {
          inStr := false;
        }
      } else {
        if ch == '"' {
          inStr := true;
        } else if ch == '{' {
          if depth == 0 {
            start := i;
          }
          depth := depth + 1;
        } else if ch == '}' {
          if depth > 0 {
            depth := depth - 1;
            if depth == 0 && start != -1 {
              assert ScanTo(text, i + 1).spans == [Span(start, i + 1)];
              FirstCloseIsFirstSpan(text, i + 1, start);
              return Some(text[start..i + 1]);
            }
          }
        }
      }
      i := i + 1;
    }
    NoSpanClosed(text);
    return None;
  }

  /** A scan that closes nothing finds no object. */
  lemma NoSpanClosed(text: string)
    requires ScanTo(text, |text|).spans == []
    ensures |Spans(text)| == 0 && FirstSpanText(text).None?
  {
  }

  /** The first object to close is the first span. */
  lemma FirstCloseIsFirstSpan(text: string, n: nat, start: int)
    requires n <= |text| && ScanTo(text, n).spans == [Span(start, n)]
    ensures 0 <= start < n
    ensures FirstSpanText(text) == Some(text[start..n]) && |Spans(text)| > 0
    ensures n - start >= 2 && text[start] == '{' && text[n - 1] == '}'
  {
    ScanShape(text, n);
    var sp := ScanTo(text, n).spans;
    assert sp[0] == Span(start, n);
    assert 0 <= start < n && text[start] == '{' && text[n - 1] == '}';
    SpansGrow(text, n, |text|);
    assert Spans(text)[0] == Span(start, n);
  }

  /** `json_after_assistant`: parse the anchored tail whole; else parse its first balanced
      object; else parse the repaired object. `parse` is `json.loads` (`None` when it
      raises) and `repair` is `json_repair.repair_json` (`None` when it is missing or
      raises). */
  method JsonAfterAssistant(txt: string, parse: string -> Option<JsonValue>,
                            repair: string -> Option<string>)
    returns (r: Option<JsonValue>)
    ensures var tail := TextAfterAssistant(txt);
      && (parse(tail).Some? ==> r == parse(tail))
      && (parse(tail).None? && |Spans(tail)| == 0 ==> r.None?)
      && (parse(tail).None? && FirstSpanText(tail).Some? ==>
            var block := FirstSpanText(tail).value;
            if parse(block).Some? then r == parse(block)
            else r == (match repair(block) case Some(fixed) => parse(fixed) case None => None))
  {
    var tail := TextAfterAssistant(txt);
    var whole := parse(tail);
    if whole.Some? {
      return whole;
    }
    var block := ExtractBalancedJson(tail);
    if block.None? {
      return None;
    }
    var direct := parse(block.value);
    if direct.Some? {
      return direct;
    }
    match repair(block.value)
    case None =>
      return None;
    case Some(fixed) =>
      return parse(fixed);
  }
}

=== FILE: rounding.dfy ===
/** Python's `round` over exact reals: `round(x)` to the nearest int with ties to even, and
    `round(x, 2)` expressed in whole hundredths. */
module Rounding {

  /** `round(x)`: the nearest integer, halves going to the even neighbour. */
  function RoundHalfEven(x: real): (n: int)
    ensures n as real - 0.5 <= x <= n as real + 0.5
    ensures (x - n as real == 0.5 || n as real - x == 0.5) ==> n % 2 == 0
  {
    var f := x.Floor;
    var d := x - f as real;
    if d < 0.5 then f
    else if d > 0.5 then f + 1
    else if f % 2 == 0 then f
    else f + 1
  }

  /** The two properties in `RoundHalfEven`'s contract pin its result down: any integer
      meeting them is that result. */
  lemma RoundHalfEvenUnique(x: real, n: int)
    requires n as real - 0.5 <= x <= n as real + 0.5
    requires (x - n as real == 0.5 || n as real - x == 0.5) ==> n % 2 == 0
    ensures n == RoundHalfEven(x)
  {
  }

  /** Rounding is monotone. */
  lemma RoundHalfEvenMonotone(x: real, y: real)
    requires x <= y
    ensures RoundHalfEven(x) <= RoundHalfEven(y)
  {
  }

  /** `round(x, 2)` as a whole number of hundredths. */
  function Hundredths(x: real): (h: int)
    ensures h as real - 0.5 <= x * 100.0 <= h as real + 0.5
  {
    RoundHalfEven(x * 100.0)
  }

  /** A value that is already a whole number of hundredths rounds to itself. */
  lemma HundredthsOfExact(h: int)
    ensures Hundredths(h as real / 100.0) == h
  {
    assert (h as real / 100.0) * 100.0 == h as real;
    RoundHalfEvenUnique(h as real, h);
  }

  /** A fraction in [0, 1] rounds to between 0 and 100 hundredths. */
  lemma HundredthsInUnitRange(x: real)
    requires 0.0 <= x <= 1.0
    ensures 0 <= Hundredths(x) <= 100
  {
    RoundHalfEvenMonotone(0.0, x * 100.0);
    RoundHalfEvenMonotone(x * 100.0, 100.0);
    RoundHalfEvenUnique(0.0, 0);
    RoundHalfEvenUnique(100.0, 100);
  }
}

=== FILE: scanner.dfy ===
/** The quote- and escape-aware brace scanner of `try_parse_json`
    (scripts/generate_synthetic_plans.py), written as a fold of one step function over the
    text, and the properties of the spans it collects. The first-object scanner of
    `extract_balanced_json` (deploy/utils.py) is modelled in module `Recovery` and proved to
    return the first of these spans. */
module Scanner {
  import opened Wrappers

  /** One complete top-level object: `s[start..end]`, `end` exclusive. */
  datatype Span = Span(start: int, end: int)

  /** The loop state of the scanner: `in_str`, `esc`, `depth`, `start` (-1 when no object
      is open) and the spans collected so far. */
  datatype ScanState = ScanState(inStr: bool, esc: bool, depth: nat, start: int, spans: seq<Span>)

  const Init := ScanState(false, false, 0, -1, [])

  /** One iteration of the scanning loop on character `c` at index `i`. Spans are only ever
      appended; one closes exactly on a `}` outside a string that brings the depth from one
      to zero, and it runs from the open object's start through `i`. Inside a string the
      depth and the open object do not change, and a string opens or closes only on an
      unescaped quote. */
  function Step(st: ScanState, c: char, i: nat): (r: ScanState)
    ensures st.spans <= r.spans && |r.spans| <= |st.spans| + 1
    ensures |r.spans| > |st.spans| <==> !st.inStr && c == '}' && st.depth == 1 && st.start != -1
    ensures |r.spans| > |st.spans| ==> r.spans[|st.spans|] == Span(st.start, i + 1) && r.depth == 0
    ensures st.inStr ==> r.depth == st.depth && r.start == st.start && r.spans == st.spans
    ensures r.inStr != st.inStr ==> c == '"' && !(st.inStr && st.esc)
  {
    if st.inStr then
      if st.esc then st.(esc := false)
      else if c == '\\' then st.(esc := true)
      else if c == '"' then st.(inStr := false)
      else st
    else if c == '"' then st.(inStr := true)
    else if c == '{' then
      st.(start := if st.depth == 0 then i else st.start, depth := st.depth + 1)
    else if c == '}' then
      if st.depth > 0 then
        if st.depth - 1 == 0 && st.start != -1 then
          st.(depth := 0, spans := st.spans + [Span(st.start, i + 1)], start := -1)
        else st.(depth := st.depth - 1)
      else st
    else st
  }

  /** The state after scanning `s[..n]`. */
  function ScanTo(s: string, n: nat): ScanState
    requires n <= |s|
    decreases n
  {
    if n == 0 then Init else Step(ScanTo(s, n - 1), s[n - 1], n - 1)
  }

  /** Every complete top-level object of `s`, left to right: each lies inside `s`, opens on
      a `{` and closes on a `}`, and no two overlap. */
  function Spans(s: string): (r: seq<Span>)
    ensures SpansOrdered(s, r, |s|)
  {
    ScanShape(s, |s|);
    ScanTo(s, |s|).spans
  }

  /** The text of the first complete top-level object, if there is one. */
  function FirstSpanText(s: string): Option<string> {
    var sp := Spans(s);
    if |sp| == 0 then None
    else if 0 <= sp[0].start <= sp[0].end <= |s| then Some(s[sp[0].start..sp[0].end])
    else None
  }

  /** Spans lie inside `s[..n]`, open on `{`, close on `}`, and do not overlap. */
  ghost predicate SpansOrdered(s: string, spans: seq<Span>, n: nat) {
    && n <= |s|
    && (forall k :: 0 <= k < |spans| ==>
          0 <= spans[k].start < spans[k].end <= n
          && s[spans[k].start] == '{' && s[spans[k].end - 1] == '}')
    && (forall k, l :: 0 <= k < l < |spans| ==> spans[k].end <= spans[l].start)
  }

  /** The open object, if any, started at `st.start` on a `{`, after every closed span, and
      re-scanning it alone reaches the same string/escape/depth state with nothing closed. */
  ghost predicate OpenOk(s: string, n: nat, st: ScanState)
    requires n <= |s|
  {
    st.depth > 0 ==>
      && 0 <= st.start < n
      && s[st.start] == '{'
      && (forall k :: 0 <= k < |st.spans| ==> st.spans[k].end <= st.start)
      && var sub := ScanTo(s[st.start..n], n - st.start);
         sub.inStr == st.inStr && sub.esc == st.esc && sub.depth == st.depth
         && sub.start == 0 && sub.spans == []
  }

  /** `t`, scanned on its own, is exactly one complete object. */
  ghost predicate OneObject(t: string) {
    Spans(t) == [Span(0, |t|)]
  }

  /** Each closed span, scanned on its own, is exactly one complete object. */
  ghost predicate ClosedOk(s: string, spans: seq<Span>) {
    forall k :: 0 <= k < |spans| ==>
      0 <= spans[k].start <= spans[k].end <= |s|
      && OneObject(s[spans[k].start..spans[k].end])
  }

  /** The scanner state is consistent with the text scanned so far. */
  ghost predicate ShapeInv(s: string, n: nat, st: ScanState)
    requires n <= |s|
  {
    && (!st.inStr ==> !st.esc)
    && (st.depth == 0 <==> st.start == -1)
    && SpansOrdered(s, st.spans, n)
    && OpenOk(s, n, st)
  }

  ghost predicate Inv(s: string, n: nat, st: ScanState)
    requires n <= |s|
  {
    ShapeInv(s, n, st) && ClosedOk(s, st.spans)
  }

  /** The scan of `s[..n]` looks at nothing beyond index `n`. */
  lemma {:induction false} ScanPrefix(s: string, t: string, n: nat)
    requires n <= |s| && n <= |t|
    requires s[..n] == t[..n]
    ensures ScanTo(s, n) == ScanTo(t, n)
    decreases n
  {
    if n > 0 {
      assert s[..n - 1] == t[..n - 1] by {
        assert s[..n - 1] == s[..n][..n - 1];
        assert t[..n - 1] == t[..n][..n - 1];
      }
      ScanPrefix(s, t, n - 1);
      assert s[n - 1] == s[..n][n - 1] == t[..n][n - 1] == t[n - 1];
    }
  }

  /** Scanning a slice one character further is one more step. */
  lemma SubScanStep(s: string, a: nat, n: nat)
    requires a <= n < |s|
    ensures ScanTo(s[a..n + 1], n + 1 - a) == Step(ScanTo(s[a..n], n - a), s[n], n - a)
  {
    var sub := s[a..n + 1];
    assert sub[..n - a] == s[a..n];
    ScanPrefix(sub, s[a..n], n - a);
    assert sub[n - a] == s[n];
  }

  lemma StepKeepsOrder(s: string, n: nat)
    requires n < |s|
    requires ShapeInv(s, n, ScanTo(s, n))
    ensures SpansOrdered(s, ScanTo(s, n + 1).spans, n + 1)
  {
    var st := ScanTo(s, n);
    var sp := ScanTo(s, n + 1).spans;
    assert ScanTo(s, n + 1) == Step(st, s[n], n);
    if |sp| == |st.spans| {
      assert sp == st.spans;
    } else {
      assert sp == st.spans + [Span(st.start, n + 1)];
      assert s[n] == '}';
      forall k | 0 <= k < |sp|
        ensures 0 <= sp[k].start < sp[k].end <= n + 1
        ensures s[sp[k].start] == '{' && s[sp[k].end - 1] == '}'
      {
        if k < |st.spans| {
          assert sp[k] == st.spans[k];
        }
      }
      forall k, l | 0 <= k < l < |sp|
        ensures sp[k].end <= sp[l].start
      {
        assert sp[k] == st.spans[k];
        if l < |st.spans| {
          assert sp[l] == st.spans[l];
        }
      }
    }
  }

  lemma StepKeepsOpen(s: string, n: nat)
    requires n < |s|
    requires ShapeInv(s, n, ScanTo(s, n))
    ensures OpenOk(s, n + 1, ScanTo(s, n + 1))
  {
    var st := ScanTo(s, n);
    var st' := ScanTo(s, n + 1);
    assert st' == Step(st, s[n], n);
    if st'.depth > 0 {
      if st.depth > 0 {
        SubScanStep(s, st.start, n);
      } else {
        assert ScanTo(s[n..n + 1], 1) == Step(Init, s[n], 0);
      }
    }
  }

  lemma StepKeepsClosed(s: string, n: nat)
    requires n < |s|
    requires Inv(s, n, ScanTo(s, n))
    ensures ClosedOk(s, ScanTo(s, n + 1).spans)
  {
    var st := ScanTo(s, n);
    var sp := ScanTo(s, n + 1).spans;
    assert ScanTo(s, n + 1) == Step(st, s[n], n);
    if |sp| > |st.spans| {
      var a := st.start;
      assert sp == st.spans + [Span(a, n + 1)];
      assert s[n] == '}' && st.depth == 1 && !st.inStr;
      ClosingSpanAlone(s, a, n);
      ClosedSnoc(s, st.spans, Span(a, n + 1));
    } else {
      assert sp == st.spans;
    }
  }

  lemma ClosedSnoc(s: string, spans: seq<Span>, sp: Span)
    requires ClosedOk(s, spans)
    requires 0 <= sp.start <= sp.end <= |s|
    requires OneObject(s[sp.start..sp.end])
    ensures ClosedOk(s, spans + [sp])
  {
    var all := spans + [sp];
    forall k | 0 <= k < |all|
      ensures 0 <= all[k].start <= all[k].end <= |s|
      ensures OneObject(s[all[k].start..all[k].end])
    {
      if k < |spans| {
        assert all[k] == spans[k];
      }
    }
  }

  /** The `}` that brings an object opened at `a` back to depth zero ends a slice that,
      scanned alone, is exactly one object. */
  lemma ClosingSpanAlone(s: string, a: nat, n: nat)
    requires a <= n < |s| && s[n] == '}'
    requires var sub := ScanTo(s[a..n], n - a);
      sub.depth == 1 && sub.start == 0 && sub.spans == [] && !sub.inStr
    ensures OneObject(s[a..n + 1])
  {
    SubScanStep(s, a, n);
    assert |s[a..n + 1]| == n + 1 - a;
  }

  lemma StepPreservesShape(s: string, n: nat)
    requires n < |s|
    requires ShapeInv(s, n, ScanTo(s, n))
    ensures ShapeInv(s, n + 1, ScanTo(s, n + 1))
  {
    assert ScanTo(s, n + 1) == Step(ScanTo(s, n), s[n], n);
    StepKeepsOrder(s, n);
    StepKeepsOpen(s, n);
  }

  lemma StepPreservesInv(s: string, n: nat)
    requires n < |s|
    requires Inv(s, n, ScanTo(s, n))
    ensures Inv(s, n + 1, ScanTo(s, n + 1))
  {
    StepPreservesShape(s, n);
    StepKeepsClosed(s, n);
  }

  lemma {:induction false} ScanShape(s: string, n: nat)
    requires n <= |s|
    ensures ShapeInv(s, n, ScanTo(s, n))
    decreases n
  {
    if n > 0 {
      ScanShape(s, n - 1);
      StepPreservesShape(s, n - 1);
    }
  }

  lemma {:induction false} ScanInv(s: string, n: nat)
    requires n <= |s|
    ensures Inv(s, n, ScanTo(s, n))
    decreases n
  {
    if n > 0 {
      ScanInv(s, n - 1);
      StepPreservesInv(s, n - 1);
    }
  }

  /** Balance: every span, scanned on its own, is one complete object and nothing else, so
      its braces outside strings match up and close only at its last character. */
  lemma SpansAreBalanced(s: string)
    ensures forall k :: 0 <= k < |Spans(s)| ==>
      0 <= Spans(s)[k].start <= Spans(s)[k].end <= |s|
      && Spans(s[Spans(s)[k].start..Spans(s)[k].end])
         == [Span(0, Spans(s)[k].end - Spans(s)[k].start)]
  {
    ScanInv(s, |s|);
  }

  /** Spans are only ever appended: the spans of a shorter prefix begin the spans of a
      longer one. */
  lemma {:induction false} SpansGrow(s: string, n: nat, m: nat)
    requires n <= m <= |s|
    ensures |ScanTo(s, n).spans| <= |ScanTo(s, m).spans|
    ensures ScanTo(s, m).spans[..|ScanTo(s, n).spans|] == ScanTo(s, n).spans
    decreases m - n
  {
    if n < m {
      SpansGrow(s, n, m - 1);
      var p := ScanTo(s, m - 1).spans;
      assert ScanTo(s, m).spans == p || ScanTo(s, m).spans == p + [Span(ScanTo(s, m - 1).start, m)];
    }
  }

  /** Truncation-safety: extending the text never loses or changes an object already
      found; an object cut off by the end of the text is simply not reported. */
  lemma SpansOfExtension(s: string, t: string)
    ensures |Spans(s)| <= |Spans(s + t)|
    ensures Spans(s + t)[..|Spans(s)|] == Spans(s)
  {
    assert (s + t)[..|s|] == s[..|s|];
    ScanPrefix(s + t, s, |s|);
    SpansGrow(s + t, |s|, |s + t|);
  }

  /** Once the states agree after index `i`, and the texts agree from there on, the scans
      agree. */
  lemma {:induction false} ScanAgreesAfter(s: string, t: string, i: nat, n: nat)
    requires |s| == |t| && i < n <= |s|
    requires ScanTo(s, i + 1) == ScanTo(t, i + 1)
    requires forall j :: i < j < |s| ==> s[j] == t[j]
    ensures ScanTo(s, n) == ScanTo(t, n)
    decreases n
  {
    if n > i + 1 {
      ScanAgreesAfter(s, t, i, n - 1);
    }
  }

  /** Characters inside a string literal do not count: inside a string, any character other
      than a quote or a backslash (a `{` or `}` in particular) may be replaced by any other
      such character, and an escaped character by anything, without changing the spans. */
  lemma InStringCharIrrelevant(s: string, i: nat, c: char)
    requires i < |s|
    requires ScanTo(s, i).inStr
    requires ScanTo(s, i).esc || (s[i] != '\\' && s[i] != '"' && c != '\\' && c != '"')
    ensures Spans(s[i := c]) == Spans(s)
  {
    var t := s[i := c];
    assert s[..i] == t[..i];
    ScanPrefix(s, t, i);
    assert ScanTo(s, i + 1) == ScanTo(t, i + 1);
    ScanAgreesAfter(s, t, i, |s|);
  }
}

=== FILE: seqs.dfy ===
/** Order-preserving subsequences and sums over sequences. */
module Seqs {
  import opened Wrappers

  /** `a` is `b` with some elements left out, the rest kept in order. Read from the back, as
      the source's loops build their outputs by appending. */
  predicate IsSubseq<T(==)>(a: seq<T>, b: seq<T>)
    decreases |b|
  {
    |a| == 0
    || (|b| > 0
        && ((a[|a| - 1] == b[|b| - 1] && IsSubseq(a[..|a| - 1], b[..|b| - 1]))
            || IsSubseq(a, b[..|b| - 1])))
  }

  lemma SubseqSkip<T>(a: seq<T>, b: seq<T>, x: T)
    requires IsSubseq(a, b)
    ensures IsSubseq(a, b + [x])
  {
    assert (b + [x])[..|b|] == b;
  }

  lemma SubseqKeep<T>(a: seq<T>, b: seq<T>, x: T)
    requires IsSubseq(a, b)
    ensures IsSubseq(a + [x], b + [x])
  {
    assert (b + [x])[..|b|] == b;
    assert (a + [x])[..|a|] == a;
  }

  /** A subsequence takes no element more often than the original holds it. */
  lemma {:induction false} SubseqMultiset<T>(a: seq<T>, b: seq<T>)
    requires IsSubseq(a, b)
    ensures multiset(a) <= multiset(b)
    decreases |b|
  {
    if |a| == 0 {
    } else {
      var bl := b[..|b| - 1];
      assert b == bl + [b[|b| - 1]];
      if a[|a| - 1] == b[|b| - 1] && IsSubseq(a[..|a| - 1], bl) {
        SubseqMultiset(a[..|a| - 1], bl);
        assert a == a[..|a| - 1] + [a[|a| - 1]];
      } else {
        SubseqMultiset(a, bl);
      }
    }
  }

  /** Every element of a subsequence occurs in the original. */
  lemma SubseqMembers<T>(a: seq<T>, b: seq<T>)
    requires IsSubseq(a, b)
    ensures forall x :: x in a ==> x in b
  {
    SubseqMultiset(a, b);
    forall x | x in a
      ensures x in b
    {
      assert x in multiset(a);
    }
  }

  function SumInts(xs: seq<int>): int {
    if |xs| == 0 then 0 else SumInts(xs[..|xs| - 1]) + xs[|xs| - 1]
  }

  function SumReals(xs: seq<real>): real {
    if |xs| == 0 then 0.0 else SumReals(xs[..|xs| - 1]) + xs[|xs| - 1]
  }

  lemma SumIntsAppend(xs: seq<int>, x: int)
    ensures SumInts(xs + [x]) == SumInts(xs) + x
  {
    assert (xs + [x])[..|xs|] == xs;
  }

  lemma SumRealsAppend(xs: seq<real>, x: real)
    ensures SumReals(xs + [x]) == SumReals(xs) + x
  {
    assert (xs + [x])[..|xs|] == xs;
  }

  /** Replacing one element changes the sum by the difference. */
  lemma {:induction false} SumIntsUpdate(h: seq<int>, i: int, x: int)
    requires 0 <= i < |h|
    ensures SumInts(h[i := x]) == SumInts(h) - h[i] + x
    decreases |h|
  {
    var init := h[..|h| - 1];
    if i == |h| - 1 {
      assert h[i := x] == init + [x];
      assert h == init + [h[i]];
      SumIntsAppend(init, x);
      SumIntsAppend(init, h[i]);
    } else {
      SumIntsUpdate(init, i, x);
      assert h[i := x] == init[i := x] + [h[|h| - 1]];
      assert h == init + [h[|h| - 1]];
      SumIntsAppend(init[i := x], h[|h| - 1]);
      SumIntsAppend(init, h[|h| - 1]);
    }
  }

  /** Being a subsequence is transitive. */
  lemma {:induction false} SubseqTrans<T>(a: seq<T>, b: seq<T>, c: seq<T>)
    requires IsSubseq(a, b) && IsSubseq(b, c)
    ensures IsSubseq(a, c)
    decreases |c|
  {
    if |a| == 0 {
    } else {
      var cl := c[..|c| - 1];
      assert c == cl + [c[|c| - 1]];
      if b[|b| - 1] == c[|c| - 1] && IsSubseq(b[..|b| - 1], cl) {
        if a[|a| - 1] == b[|b| - 1] && IsSubseq(a[..|a| - 1], b[..|b| - 1]) {
          SubseqTrans(a[..|a| - 1], b[..|b| - 1], cl);
          SubseqKeep(a[..|a| - 1], cl, c[|c| - 1]);
          assert a == a[..|a| - 1] + [a[|a| - 1]];
        } else {
          SubseqTrans(a, b[..|b| - 1], cl);
          SubseqSkip(a, cl, c[|c| - 1]);
        }
      } else {
        SubseqTrans(a, b, cl);
        SubseqSkip(a, cl, c[|c| - 1]);
      }
    }
  }

  lemma {:induction false} SumIntsConcat(xs: seq<int>, ys: seq<int>)
    ensures SumInts(xs + ys) == SumInts(xs) + SumInts(ys)
    decreases |ys|
  {
    if |ys| > 0 {
      var yl := ys[..|ys| - 1];
      SumIntsConcat(xs, yl);
      assert xs + ys == (xs + yl) + [ys[|ys| - 1]];
      assert ys == yl + [ys[|ys| - 1]];
    } else {
      assert xs + ys == xs;
    }
  }

  /** The elements of `xs` satisfying `p`, in order. */
  function Filter<T(==)>(xs: seq<T>, p: T -> bool): (r: seq<T>)
    ensures IsSubseq(r, xs)
    ensures forall k :: 0 <= k < |r| ==> p(r[k])
  {
    if |xs| == 0 then []
    else
      var init := Filter(xs[..|xs| - 1], p);
      var x := xs[|xs| - 1];
      assert xs == xs[..|xs| - 1] + [x];
      if p(x) then
        SubseqKeep(init, xs[..|xs| - 1], x);
        init + [x]
      else
        SubseqSkip(init, xs[..|xs| - 1], x);
        init
  }

  /** Every element satisfying `p` is kept. */
  lemma {:induction false} FilterKeeps<T>(xs: seq<T>, p: T -> bool)
    ensures forall i :: 0 <= i < |xs| && p(xs[i]) ==> xs[i] in Filter(xs, p)
    decreases |xs|
  {
    if |xs| > 0 {
      var n := |xs| - 1;
      var init := xs[..n];
      FilterKeeps(init, p);
      FilterSnoc(init, xs[n], p);
      assert xs == init + [xs[n]];
      forall i | 0 <= i < |xs| && p(xs[i])
        ensures xs[i] in Filter(xs, p)
      {
        if i < n {
          assert xs[i] == init[i];
          assert xs[i] in Filter(init, p);
        }
      }
    }
  }

  /** Every kept element comes from the input. */
  lemma FilterFrom<T>(xs: seq<T>, p: T -> bool)
    ensures forall k :: 0 <= k < |Filter(xs, p)| ==> Filter(xs, p)[k] in xs
  {
    SubseqMembers(Filter(xs, p), xs);
  }

  /** `for x in xs: if (y := f(x)) is not None: out.append(y)`: the defined results of `f`,
      in input order. */
  function Collect<T, U>(xs: seq<T>, f: T --> Option<U>): (r: seq<U>)
    requires forall i :: 0 <= i < |xs| ==> f.requires(xs[i])
    ensures |r| <= |xs|
  {
    if |xs| == 0 then []
    else
      var init := Collect(xs[..|xs| - 1], f);
      match f(xs[|xs| - 1])
      case Some(y) => init + [y]
      case None => init
  }

  /** When `keep` says which elements `f` is defined on, `Collect` is `f` applied to the
      kept elements, one result per kept element, in order. */
  lemma {:induction false} CollectImage<T, U>(xs: seq<T>, f: T --> Option<U>, keep: T -> bool)
    requires forall i :: 0 <= i < |xs| ==> f.requires(xs[i]) && (f(xs[i]).Some? <==> keep(xs[i]))
    ensures var kept := Filter(xs, keep);
      && |Collect(xs, f)| == |kept|
      && forall k :: 0 <= k < |kept| ==> f.requires(kept[k]) && Some(Collect(xs, f)[k]) == f(kept[k])
    decreases |xs|
  {
    if |xs| > 0 {
      var n := |xs| - 1;
      var init := xs[..n];
      CollectImage(init, f, keep);
      assert xs == init + [xs[n]];
      FilterSnoc(init, xs[n], keep);
      var kept := Filter(xs, keep);
      var r := Collect(xs, f);
      forall k | 0 <= k < |kept|
        ensures f.requires(kept[k]) && Some(r[k]) == f(kept[k])
      {
        if k < |Filter(init, keep)| {
          assert kept[k] == Filter(init, keep)[k];
          assert r[k] == Collect(init, f)[k];
        }
      }
    }
  }

  /** The key of every element, in order. */
  function KeysOf<T, K>(xs: seq<T>, kf: T -> K): (ks: seq<K>)
    ensures |ks| == |xs|
    ensures forall i :: 0 <= i < |xs| ==> ks[i] == kf(xs[i])
  {
    seq(|xs|, i requires 0 <= i < |xs| => kf(xs[i]))
  }

  /** Position `i` holds the first element of `xs` with its key. */
  predicate FirstOfKey<T, K(==)>(xs: seq<T>, kf: T -> K, i: int) {
    0 <= i < |xs| && forall j :: 0 <= j < i ==> kf(xs[j]) != kf(xs[i])
  }

  /** The dedupe the source writes as a loop over a `seen` set: keep an element when no
      element kept before it has its key. */
  function FirstPerKey<T(==), K(==)>(xs: seq<T>, kf: T -> K): (r: seq<T>)
    ensures IsSubseq(r, xs)
    ensures forall i, j :: 0 <= i < j < |r| ==> kf(r[i]) != kf(r[j])
  {
    if |xs| == 0 then []
    else
      var init := FirstPerKey(xs[..|xs| - 1], kf);
      var x := xs[|xs| - 1];
      assert xs == xs[..|xs| - 1] + [x];
      if kf(x) in KeysOf(init, kf) then
        SubseqSkip(init, xs[..|xs| - 1], x);
        init
      else
        SubseqKeep(init, xs[..|xs| - 1], x);
        init + [x]
  }

  /** Every key of the input is the key of some element kept. */
  lemma {:induction false} FirstPerKeyCovers<T, K>(xs: seq<T>, kf: T -> K)
    ensures forall i :: 0 <= i < |xs| ==> kf(xs[i]) in KeysOf(FirstPerKey(xs, kf), kf)
    decreases |xs|
  {
    if |xs| > 0 {
      var xl := xs[..|xs| - 1];
      var x := xs[|xs| - 1];
      var init := FirstPerKey(xl, kf);
      assert xs == xl + [x];
      FirstPerKeyCovers(xl, kf);
      FirstPerKeySnoc(xl, x, kf);
      if kf(x) !in KeysOf(init, kf) {
        assert KeysOf(init + [x], kf) == KeysOf(init, kf) + [kf(x)];
      }
      forall i | 0 <= i < |xs|
        ensures kf(xs[i]) in KeysOf(FirstPerKey(xs, kf), kf)
      {
        if i < |xl| {
          assert xs[i] == xl[i];
        }
      }
    }
  }

  /** The first element of each key survives the dedupe. */
  lemma {:induction false} FirstPerKeyKeepsFirsts<T, K>(xs: seq<T>, kf: T -> K)
    ensures forall i :: FirstOfKey(xs, kf, i) ==> xs[i] in FirstPerKey(xs, kf)
    decreases |xs|
  {
    if |xs| > 0 {
      var xl := xs[..|xs| - 1];
      var init := FirstPerKey(xl, kf);
      FirstPerKeyKeepsFirsts(xl, kf);
      SubseqMembers(init, xl);
      forall i | FirstOfKey(xs, kf, i)
        ensures xs[i] in FirstPerKey(xs, kf)
      {
        if i < |xl| {
          assert FirstOfKey(xl, kf, i);
        } else {
          forall k | 0 <= k < |init|
            ensures KeysOf(init, kf)[k] != kf(xs[i])
          {
            assert init[k] in xl;
            var j :| 0 <= j < |xl| && xl[j] == init[k];
            assert kf(xs[j]) != kf(xs[i]);
          }
        }
      }
    }
  }

  /** Nothing but the first element of a key survives the dedupe. */
  lemma {:induction false} FirstPerKeyOnlyFirsts<T, K>(xs: seq<T>, kf: T -> K)
    ensures forall x :: x in FirstPerKey(xs, kf) ==>
      exists i :: FirstOfKey(xs, kf, i) && xs[i] == x
    decreases |xs|
  {
    if |xs| > 0 {
      var xl := xs[..|xs| - 1];
      var init := FirstPerKey(xl, kf);
      var x := xs[|xs| - 1];
      FirstPerKeyOnlyFirsts(xl, kf);
      FirstPerKeyCovers(xl, kf);
      forall y | y in FirstPerKey(xs, kf)
        ensures exists i :: FirstOfKey(xs, kf, i) && xs[i] == y
      {
        if y in init {
          var i :| FirstOfKey(xl, kf, i) && xl[i] == y;
          FirstOfKeyExtends(xs, kf, i);
        } else {
          assert y == x;
          forall j | 0 <= j < |xl|
            ensures kf(xs[j]) != kf(x)
          {
            assert kf(xl[j]) in KeysOf(init, kf);
          }
          assert FirstOfKey(xs, kf, |xl|);
        }
      }
    }
  }

  /** The first element of its key in a prefix is the first in the whole sequence. */
  lemma FirstOfKeyExtends<T, K>(xs: seq<T>, kf: T -> K, i: int)
    requires |xs| > 0 && FirstOfKey(xs[..|xs| - 1], kf, i)
    ensures FirstOfKey(xs, kf, i) && xs[i] == xs[..|xs| - 1][i]
  {
    var xl := xs[..|xs| - 1];
    forall j | 0 <= j < i
      ensures kf(xs[j]) != kf(xs[i])
    {
      assert xs[j] == xl[j] && xs[i] == xl[i];
    }
  }

  /** Leaving elements out keeps keys distinct. */
  lemma {:induction false} SubseqDistinctKeys<T, K>(a: seq<T>, b: seq<T>, kf: T -> K)
    requires IsSubseq(a, b)
    requires forall i, j :: 0 <= i < j < |b| ==> kf(b[i]) != kf(b[j])
    ensures forall i, j :: 0 <= i < j < |a| ==> kf(a[i]) != kf(a[j])
    decreases |b|
  {
    if |a| > 0 {
      var bl := b[..|b| - 1];
      if a[|a| - 1] == b[|b| - 1] && IsSubseq(a[..|a| - 1], bl) {
        SubseqDistinctKeys(a[..|a| - 1], bl, kf);
        SubseqMembers(a[..|a| - 1], bl);
        forall i, j | 0 <= i < j < |a|
          ensures kf(a[i]) != kf(a[j])
        {
          if j == |a| - 1 {
            assert a[i] == a[..|a| - 1][i];
            assert a[i] in a[..|a| - 1];
            assert a[i] in bl;
            var k :| 0 <= k < |bl| && bl[k] == a[i];
            assert kf(b[k]) != kf(b[|b| - 1]);
          } else {
            assert a[i] == a[..|a| - 1][i] && a[j] == a[..|a| - 1][j];
          }
        }
      } else {
        SubseqDistinctKeys(a, bl, kf);
      }
    }
  }

  /** One more element: `Filter` takes it exactly when it satisfies `p`. */
  lemma FilterSnoc<T>(xs: seq<T>, x: T, p: T -> bool)
    ensures Filter(xs + [x], p) == if p(x) then Filter(xs, p) + [x] else Filter(xs, p)
  {
    assert (xs + [x])[..|xs|] == xs;
  }

  /** A filter every element passes keeps the whole sequence. */
  /** Filtering distributes over concatenation. */
  lemma {:induction false} FilterConcat<T>(a: seq<T>, b: seq<T>, p: T -> bool)
    ensures Filter(a + b, p) == Filter(a, p) + Filter(b, p)
    decreases |b|
  {
    if |b| > 0 {
      var n := |b| - 1;
      var x := b[n];
      FilterConcat(a, b[..n], p);
      SplitLast(b);
      assert a + b == (a + b[..n]) + [x];
      FilterSnoc(a + b[..n], x, p);
      FilterSnoc(b[..n], x, p);
    } else {
      assert a + b == a;
    }
  }

  /** Filtering around an inserted element. */
  lemma FilterAround<T>(s: seq<T>, i: int, x: T, p: T -> bool)
    requires 0 <= i <= |s|
    ensures Filter(s[..i] + [x] + s[i..], p) ==
      Filter(s[..i], p) + (if p(x) then [x] else []) + Filter(s[i..], p)
    ensures Filter(s, p) == Filter(s[..i], p) + Filter(s[i..], p)
  {
    assert s == s[..i] + s[i..];
    FilterConcat(s[..i] + [x], s[i..], p);
    FilterConcat(s[..i], [x], p);
    FilterConcat(s[..i], s[i..], p);
    FilterSnoc([], x, p);
    assert [] + [x] == [x];
  }

  /** Inserting `x` at `i` filters like appending it, when nothing after `i` that passes
      would have to come after `x`. */
  lemma FilterInsert<T>(s: seq<T>, i: int, x: T, p: T -> bool)
    requires 0 <= i <= |s|
    requires p(x) ==> Filter(s[i..], p) == []
    ensures Filter(s[..i] + [x] + s[i..], p) == Filter(s + [x], p)
  {
    FilterAround(s, i, x, p);
    FilterSnoc(s, x, p);
  }

  /** Sequences that filter alike still do after appending the same element. */
  lemma FilterSnocAlike<T>(a: seq<T>, b: seq<T>, x: T, p: T -> bool)
    requires Filter(a, p) == Filter(b, p)
    ensures Filter(a + [x], p) == Filter(b + [x], p)
  {
    FilterSnoc(a, x, p);
    FilterSnoc(b, x, p);
  }

  /** No element passes: nothing is kept. */
  lemma FilterNone<T>(xs: seq<T>, p: T -> bool)
    requires forall i :: 0 <= i < |xs| ==> !p(xs[i])
    ensures Filter(xs, p) == []
  {
    FilterFrom(xs, p);
  }

  lemma {:induction false} FilterAll<T>(xs: seq<T>, p: T -> bool)
    requires forall i :: 0 <= i < |xs| ==> p(xs[i])
    ensures Filter(xs, p) == xs
  {
    if |xs| > 0 {
      var n := |xs| - 1;
      FilterAll(xs[..n], p);
      assert xs == xs[..n] + [xs[n]];
    }
  }

  /** When every element passes, the filter keeps the whole sequence. */
  lemma FilterAllWhen<T>(xs: seq<T>, p: T -> bool)
    ensures (forall i :: 0 <= i < |xs| ==> p(xs[i])) ==> Filter(xs, p) == xs
  {
    if forall i :: 0 <= i < |xs| ==> p(xs[i]) {
      FilterAll(xs, p);
    }
  }

  /** One more element: the dedupe keeps it exactly when its key is new. */
  lemma FirstPerKeySnoc<T, K>(xs: seq<T>, x: T, kf: T -> K)
    ensures FirstPerKey(xs + [x], kf) ==
      if kf(x) in KeysOf(FirstPerKey(xs, kf), kf) then FirstPerKey(xs, kf)
      else FirstPerKey(xs, kf) + [x]
  {
    assert (xs + [x])[..|xs|] == xs;
  }

  /** A loop that skips elements failing `p` and elements whose key was seen: it is
      `Filter` followed by `FirstPerKey`. */
  lemma FilterPrefixStep<T>(xs: seq<T>, i: int, p: T -> bool)
    requires 0 <= i < |xs|
    ensures Filter(xs[..i + 1], p) ==
      if p(xs[i]) then Filter(xs[..i], p) + [xs[i]] else Filter(xs[..i], p)
  {
    assert xs[..i + 1] == xs[..i] + [xs[i]];
    FilterSnoc(xs[..i], xs[i], p);
  }

  /** One step of the dedupe loop, with `seen` holding the keys kept so far and `key` the
      key of the next element. */
  lemma FirstPerKeyStep<T, K>(xs: seq<T>, x: T, key: K, kf: T -> K, kept: seq<T>, seen: set<K>)
    requires key == kf(x)
    requires kept == FirstPerKey(xs, kf)
    requires forall k :: k in seen <==> k in KeysOf(kept, kf)
    ensures key in seen ==> FirstPerKey(xs + [x], kf) == kept
    ensures key !in seen ==>
      && FirstPerKey(xs + [x], kf) == kept + [x]
      && (forall k :: k in seen + {key} <==> k in KeysOf(kept + [x], kf))
  {
    assert key in seen <==> key in KeysOf(kept, kf);
    assert KeysOf(kept + [x], kf) == KeysOf(kept, kf) + [key];
    FirstPerKeySnoc(xs, x, kf);
  }

  /** One step of the dedupe loop over a prefix of `xs`. */
  lemma FirstPerKeyPrefixStep<T, K>(xs: seq<T>, i: int, key: K, kf: T -> K, kept: seq<T>,
                                    seen: set<K>)
    requires 0 <= i < |xs| && key == kf(xs[i])
    requires kept == FirstPerKey(xs[..i], kf)
    requires forall k :: k in seen <==> k in KeysOf(kept, kf)
    ensures key in seen ==> FirstPerKey(xs[..i + 1], kf) == kept
    ensures key !in seen ==>
      && FirstPerKey(xs[..i + 1], kf) == kept + [xs[i]]
      && (forall k :: k in seen + {key} <==> k in KeysOf(kept + [xs[i]], kf))
  {
    assert xs[..i + 1] == xs[..i] + [xs[i]];
    FirstPerKeyStep(xs[..i], xs[i], key, kf, kept, seen);
  }

  /** One step of the filter-then-dedupe loop over a prefix of `xs`. */
  lemma FilterThenDedupeStep<T, K>(xs: seq<T>, i: int, p: T -> bool, key: K, kf: T -> K,
                                   kept: seq<T>, seen: set<K>)
    requires 0 <= i < |xs| && key == kf(xs[i])
    requires kept == FirstPerKey(Filter(xs[..i], p), kf)
    requires forall k :: k in seen <==> k in KeysOf(kept, kf)
    ensures !p(xs[i]) || key in seen ==> FirstPerKey(Filter(xs[..i + 1], p), kf) == kept
    ensures p(xs[i]) && key !in seen ==>
      && FirstPerKey(Filter(xs[..i + 1], p), kf) == kept + [xs[i]]
      && (forall k :: k in seen + {key} <==> k in KeysOf(kept + [xs[i]], kf))
  {
    FilterPrefixStep(xs, i, p);
    FirstPerKeyStep(Filter(xs[..i], p), xs[i], key, kf, kept, seen);
  }

  method FilterThenDedupe<T(==), K(==)>(xs: seq<T>, p: T -> bool, kf: T -> K)
    returns (kept: seq<T>)
    ensures kept == FirstPerKey(Filter(xs, p), kf)
  {
    var seen: set<K> := {};
    kept := [];
    var i := 0;
    while i < |xs|
      invariant 0 <= i <= |xs|
      invariant kept == FirstPerKey(Filter(xs[..i], p), kf)
      invariant forall k :: k in seen <==> k in KeysOf(kept, kf)
    {
      var x := xs[i];
      if p(x) {
        var key := kf(x);
        FilterThenDedupeStep(xs, i, p, key, kf, kept, seen);
        if key !in seen {
          seen := seen + {key};
          kept := kept + [x];
        }
      } else {
        FilterThenDedupeStep(xs, i, p, kf(x), kf, kept, seen);
      }
      i := i + 1;
    }
    assert xs[..|xs|] == xs;
  }

  /** The first element always survives a first-per-key dedupe, in front. */
  lemma {:induction false} FirstKeptIsFirst<T, K>(xs: seq<T>, kf: T -> K)
    requires |xs| > 0
    ensures |FirstPerKey(xs, kf)| > 0 && FirstPerKey(xs, kf)[0] == xs[0]
    decreases |xs|
  {
    if |xs| > 1 {
      FirstKeptIsFirst(xs[..|xs| - 1], kf);
      assert xs[..|xs| - 1][0] == xs[0];
    }
  }

  /** Two orderings of the same elements stay orderings of the same elements once the last
      element of the first is removed from both. */
  lemma MultisetDropLast<T>(a: seq<T>, b: seq<T>) returns (j: int)
    requires |a| > 0 && multiset(a) == multiset(b)
    ensures 0 <= j < |b| && b[j] == a[|a| - 1]
    ensures multiset(a[..|a| - 1]) == multiset(b[..j] + b[j + 1..])
  {
    var x := a[|a| - 1];
    assert a == a[..|a| - 1] + [x];
    assert x in multiset(b);
    j :| 0 <= j < |b| && b[j] == x;
    assert b == b[..j] + [x] + b[j + 1..];
    assert multiset(b[..j] + b[j + 1..]) == multiset(b) - multiset{x};
  }

  /** Slicing a suffix is slicing the whole, shifted. */
  lemma SliceOfSuffix<T>(s: seq<T>, i: int, j: int)
    requires 0 <= i <= |s| && 0 <= j <= |s| - i
    ensures s[i..i + j] == s[i..][..j]
    ensures s[i + j..] == s[i..][j..]
  {
  }

  lemma DropLast<T>(a: seq<T>, x: T)
    ensures (a + [x])[..|a|] == a
  {
  }

  /** A non-empty sequence is its front and its last element. */
  lemma SplitLast<T>(s: seq<T>)
    requires |s| > 0
    ensures s == s[..|s| - 1] + [s[|s| - 1]]
  {
  }

  /** A prefix one longer is the prefix and the next element. */
  lemma TakeSnoc<T>(s: seq<T>, i: int)
    requires 0 <= i < |s|
    ensures s[..i + 1] == s[..i] + [s[i]]
  {
  }

  /** The keys of one more element. */
  lemma KeysOfSnoc<T, K>(xs: seq<T>, x: T, kf: T -> K)
    ensures KeysOf(xs + [x], kf) == KeysOf(xs, kf) + [kf(x)]
  {
  }
}

=== FILE: sorting.dfy ===
/** Python's stable `sorted` as an insertion sort over a strict order, and the code-point
    order Python uses to compare strings. */
module Sorting {

  /** `lt` is irreflexive-asymmetric and transitive: enough for insertion to keep a sorted
      sequence sorted. */
  ghost predicate StrictOrder<T(!new)>(lt: (T, T) -> bool) {
    && (forall a, b :: lt(a, b) ==> !lt(b, a))
    && (forall a, b, c :: lt(a, b) && lt(b, c) ==> lt(a, c))
  }

  /** No later element should come strictly before an earlier one. */
  ghost predicate Sorted<T>(s: seq<T>, lt: (T, T) -> bool) {
    forall i, j :: 0 <= i < j < |s| ==> !lt(s[j], s[i])
  }

  /** Where `x` goes: after every element it does not strictly precede, so elements that
      tie keep their arrival order. */
  function InsertPos<T>(x: T, s: seq<T>, lt: (T, T) -> bool): (p: nat)
    ensures p <= |s|
    ensures forall i :: 0 <= i < p ==> !lt(x, s[i])
    ensures p < |s| ==> lt(x, s[p])
  {
    if |s| == 0 then 0
    else if lt(x, s[0]) then 0
    else 1 + InsertPos(x, s[1..], lt)
  }

  /** Inserting at `InsertPos` keeps a sorted sequence sorted. */
  lemma InsertSorted<T(!new)>(x: T, s: seq<T>, lt: (T, T) -> bool)
    requires StrictOrder(lt) && Sorted(s, lt)
    ensures var p := InsertPos(x, s, lt);
      Sorted(s[..p] + [x] + s[p..], lt)
  {
    var p := InsertPos(x, s, lt);
    var r := s[..p] + [x] + s[p..];
    forall i, j | 0 <= i < j < |r|
      ensures !lt(r[j], r[i])
    {
      if j < p || i > p {
      } else if i == p {
        assert r[j] == s[j - 1];
        if j - 1 > p {
          assert !lt(s[j - 1], s[p]);
        }
      } else if j > p {
        assert r[i] == s[i] && r[j] == s[j - 1];
      }
    }
  }

  /** `sorted(xs)` with `lt` as the "comes strictly before" test: stable, so ties keep
      their order in `xs`. */
  function SortBy<T(!new)>(xs: seq<T>, lt: (T, T) -> bool): (r: seq<T>)
    requires StrictOrder(lt)
    ensures Sorted(r, lt)
    ensures multiset(r) == multiset(xs)
    ensures |r| == |xs|
  {
    if |xs| == 0 then []
    else
      var s := SortBy(xs[..|xs| - 1], lt);
      var x := xs[|xs| - 1];
      var p := InsertPos(x, s, lt);
      InsertSorted(x, s, lt);
      assert s == s[..p] + s[p..];
      assert xs == xs[..|xs| - 1] + [x];
      s[..p] + [x] + s[p..]
  }

  /** The last element is inserted into the sorted rest. */
  lemma SortBySnoc<T(!new)>(xs: seq<T>, lt: (T, T) -> bool)
    requires StrictOrder(lt) && |xs| > 0
    ensures var s := SortBy(xs[..|xs| - 1], lt);
      var p := InsertPos(xs[|xs| - 1], s, lt);
      SortBy(xs, lt) == s[..p] + [xs[|xs| - 1]] + s[p..]
  {
  }

  /** No element of a sorted sequence comes strictly before its head. */
  lemma SortedHead<T(!new)>(a: seq<T>, lt: (T, T) -> bool, x: T)
    requires StrictOrder(lt) && Sorted(a, lt) && x in a
    ensures !lt(x, a[0])
  {
    var i :| 0 <= i < |a| && a[i] == x;
    if i > 0 {
      assert !lt(a[i], a[0]);
    }
  }

  /** Dropping the head drops one copy of it. */
  lemma MultisetTail<T>(a: seq<T>)
    requires |a| > 0
    ensures a == [a[0]] + a[1..]
    ensures multiset(a[1..]) == multiset(a) - multiset{a[0]}
  {
    assert a == [a[0]] + a[1..];
  }

  /** The tail of a sorted sequence is sorted. */
  lemma SortedTail<T>(a: seq<T>, lt: (T, T) -> bool)
    requires |a| > 0 && Sorted(a, lt)
    ensures Sorted(a[1..], lt)
  {
    forall i, j | 0 <= i < j < |a| - 1
      ensures !lt(a[1..][j], a[1..][i])
    {
      assert a[1..][j] == a[j + 1] && a[1..][i] == a[i + 1];
    }
  }

  /** Under a total strict order a sorted sequence is determined by its elements. */
  lemma {:induction false} SortedUnique<T(!new)>(a: seq<T>, b: seq<T>, lt: (T, T) -> bool)
    requires StrictOrder(lt)
    requires forall x, y :: x != y ==> lt(x, y) || lt(y, x)
    requires Sorted(a, lt) && Sorted(b, lt)
    requires multiset(a) == multiset(b)
    ensures a == b
    decreases |a|
  {
    assert |a| == |multiset(a)| == |b|;
    if |a| > 0 {
      SortedHeadsMeet(a, b, lt);
      MultisetTail(a);
      MultisetTail(b);
      SortedTail(a, lt);
      SortedTail(b, lt);
      SortedUnique(a[1..], b[1..], lt);
    }
  }

  /** Two sorted sequences with the same elements start with the same one. */
  lemma SortedHeadsMeet<T(!new)>(a: seq<T>, b: seq<T>, lt: (T, T) -> bool)
    requires StrictOrder(lt)
    requires forall x, y :: x != y ==> lt(x, y) || lt(y, x)
    requires Sorted(a, lt) && Sorted(b, lt)
    requires multiset(a) == multiset(b) && |a| > 0
    ensures |b| > 0 && a[0] == b[0]
  {
    assert |a| == |multiset(a)| == |b|;
    assert a[0] in multiset(b) && b[0] in multiset(a);
    SortedHead(b, lt, a[0]);
    SortedHead(a, lt, b[0]);
  }

  /** Python's `<` on strings: code point by code point, a proper prefix first. */
  predicate StrLt(a: string, b: string) {
    if |a| == 0 then |b| > 0
    else if |b| == 0 then false
    else if a[0] != b[0] then a[0] < b[0]
    else StrLt(a[1..], b[1..])
  }

  lemma {:induction false} StrLtAsym(a: string, b: string)
    ensures StrLt(a, b) ==> !StrLt(b, a)
    decreases |a|
  {
    if |a| > 0 && |b| > 0 && a[0] == b[0] {
      StrLtAsym(a[1..], b[1..]);
    }
  }

  lemma {:induction false} StrLtTrans(a: string, b: string, c: string)
    ensures StrLt(a, b) && StrLt(b, c) ==> StrLt(a, c)
    decreases |a|
  {
    if |a| > 0 && |b| > 0 && |c| > 0 && a[0] == b[0] == c[0] {
      StrLtTrans(a[1..], b[1..], c[1..]);
    }
  }

  lemma {:induction false} StrLtTotal(a: string, b: string)
    ensures a != b ==> StrLt(a, b) || StrLt(b, a)
    decreases |a|
  {
    if |a| > 0 && |b| > 0 && a[0] == b[0] {
      StrLtTotal(a[1..], b[1..]);
      assert a == [a[0]] + a[1..];
      assert b == [b[0]] + b[1..];
    }
  }

  /** String comparison is a total strict order. */
  lemma StrLtOrder()
    ensures StrictOrder(StrLt)
    ensures forall x, y :: x != y ==> StrLt(x, y) || StrLt(y, x)
  {
    forall a, b ensures StrLt(a, b) ==> !StrLt(b, a) {
      StrLtAsym(a, b);
    }
    forall a, b, c ensures StrLt(a, b) && StrLt(b, c) ==> StrLt(a, c) {
      StrLtTrans(a, b, c);
    }
    forall a, b ensures a != b ==> StrLt(a, b) || StrLt(b, a) {
      StrLtTotal(a, b);
    }
  }

  /** `sorted` on strings. */
  function SortStrings(xs: seq<string>): (r: seq<string>)
    ensures Sorted(r, StrLt)
    ensures multiset(r) == multiset(xs)
    ensures |r| == |xs|
  {
    StrLtOrder();
    SortBy(xs, StrLt)
  }

  /** Sorting strings forgets their order: equal collections sort to the same list. */
  lemma SortStringsCanonical(xs: seq<string>, ys: seq<string>)
    requires multiset(xs) == multiset(ys)
    ensures SortStrings(xs) == SortStrings(ys)
  {
    StrLtOrder();
    SortedUnique(SortStrings(xs), SortStrings(ys), StrLt);
  }

  /** The first `m` of a sorted sequence are its smallest: sorted, drawn from it, and
      nothing left out comes strictly before one of them. */
  lemma SortedPrefix<T>(s: seq<T>, m: nat, lt: (T, T) -> bool)
    requires Sorted(s, lt) && m <= |s|
    ensures Sorted(s[..m], lt)
    ensures multiset(s[..m]) <= multiset(s)
    ensures forall x :: x in multiset(s) - multiset(s[..m]) ==>
      forall k :: 0 <= k < m ==> !lt(x, s[k])
  {
    assert s == s[..m] + s[m..];
    assert multiset(s) == multiset(s[..m]) + multiset(s[m..]);
    forall x | x in multiset(s) - multiset(s[..m])
      ensures forall k :: 0 <= k < m ==> !lt(x, s[k])
    {
      assert x in multiset(s[m..]);
      var j :| m <= j < |s| && s[j] == x;
    }
  }

  /** The `m` smallest strings of `xs`, in order: sorted, drawn from `xs`, and no string of
      `xs` left out sorts before one of them. */
  lemma SmallestStrings(xs: seq<string>, m: nat)
    requires m <= |xs|
    ensures |SortStrings(xs)[..m]| == m
    ensures Sorted(SortStrings(xs)[..m], StrLt)
    ensures multiset(SortStrings(xs)[..m]) <= multiset(xs)
    ensures forall x :: x in multiset(xs) - multiset(SortStrings(xs)[..m]) ==>
      forall k :: 0 <= k < m ==> !StrLt(x, SortStrings(xs)[k])
  {
    SortedPrefix(SortStrings(xs), m, StrLt);
  }
}

=== FILE: split.dfy ===
/** `scripts/split_jsonl.py`: turn `--val-size` into a row count, drop duplicate rows, and
    split the rows into train and validation parts, either stratified by a grouping key or
    at random, and count the rows per group. Rows are decoded JSON objects. `random.shuffle`
    is a parameter `shuffle(call, xs)` standing for the permutation the seeded generator
    produces on its `call`-th use; the md5 fingerprint of a row is a parameter too. */
module Split {
  import opened Wrappers
  import opened Json
  import opened Rounding
  import opened Seqs
  import opened Sorting

  function Min(a: int, b: int): int {
    if a <= b then a else b
  }

  function Max(a: int, b: int): int {
    if a >= b then a else b
  }

  // ---------------------------------------------------------------------------------
  // normalize_val_size
  // ---------------------------------------------------------------------------------

  /** `--val-size` as `normalize_val_size` receives it: a float fraction or an int count. */
  datatype ValSize = Fraction(f: real) | Count(c: int)

  /** The count asked for before clamping: `int(round(n * f))` for a fraction (ties to
      even), the count itself otherwise. */
  function Requested(v: ValSize, n: nat): int {
    match v
    case Fraction(f) => RoundHalfEven(n as real * f)
    case Count(c) => c
  }

  /** `normalize_val_size`: a fraction outside (0, 1] is rejected; otherwise the requested
      count is clamped so that both parts keep a row, and is 0 below two rows. */
  function NormalizeValSize(v: ValSize, n: nat): (r: Result<nat, string>)
    ensures r.Err? <==> v.Fraction? && !(0.0 < v.f <= 1.0)
    ensures r.Ok? && n >= 2 ==> 1 <= r.value <= n - 1
    ensures r.Ok? && n < 2 ==> r.value == 0
    ensures r.Ok? && n >= 2 ==>
      && (1 <= Requested(v, n) <= n - 1 ==> r.value == Requested(v, n))
      && (Requested(v, n) < 1 ==> r.value == 1)
      && (Requested(v, n) > n - 1 ==> r.value == n - 1)
    ensures v.Fraction? ==> n as real * v.f - 0.5 <= Requested(v, n) as real <= n as real * v.f + 0.5
  {
    if v.Fraction? && !(0.0 < v.f <= 1.0) then Err("--val-size float must be in (0,1]")
    else
      var k := Requested(v, n);
      Ok(if n >= 2 then Max(1, Min(k, n - 1)) else 0)
  }

  /** How the command line hands `--val-size` over: the argument is declared `type=float`,
      so even a whole count arrives as a float. */
  function CliValSize(arg: real): ValSize {
    Fraction(arg)
  }

  /** A count given on the command line, such as `--val-size 50`, is rejected although the
      option's help text offers "integer (>=1)". */
  lemma CliCountRejected(n: nat)
    ensures NormalizeValSize(CliValSize(50.0), n).Err?
  {
  }

  /** The reading the help text promises: a whole number above 1 is a count, anything
      else a fraction (1 itself stays the fraction "all rows"). */
  function CliValSizeIntended(arg: real): (v: ValSize)
    ensures arg <= 1.0 ==> v == Fraction(arg)
    ensures arg > 1.0 && arg == arg.Floor as real ==> v == Count(arg.Floor)
  {
    if arg > 1.0 && arg == arg.Floor as real then Count(arg.Floor) else Fraction(arg)
  }

  /** Under the intended reading every documented value is accepted, and a count that fits
      is used as given. */
  lemma CliValSizeIntendedAccepts(arg: real, n: nat)
    requires (0.0 < arg <= 1.0) || (arg >= 1.0 && arg == arg.Floor as real)
    ensures NormalizeValSize(CliValSizeIntended(arg), n).Ok?
    ensures arg > 1.0 && arg == arg.Floor as real && arg.Floor <= n - 1 ==>
      NormalizeValSize(CliValSizeIntended(arg), n) == Ok(arg.Floor)
  {
  }

  // ---------------------------------------------------------------------------------
  // dedupe
  // ---------------------------------------------------------------------------------

  /** `hashlib.md5(json.dumps(r, sort_keys=True)).hexdigest()`, supplied by the caller. */
  type Fingerprint = Fields -> string

  /** The identity `dedupe` files a row under: `("key", str(r[key]))` or `("hash", …)`. */
  datatype RowKey = ByKey(text: string) | ByHash(digest: string)

  /** The key field's text when a key is named (a non-empty name; `None` is the empty
      name) and the row has it; otherwise the row's fingerprint. */
  function KeyOfRow(r: Fields, key: string, show: Show, fingerprint: Fingerprint): (k: RowKey)
    ensures k.ByKey? <==> |key| > 0 && HasKey(r, key)
    ensures k.ByKey? ==> Lookup(r, key) == Some(Lookup(r, key).value) && k.text == PyStr(Lookup(r, key).value, show)
    ensures k.ByHash? ==> k.digest == fingerprint(r)
  {
    if |key| > 0 && HasKey(r, key) then ByKey(PyStr(Lookup(r, key).value, show))
    else ByHash(fingerprint(r))
  }

  function RowKeys(key: string, show: Show, fingerprint: Fingerprint): Fields -> RowKey {
    r => KeyOfRow(r, key, show, fingerprint)
  }

  /** `dedupe`: the loop over a `seen` set keeps the first row of every key, in order. */
  method Dedupe(rows: seq<Fields>, key: string, show: Show, fingerprint: Fingerprint)
    returns (out: seq<Fields>)
    ensures out == FirstPerKey(rows, RowKeys(key, show, fingerprint))
    ensures IsSubseq(out, rows)
    ensures forall i, j :: 0 <= i < j < |out| ==>
      KeyOfRow(out[i], key, show, fingerprint) != KeyOfRow(out[j], key, show, fingerprint)
    ensures forall i :: FirstOfKey(rows, RowKeys(key, show, fingerprint), i) ==> rows[i] in out
    ensures forall x :: x in out ==>
      exists i :: FirstOfKey(rows, RowKeys(key, show, fingerprint), i) && rows[i] == x
  {
    var kf := RowKeys(key, show, fingerprint);
    var seen: set<RowKey> := {};
    out := [];
    var i := 0;
    while i < |rows|
      invariant 0 <= i <= |rows|
      invariant out == FirstPerKey(rows[..i], kf)
      invariant forall k :: k in seen <==> k in KeysOf(out, kf)
    {
      var r := rows[i];
      var k := if |key| > 0 && HasKey(r, key) then ByKey(PyStr(Lookup(r, key).value, show))
               else ByHash(fingerprint(r));
      FirstPerKeyPrefixStep(rows, i, k, kf, out, seen);
      if k !in seen {
        seen := seen + {k};
        out := out + [r];
      }
      i := i + 1;
    }
    assert rows[..|rows|] == rows;
    FirstPerKeyKeepsFirsts(rows, kf);
    FirstPerKeyOnlyFirsts(rows, kf);
  }

  // ---------------------------------------------------------------------------------
  // Shuffles and Python slices
  // ---------------------------------------------------------------------------------

  /** `rng.shuffle` on its `call`-th use. */
  type Shuffle = (nat, seq<Fields>) -> seq<Fields>

  /** Every shuffle is a permutation of what it is given. */
  ghost predicate IsShuffle(shuffle: Shuffle) {
    forall call, xs :: multiset(shuffle(call, xs)) == multiset(xs)
  }

  /** Where Python's slice bound `k` falls in a list of `len` items: a negative bound counts
      from the end, and both are clamped into the list. */
  function PyCut(k: int, len: nat): (c: nat)
    ensures c <= len
    ensures 0 <= k <= len ==> c == k
    ensures k > len ==> c == len
    ensures k < 0 ==> c == Max(0, len + k)
  {
    if k < 0 then Max(0, len + k) else Min(k, len)
  }

  /** `(train, val)`. */
  datatype Parts = Parts(train: seq<Fields>, val: seq<Fields>)

  // ---------------------------------------------------------------------------------
  // stratified_split
  // ---------------------------------------------------------------------------------

  /** A bucket of the `defaultdict`: the group's label and its rows in input order. */
  datatype Bucket = Bucket(group: string, rows: seq<Fields>)

  /** `str(r.get(key, "_MISSING_"))`. */
  function GroupLabel(r: Fields, key: string, show: Show): string {
    PyStr(GetOr(r, key, JStr("_MISSING_")), show)
  }

  /** The bucket holding label `g`, or -1. */
  function FindBucket(bs: seq<Bucket>, g: string): (i: int)
    ensures -1 <= i < |bs|
    ensures i >= 0 ==> bs[i].group == g
    ensures i == -1 ==> forall j :: 0 <= j < |bs| ==> bs[j].group != g
  {
    if |bs| == 0 then -1
    else if bs[|bs| - 1].group == g then |bs| - 1
    else FindBucket(bs[..|bs| - 1], g)
  }

  /** `buckets[g].append(r)`: a new label opens a bucket at the end. */
  function AddRow(bs: seq<Bucket>, g: string, r: Fields): seq<Bucket> {
    var i := FindBucket(bs, g);
    if i >= 0 then bs[i := Bucket(g, bs[i].rows + [r])] else bs + [Bucket(g, [r])]
  }

  /** All rows of the buckets, bucket by bucket. */
  function Flatten(bs: seq<Bucket>): seq<Fields> {
    if |bs| == 0 then [] else Flatten(bs[..|bs| - 1]) + bs[|bs| - 1].rows
  }

  lemma {:induction false} FlattenUpdate(bs: seq<Bucket>, i: int, r: Fields)
    requires 0 <= i < |bs|
    ensures multiset(Flatten(bs[i := Bucket(bs[i].group, bs[i].rows + [r])]))
      == multiset(Flatten(bs)) + multiset{r}
    decreases |bs|
  {
    var b := Bucket(bs[i].group, bs[i].rows + [r]);
    var n := |bs| - 1;
    var init := bs[..n];
    var up := bs[i := b];
    assert Flatten(up) == Flatten(up[..n]) + up[n].rows;
    assert Flatten(bs) == Flatten(init) + bs[n].rows;
    if i == n {
      assert up[..n] == init;
      assert up[n].rows == bs[n].rows + [r];
    } else {
      FlattenUpdate(init, i, r);
      assert up[..n] == init[i := b];
      assert up[n] == bs[n];
    }
  }

  /** What the bucketing keeps true: labels are distinct, no bucket is empty, and every
      row sits under its own label. */
  ghost predicate BucketsOk(bs: seq<Bucket>, key: string, show: Show) {
    && (forall i, j :: 0 <= i < j < |bs| ==> bs[i].group != bs[j].group)
    && (forall i :: 0 <= i < |bs| ==> |bs[i].rows| > 0)
    && (forall i, k :: 0 <= i < |bs| && 0 <= k < |bs[i].rows| ==>
          GroupLabel(bs[i].rows[k], key, show) == bs[i].group)
  }

  /** Appending a row to the bucket of its own label keeps the bucket invariants. */
  lemma AppendToBucketOk(bs: seq<Bucket>, key: string, show: Show, r: Fields, i: int)
    requires BucketsOk(bs, key, show)
    requires 0 <= i < |bs| && bs[i].group == GroupLabel(r, key, show)
    ensures BucketsOk(bs[i := Bucket(bs[i].group, bs[i].rows + [r])], key, show)
  {
    var out := bs[i := Bucket(bs[i].group, bs[i].rows + [r])];
    forall j, k | 0 <= j < |out| && 0 <= k < |out[j].rows|
      ensures GroupLabel(out[j].rows[k], key, show) == out[j].group
    {
      if j == i && k == |bs[i].rows| {
        assert out[j].rows[k] == r;
      } else if j == i {
        assert out[j].rows[k] == bs[i].rows[k];
      }
    }
  }

  /** Opening a bucket for an unseen label keeps the bucket invariants. */
  lemma NewBucketOk(bs: seq<Bucket>, key: string, show: Show, r: Fields)
    requires BucketsOk(bs, key, show)
    requires forall j :: 0 <= j < |bs| ==> bs[j].group != GroupLabel(r, key, show)
    ensures BucketsOk(bs + [Bucket(GroupLabel(r, key, show), [r])], key, show)
  {
  }

  /** Filing one more row keeps the bucket invariants and adds exactly that row. */
  lemma AddRowOk(bs: seq<Bucket>, key: string, show: Show, r: Fields)
    requires BucketsOk(bs, key, show)
    ensures BucketsOk(AddRow(bs, GroupLabel(r, key, show), r), key, show)
    ensures multiset(Flatten(AddRow(bs, GroupLabel(r, key, show), r)))
      == multiset(Flatten(bs)) + multiset{r}
  {
    var g := GroupLabel(r, key, show);
    var i := FindBucket(bs, g);
    if i >= 0 {
      FlattenUpdate(bs, i, r);
      AppendToBucketOk(bs, key, show, r, i);
    } else {
      NewBucketOk(bs, key, show, r);
      assert (bs + [Bucket(g, [r])])[..|bs|] == bs;
    }
  }

  /** A row's group label, as a function value. */
  function LabelOf(key: string, show: Show): Fields -> string {
    (r: Fields) => GroupLabel(r, key, show)
  }

  /** Whether a row's group label is `g`. */
  function InGroup(key: string, show: Show, g: string): Fields -> bool {
    (r: Fields) => GroupLabel(r, key, show) == g
  }

  /** The labels of the buckets, in bucket order. */
  function Groups(bs: seq<Bucket>): (gs: seq<string>)
    ensures |gs| == |bs|
    ensures forall i :: 0 <= i < |bs| ==> gs[i] == bs[i].group
  {
    seq(|bs|, i requires 0 <= i < |bs| => bs[i].group)
  }

  /** With no row of a group, the group's filter is empty. */
  lemma FilterNoGroup(rows: seq<Fields>, key: string, show: Show, g: string)
    requires forall m :: 0 <= m < |rows| ==> GroupLabel(rows[m], key, show) != g
    ensures Filter(rows, InGroup(key, show, g)) == []
  {
    var f := Filter(rows, InGroup(key, show, g));
    FilterFrom(rows, InGroup(key, show, g));
    if |f| > 0 {
      assert false;
    }
  }

  /** What the buckets built from `rows` hold: the first-seen labels, in order, and for each
      label the rows carrying it, in input order. */
  ghost predicate Tracks(bs: seq<Bucket>, rows: seq<Fields>, key: string, show: Show) {
    && Groups(bs) == KeysOf(FirstPerKey(rows, LabelOf(key, show)), LabelOf(key, show))
    && forall i :: 0 <= i < |bs| ==> bs[i].rows == Filter(rows, InGroup(key, show, bs[i].group))
  }

  /** One more row: each bucket's filter gains the row exactly when the label matches. */
  lemma FilterGroupsSnoc(bs: seq<Bucket>, rows: seq<Fields>, key: string, show: Show, r: Fields)
    requires forall i :: 0 <= i < |bs| ==> bs[i].rows == Filter(rows, InGroup(key, show, bs[i].group))
    ensures forall j :: 0 <= j < |bs| ==>
      Filter(rows + [r], InGroup(key, show, bs[j].group))
        == if bs[j].group == GroupLabel(r, key, show) then bs[j].rows + [r] else bs[j].rows
  {
    forall j | 0 <= j < |bs|
      ensures Filter(rows + [r], InGroup(key, show, bs[j].group))
        == if bs[j].group == GroupLabel(r, key, show) then bs[j].rows + [r] else bs[j].rows
    {
      FilterSnoc(rows, r, InGroup(key, show, bs[j].group));
    }
  }

  /** Filing a row under a label already seen. */
  lemma AppendTracks(bs: seq<Bucket>, rows: seq<Fields>, key: string, show: Show, r: Fields, i: int)
    requires BucketsOk(bs, key, show) && Tracks(bs, rows, key, show)
    requires 0 <= i < |bs| && bs[i].group == GroupLabel(r, key, show)
    ensures Tracks(bs[i := Bucket(bs[i].group, bs[i].rows + [r])], rows + [r], key, show)
  {
    var lf := LabelOf(key, show);
    var g := GroupLabel(r, key, show);
    var out := bs[i := Bucket(g, bs[i].rows + [r])];
    FirstPerKeySnoc(rows, r, lf);
    assert Groups(bs)[i] == lf(r);
    assert FirstPerKey(rows + [r], lf) == FirstPerKey(rows, lf);
    assert Groups(out) == Groups(bs);
    FilterGroupsSnoc(bs, rows, key, show, r);
    forall j | 0 <= j < |out|
      ensures out[j].rows == Filter(rows + [r], InGroup(key, show, out[j].group))
    {
      if j != i {
        assert bs[j].group != g;
      }
    }
  }

  /** Opening a bucket for a label not seen before. */
  lemma OpenTracks(bs: seq<Bucket>, rows: seq<Fields>, key: string, show: Show, r: Fields)
    requires Tracks(bs, rows, key, show)
    requires forall j :: 0 <= j < |bs| ==> bs[j].group != GroupLabel(r, key, show)
    ensures Tracks(bs + [Bucket(GroupLabel(r, key, show), [r])], rows + [r], key, show)
  {
    var g := GroupLabel(r, key, show);
    var out := bs + [Bucket(g, [r])];
    OpenGroups(bs, rows, key, show, r);
    UnseenGroupEmpty(bs, rows, key, show, g);
    FilterSnoc(rows, r, InGroup(key, show, g));
    FilterGroupsSnoc(bs, rows, key, show, r);
    forall j | 0 <= j < |out|
      ensures out[j].rows == Filter(rows + [r], InGroup(key, show, out[j].group))
    {
      if j < |bs| {
        assert out[j] == bs[j];
      }
    }
  }

  /** A new label joins the first-seen labels at the end. */
  lemma OpenGroups(bs: seq<Bucket>, rows: seq<Fields>, key: string, show: Show, r: Fields)
    requires Groups(bs) == KeysOf(FirstPerKey(rows, LabelOf(key, show)), LabelOf(key, show))
    requires forall j :: 0 <= j < |bs| ==> bs[j].group != GroupLabel(r, key, show)
    ensures Groups(bs + [Bucket(GroupLabel(r, key, show), [r])])
      == KeysOf(FirstPerKey(rows + [r], LabelOf(key, show)), LabelOf(key, show))
  {
    var lf := LabelOf(key, show);
    var g := GroupLabel(r, key, show);
    var fpk := FirstPerKey(rows, lf);
    FirstPerKeySnoc(rows, r, lf);
    assert lf(r) !in Groups(bs);
    KeysOfSnoc(fpk, r, lf);
    GroupsSnoc(bs, Bucket(g, [r]));
  }

  lemma GroupsSnoc(bs: seq<Bucket>, b: Bucket)
    ensures Groups(bs + [b]) == Groups(bs) + [b.group]
  {
  }

  /** A label no bucket carries has no rows. */
  lemma UnseenGroupEmpty(bs: seq<Bucket>, rows: seq<Fields>, key: string, show: Show, g: string)
    requires Groups(bs) == KeysOf(FirstPerKey(rows, LabelOf(key, show)), LabelOf(key, show))
    requires forall j :: 0 <= j < |bs| ==> bs[j].group != g
    ensures Filter(rows, InGroup(key, show, g)) == []
  {
    var lf := LabelOf(key, show);
    FirstPerKeyCovers(rows, lf);
    forall m | 0 <= m < |rows|
      ensures GroupLabel(rows[m], key, show) != g
    {
      assert lf(rows[m]) in Groups(bs);
    }
    FilterNoGroup(rows, key, show, g);
  }

  /** Filing row `r` after `rows` keeps what the buckets hold. */
  lemma AddRowTracks(bs: seq<Bucket>, rows: seq<Fields>, key: string, show: Show, r: Fields)
    requires BucketsOk(bs, key, show) && Tracks(bs, rows, key, show)
    ensures Tracks(AddRow(bs, GroupLabel(r, key, show), r), rows + [r], key, show)
  {
    var i := FindBucket(bs, GroupLabel(r, key, show));
    if i >= 0 {
      AppendTracks(bs, rows, key, show, r, i);
    } else {
      OpenTracks(bs, rows, key, show, r);
    }
  }

  /** The buckets of `stratified_split`: one per group label, in first-seen order, each
      holding the rows of its label in input order; together they hold exactly the input
      rows. */
  function Buckets(rows: seq<Fields>, key: string, show: Show): (bs: seq<Bucket>)
    ensures BucketsOk(bs, key, show)
    ensures multiset(Flatten(bs)) == multiset(rows)
    ensures Groups(bs) == KeysOf(FirstPerKey(rows, LabelOf(key, show)), LabelOf(key, show))
    ensures forall i :: 0 <= i < |bs| ==> bs[i].rows == Filter(rows, InGroup(key, show, bs[i].group))
  {
    if |rows| == 0 then []
    else
      var init := Buckets(rows[..|rows| - 1], key, show);
      var r := rows[|rows| - 1];
      BucketsStep(init, rows, key, show);
      AddRow(init, GroupLabel(r, key, show), r)
  }

  /** Filing the last row into the buckets of the rows before it gives the buckets of all
      the rows. */
  lemma BucketsStep(init: seq<Bucket>, rows: seq<Fields>, key: string, show: Show)
    requires |rows| > 0
    requires BucketsOk(init, key, show)
    requires multiset(Flatten(init)) == multiset(rows[..|rows| - 1])
    requires Tracks(init, rows[..|rows| - 1], key, show)
    ensures var bs := AddRow(init, GroupLabel(rows[|rows| - 1], key, show), rows[|rows| - 1]);
      && BucketsOk(bs, key, show)
      && multiset(Flatten(bs)) == multiset(rows)
      && Tracks(bs, rows, key, show)
  {
    var r := rows[|rows| - 1];
    SplitLast(rows);
    AddRowOk(init, key, show, r);
    AddRowTracks(init, rows[..|rows| - 1], key, show, r);
  }

  /** `k_g`, how many rows of a group of `size` go to validation before rebalancing: a
      single row goes exactly when a validation row is wanted; a larger group always sends
      at least one, otherwise its proportional share of `k_val` within half a row. */
  function Quota(size: nat, kVal: int, n: nat): (q: nat)
    ensures size == 0 ==> q == 0
    ensures size == 1 ==> q == (if kVal > 0 then 1 else 0)
    ensures size > 1 ==> q >= 1
    ensures size > 1 ==> var share := size as real * (kVal as real / Max(1, n) as real);
      q == 1 || share - 0.5 <= q as real <= share + 0.5
  {
    var frac := kVal as real / Max(1, n) as real;
    if size > 1 then Max(1, RoundHalfEven(size as real * frac))
    else if size == 1 && kVal > 0 then Min(1, kVal)
    else 0
  }

  lemma FractionAtMostOne(k: int, m: int)
    requires 1 <= m && k <= m
    ensures k as real / m as real <= 1.0
  {
    assert (k as real / m as real) * m as real == k as real;
  }

  lemma ScaleAtMost(a: real, f: real)
    requires a >= 0.0 && f <= 1.0
    ensures a * f <= a
  {
    assert a * f == a - a * (1.0 - f);
    assert a * (1.0 - f) >= 0.0;
  }

  /** While `k_val` does not exceed the row count, no group sends more rows than it has. */
  lemma QuotaWithinGroup(size: nat, kVal: int, n: nat)
    requires kVal <= Max(1, n)
    ensures Quota(size, kVal, n) <= size
  {
    var frac := kVal as real / Max(1, n) as real;
    if size > 1 {
      FractionAtMostOne(kVal, Max(1, n));
      ScaleAtMost(size as real, frac);
      RoundHalfEvenMonotone(size as real * frac, size as real);
      RoundHalfEvenUnique(size as real, size);
    }
  }

  /** The per-group loop: shuffle each bucket (the bucket's index is its shuffle call),
      give its first `k_g` rows to validation and the rest to training. */
  function Distribute(bs: seq<Bucket>, kVal: int, n: nat, shuffle: Shuffle): (p: Parts)
    requires IsShuffle(shuffle)
    ensures multiset(p.train + p.val) == multiset(Flatten(bs))
  {
    if |bs| == 0 then Parts([], [])
    else
      var pre := Distribute(bs[..|bs| - 1], kVal, n, shuffle);
      var grp := shuffle(|bs| - 1, bs[|bs| - 1].rows);
      var cut := PyCut(Quota(|grp|, kVal, n), |grp|);
      assert grp == grp[..cut] + grp[cut..];
      Parts(pre.train + grp[cut..], pre.val + grp[..cut])
  }

  /** How many rows each bucket sends to validation in the per-group loop: its quota,
      or all of its rows when the quota is larger. */
  function Takes(bs: seq<Bucket>, kVal: int, n: nat): (t: seq<int>)
    ensures |t| == |bs|
    ensures forall i :: 0 <= i < |bs| ==>
      t[i] == Min(Quota(|bs[i].rows|, kVal, n), |bs[i].rows|)
  {
    seq(|bs|, i requires 0 <= i < |bs| => Min(Quota(|bs[i].rows|, kVal, n), |bs[i].rows|))
  }

  /** Before rebalancing, validation holds exactly each bucket's take. */
  lemma {:induction false} DistributeTakesQuotas(bs: seq<Bucket>, kVal: int, n: nat, shuffle: Shuffle)
    requires IsShuffle(shuffle)
    ensures |Distribute(bs, kVal, n, shuffle).val| == SumInts(Takes(bs, kVal, n))
    decreases |bs|
  {
    if |bs| > 0 {
      var init := bs[..|bs| - 1];
      var take := Min(Quota(|bs[|bs| - 1].rows|, kVal, n), |bs[|bs| - 1].rows|);
      DistributeTakesQuotas(init, kVal, n, shuffle);
      DistributeValStep(bs, kVal, n, shuffle);
      TakesSnoc(bs, kVal, n);
      SumIntsAppend(Takes(init, kVal, n), take);
    }
  }

  lemma TakesSnoc(bs: seq<Bucket>, kVal: int, n: nat)
    requires |bs| > 0
    ensures var rows := bs[|bs| - 1].rows;
      Takes(bs, kVal, n) == Takes(bs[..|bs| - 1], kVal, n) + [Min(Quota(|rows|, kVal, n), |rows|)]
  {
    var t := Takes(bs, kVal, n);
    var u := Takes(bs[..|bs| - 1], kVal, n);
    forall i | 0 <= i < |u|
      ensures t[i] == u[i]
    {
      assert bs[..|bs| - 1][i] == bs[i];
    }
  }

  /** The last bucket adds its take to validation. */
  lemma DistributeValStep(bs: seq<Bucket>, kVal: int, n: nat, shuffle: Shuffle)
    requires IsShuffle(shuffle) && |bs| > 0
    ensures var rows := bs[|bs| - 1].rows;
      |Distribute(bs, kVal, n, shuffle).val|
        == |Distribute(bs[..|bs| - 1], kVal, n, shuffle).val| + Min(Quota(|rows|, kVal, n), |rows|)
  {
    var rows := bs[|bs| - 1].rows;
    var grp := shuffle(|bs| - 1, rows);
    assert |grp| == |rows| by {
      assert |grp| == |multiset(grp)|;
    }
  }

  /** Too many validation rows: shuffle them and send the last `len(val) - k_val` to
      training (`val[-move:]`, `val[:-move]`). */
  function ShedExcess(p: Parts, kVal: int, shuffle: Shuffle, call: nat): (r: Parts)
    requires IsShuffle(shuffle)
    requires |p.val| > kVal
    ensures multiset(r.train + r.val) == multiset(p.train + p.val)
    ensures multiset(r.val) <= multiset(p.val)
    ensures |r.val| == Max(0, kVal)
  {
    var val := shuffle(call, p.val);
    assert |val| == |multiset(val)| == |p.val|;
    var move := |val| - kVal;
    var cut := PyCut(-move, |val|);
    assert val == val[..cut] + val[cut..];
    assert multiset(val[..cut]) <= multiset(val);
    Parts(p.train + val[cut..], val[..cut])
  }

  /** Too few validation rows: shuffle training and move its first rows over, as many as
      are missing or as there are. */
  function FillShortfall(p: Parts, kVal: int, shuffle: Shuffle, call: nat): (r: Parts)
    requires IsShuffle(shuffle)
    requires |p.val| < kVal
    ensures multiset(r.train + r.val) == multiset(p.train + p.val)
    ensures p.val <= r.val
    ensures |r.val| == Min(kVal, |p.train| + |p.val|)
  {
    var train := shuffle(call, p.train);
    assert |train| == |multiset(train)| == |p.train|;
    var move := Min(kVal - |p.val|, |train|);
    assert train == train[..move] + train[move..];
    Parts(train[move..], p.val + train[..move])
  }

  /** The drift fix after the per-group loop, using the next shuffle call. */
  function Rebalance(p: Parts, kVal: int, shuffle: Shuffle, call: nat): (r: Parts)
    requires IsShuffle(shuffle)
    ensures multiset(r.train + r.val) == multiset(p.train + p.val)
    ensures |r.val| == Max(0, Min(kVal, |p.train| + |p.val|))
    ensures |p.val| > kVal ==> multiset(r.val) <= multiset(p.val)
    ensures |p.val| < kVal ==> p.val <= r.val
    ensures |p.val| == kVal ==> r == p
  {
    if |p.val| > kVal then ShedExcess(p, kVal, shuffle, call)
    else if |p.val| < kVal then FillShortfall(p, kVal, shuffle, call)
    else p
  }

  /** `stratified_split`: bucket, distribute, then rebalance with the next shuffle call. */
  function StratifiedSplit(rows: seq<Fields>, key: string, kVal: int, show: Show, shuffle: Shuffle)
    : (r: Parts)
    requires IsShuffle(shuffle)
    ensures multiset(r.train + r.val) == multiset(rows)
    ensures |r.val| == Max(0, Min(kVal, |rows|))
    ensures 0 <= kVal <= |rows| ==> |r.val| == kVal
  {
    var bs := Buckets(rows, key, show);
    var pre := Distribute(bs, kVal, |rows|, shuffle);
    assert |pre.train + pre.val| == |multiset(pre.train + pre.val)| == |rows|;
    Rebalance(pre, kVal, shuffle, |bs|)
  }

  // ---------------------------------------------------------------------------------
  // random_split
  // ---------------------------------------------------------------------------------

  /** `random_split`: shuffle once, validation is `data[:k_val]` and training the rest. */
  function RandomSplit(rows: seq<Fields>, kVal: int, shuffle: Shuffle): (r: Parts)
    requires IsShuffle(shuffle)
    ensures r.val + r.train == shuffle(0, rows)
    ensures multiset(r.val + r.train) == multiset(rows)
    ensures kVal >= 0 ==> |r.val| == Min(kVal, |rows|)
    ensures kVal < 0 ==> |r.train| == Min(-kVal, |rows|)
  {
    var data := shuffle(0, rows);
    assert |data| == |multiset(data)| == |rows|;
    var cut := PyCut(kVal, |data|);
    assert data == data[..cut] + data[cut..];
    Parts(data[cut..], data[..cut])
  }

  // ---------------------------------------------------------------------------------
  // compute_stats
  // ---------------------------------------------------------------------------------

  /** The position of `l` among the counted labels, or -1. */
  function FindCount(cs: seq<(string, nat)>, l: string): (i: int)
    ensures -1 <= i < |cs|
    ensures i >= 0 ==> cs[i].0 == l
    ensures i == -1 ==> forall j :: 0 <= j < |cs| ==> cs[j].0 != l
  {
    if |cs| == 0 then -1
    else if cs[|cs| - 1].0 == l then |cs| - 1
    else FindCount(cs[..|cs| - 1], l)
  }

  /** The counts alone. */
  function Tallies(cs: seq<(string, nat)>): (t: seq<int>)
    ensures |t| == |cs|
    ensures forall i :: 0 <= i < |cs| ==> t[i] == cs[i].1
  {
    seq(|cs|, i requires 0 <= i < |cs| => cs[i].1 as int)
  }

  /** `counter[l] += 1`: a new label is appended with count 1. */
  function AddCount(cs: seq<(string, nat)>, l: string): seq<(string, nat)> {
    var i := FindCount(cs, l);
    if i >= 0 then cs[i := (l, cs[i].1 + 1)] else cs + [(l, 1)]
  }

  /** `cs` counts `labels`: each label once, with the number of times it occurs, and no
      label missing. */
  ghost predicate CountsOk(cs: seq<(string, nat)>, labels: seq<string>) {
    && (forall i, j :: 0 <= i < j < |cs| ==> cs[i].0 != cs[j].0)
    && (forall i :: 0 <= i < |cs| ==> cs[i].1 == multiset(labels)[cs[i].0])
    && (forall k :: 0 <= k < |labels| ==> FindCount(cs, labels[k]) >= 0)
  }

  /** Counting one more label keeps the counts right and the total one higher. */
  lemma AddCountOk(cs: seq<(string, nat)>, labels: seq<string>, l: string)
    requires CountsOk(cs, labels)
    ensures CountsOk(AddCount(cs, l), labels + [l])
    ensures SumInts(Tallies(AddCount(cs, l))) == SumInts(Tallies(cs)) + 1
  {
    AddCountTotal(cs, l);
    AddCountFinds(cs, labels, l);
    if FindCount(cs, l) < 0 {
      forall k | 0 <= k < |labels|
        ensures labels[k] != l
      {
        assert FindCount(cs, labels[k]) >= 0;
      }
    }
    AddCountTallies(cs, labels, l);
  }

  /** Counting one more label keeps the labels distinct and each count right. */
  lemma AddCountTallies(cs: seq<(string, nat)>, labels: seq<string>, l: string)
    requires forall i, j :: 0 <= i < j < |cs| ==> cs[i].0 != cs[j].0
    requires forall i :: 0 <= i < |cs| ==> cs[i].1 == multiset(labels)[cs[i].0]
    requires FindCount(cs, l) < 0 ==> forall k :: 0 <= k < |labels| ==> labels[k] != l
    ensures var out := AddCount(cs, l);
      && (forall i, j :: 0 <= i < j < |out| ==> out[i].0 != out[j].0)
      && (forall i :: 0 <= i < |out| ==> out[i].1 == multiset(labels + [l])[out[i].0])
  {
    assert multiset(labels + [l]) == multiset(labels) + multiset{l};
    if FindCount(cs, l) < 0 {
      assert l !in labels;
    }
  }

  /** Counting one more label adds one to the total. */
  lemma AddCountTotal(cs: seq<(string, nat)>, l: string)
    ensures SumInts(Tallies(AddCount(cs, l))) == SumInts(Tallies(cs)) + 1
  {
    var i := FindCount(cs, l);
    var out := AddCount(cs, l);
    if i >= 0 {
      assert Tallies(out) == Tallies(cs)[i := cs[i].1 + 1];
      SumIntsUpdate(Tallies(cs), i, cs[i].1 + 1);
    } else {
      assert Tallies(out) == Tallies(cs) + [1];
      SumIntsAppend(Tallies(cs), 1);
    }
  }

  /** After counting one more label, every label counted so far is found. */
  lemma AddCountFinds(cs: seq<(string, nat)>, labels: seq<string>, l: string)
    requires forall k :: 0 <= k < |labels| ==> FindCount(cs, labels[k]) >= 0
    ensures forall k :: 0 <= k < |labels + [l]| ==> FindCount(AddCount(cs, l), (labels + [l])[k]) >= 0
  {
    var i := FindCount(cs, l);
    var out := AddCount(cs, l);
    forall k | 0 <= k < |labels + [l]|
      ensures FindCount(out, (labels + [l])[k]) >= 0
    {
      var x := (labels + [l])[k];
      if k < |labels| {
        var j := FindCount(cs, x);
        assert out[j].0 == x;
      } else {
        assert out[if i >= 0 then i else |cs|].0 == x;
      }
    }
  }

  /** A `Counter` over `labels`, in first-seen order. */
  function Counts(labels: seq<string>): (cs: seq<(string, nat)>)
    ensures CountsOk(cs, labels)
    ensures SumInts(Tallies(cs)) == |labels|
  {
    if |labels| == 0 then []
    else
      var init := Counts(labels[..|labels| - 1]);
      var l := labels[|labels| - 1];
      assert labels == labels[..|labels| - 1] + [l];
      AddCountOk(init, labels[..|labels| - 1], l);
      AddCount(init, l)
  }

  /** `most_common` order: a larger count comes first. */
  predicate MoreCommon(a: (string, nat), b: (string, nat)) {
    a.1 > b.1
  }

  lemma MoreCommonOrder()
    ensures StrictOrder(MoreCommon)
  {
  }

  /** The entries whose count is `c`. */
  function CountIs(c: nat): ((string, nat)) -> bool {
    (e: (string, nat)) => e.1 == c
  }

  /** `Counter.most_common()`: counts in descending order, ties in first-seen order. */
  function MostCommon(cs: seq<(string, nat)>): (r: seq<(string, nat)>)
    ensures Sorted(r, MoreCommon)
    ensures multiset(r) == multiset(cs)
    ensures forall c :: Filter(r, CountIs(c)) == Filter(cs, CountIs(c))
  {
    MoreCommonOrder();
    SortByCountsStable(cs);
    SortBy(cs, MoreCommon)
  }

  /** Python's sort is stable: entries with equal counts keep their relative order. */
  lemma SortByCountsStable(xs: seq<(string, nat)>)
    requires StrictOrder(MoreCommon)
    ensures forall c :: Filter(SortBy(xs, MoreCommon), CountIs(c)) == Filter(xs, CountIs(c))
  {
    forall c {
      SortByCountStable(xs, c);
    }
  }

  lemma {:induction false} SortByCountStable(xs: seq<(string, nat)>, c: nat)
    requires StrictOrder(MoreCommon)
    ensures Filter(SortBy(xs, MoreCommon), CountIs(c)) == Filter(xs, CountIs(c))
    decreases |xs|
  {
    if |xs| > 0 {
      var n := |xs| - 1;
      SortByCountStable(xs[..n], c);
      SortBySnoc(xs, MoreCommon);
      SplitLast(xs);
      InsertKeepsTies(xs[..n], SortBy(xs[..n], MoreCommon), xs[n], c);
    } else {
      assert SortBy(xs, MoreCommon) == xs;
    }
  }

  /** Inserting an entry into a sorted sequence puts it after every entry with its count. */
  lemma InsertKeepsTies(init: seq<(string, nat)>, s: seq<(string, nat)>, x: (string, nat), c: nat)
    requires Sorted(s, MoreCommon)
    requires Filter(s, CountIs(c)) == Filter(init, CountIs(c))
    ensures var p := InsertPos(x, s, MoreCommon);
      Filter(s[..p] + [x] + s[p..], CountIs(c)) == Filter(init + [x], CountIs(c))
  {
    if x.1 == c {
      LaterCountsSmaller(x, s, c);
    }
    FilterInsert(s, InsertPos(x, s, MoreCommon), x, CountIs(c));
    FilterSnocAlike(s, init, x, CountIs(c));
  }

  /** Everything after an entry's insertion point has a smaller count. */
  lemma LaterCountsSmaller(x: (string, nat), s: seq<(string, nat)>, c: nat)
    requires Sorted(s, MoreCommon) && x.1 == c
    ensures Filter(s[InsertPos(x, s, MoreCommon)..], CountIs(c)) == []
  {
    var p := InsertPos(x, s, MoreCommon);
    forall j | 0 <= j < |s[p..]|
      ensures !CountIs(c)(s[p..][j])
    {
      if j > 0 {
        assert !MoreCommon(s[p + j], s[p]);
      }
    }
    FilterNone(s[p..], CountIs(c));
  }

  lemma TalliesConcat(a: seq<(string, nat)>, b: seq<(string, nat)>)
    ensures Tallies(a + b) == Tallies(a) + Tallies(b)
  {
  }

  /** Dropping one entry takes its count off the total. */
  lemma TalliesDrop(b: seq<(string, nat)>, j: int)
    requires 0 <= j < |b|
    ensures SumInts(Tallies(b)) == SumInts(Tallies(b[..j] + b[j + 1..])) + b[j].1
  {
    var l := Tallies(b[..j]);
    var r := Tallies(b[j + 1..]);
    assert b == b[..j] + [b[j]] + b[j + 1..];
    TalliesConcat(b[..j] + [b[j]], b[j + 1..]);
    TalliesConcat(b[..j], [b[j]]);
    TalliesConcat(b[..j], b[j + 1..]);
    assert Tallies([b[j]]) == [b[j].1 as int];
    SumIntsConcat(l + [b[j].1 as int], r);
    SumIntsConcat(l, r);
    SumIntsAppend(l, b[j].1);
  }

  /** The total of the counts depends only on which entries there are. */
  lemma {:induction false} TalliesPermutation(a: seq<(string, nat)>, b: seq<(string, nat)>)
    requires multiset(a) == multiset(b)
    ensures SumInts(Tallies(a)) == SumInts(Tallies(b))
    decreases |a|
  {
    assert |a| == |multiset(a)| == |b|;
    if |a| > 0 {
      var j := MultisetDropLast(a, b);
      var al := a[..|a| - 1];
      var bl := b[..j] + b[j + 1..];
      TalliesPermutation(al, bl);
      TalliesDrop(b, j);
      TalliesDrop(a, |a| - 1);
      assert a[..|a| - 1] + a[|a|..] == al;
    }
  }

  /** Reordering the counts keeps their total. */
  lemma MostCommonTotal(cs: seq<(string, nat)>)
    ensures SumInts(Tallies(MostCommon(cs))) == SumInts(Tallies(cs))
  {
    TalliesPermutation(MostCommon(cs), cs);
  }

  /** `compute_stats`' result: the row count and, when grouping, the counts per group. */
  datatype Stats = Stats(count: nat, byGroup: Option<seq<(string, nat)>>)

  /** `compute_stats`: with a grouping key, every group's count in `most_common` order; the
      counts add up to the row count and each is the number of rows in that group. */
  function ComputeStats(rows: seq<Fields>, key: string, show: Show): (st: Stats)
    ensures st.count == |rows|
    ensures st.byGroup.Some? <==> |key| > 0
    ensures st.byGroup.Some? ==>
      var labels := seq(|rows|, k requires 0 <= k < |rows| => GroupLabel(rows[k], key, show));
      var g := st.byGroup.value;
      && Sorted(g, MoreCommon)
      && multiset(g) == multiset(Counts(labels))
      && (forall i, j :: 0 <= i < j < |g| ==> g[i].0 != g[j].0)
      && (forall i :: 0 <= i < |g| ==> g[i].1 == multiset(labels)[g[i].0])
      && SumInts(Tallies(g)) == |rows|
      && (forall c :: Filter(g, CountIs(c)) == Filter(Counts(labels), CountIs(c)))
  {
    if |key| == 0 then Stats(|rows|, None)
    else
      var labels := seq(|rows|, k requires 0 <= k < |rows| => GroupLabel(rows[k], key, show));
      var cs := Counts(labels);
      var g := MostCommon(cs);
      MostCommonTotal(cs);
      MostCommonKeepsCounts(cs, labels);
      Stats(|rows|, Some(g))
  }

  /** With distinct labels, no entry occurs twice. */
  lemma {:induction false} DistinctEntriesOnce(cs: seq<(string, nat)>, x: (string, nat))
    requires forall i, j :: 0 <= i < j < |cs| ==> cs[i].0 != cs[j].0
    ensures multiset(cs)[x] <= 1
    decreases |cs|
  {
    if |cs| > 0 {
      var init := cs[..|cs| - 1];
      DistinctEntriesOnce(init, x);
      assert cs == init + [cs[|cs| - 1]];
      if cs[|cs| - 1] == x {
        forall k | 0 <= k < |init|
          ensures init[k] != x
        {
          assert cs[k].0 != cs[|cs| - 1].0;
        }
        assert x !in init;
      }
    }
  }

  /** An element at two positions occurs twice. */
  lemma TwoPositions<T>(g: seq<T>, i: int, j: int)
    requires 0 <= i < j < |g| && g[i] == g[j]
    ensures multiset(g)[g[i]] >= 2
  {
    assert g == g[..i] + [g[i]] + g[i + 1..j] + [g[j]] + g[j + 1..];
  }

  /** Reordering keeps every label once, with its count. */
  lemma MostCommonKeepsCounts(cs: seq<(string, nat)>, labels: seq<string>)
    requires forall i, j :: 0 <= i < j < |cs| ==> cs[i].0 != cs[j].0
    requires forall i :: 0 <= i < |cs| ==> cs[i].1 == multiset(labels)[cs[i].0]
    ensures var g := MostCommon(cs);
      && (forall i, j :: 0 <= i < j < |g| ==> g[i].0 != g[j].0)
      && (forall i :: 0 <= i < |g| ==> g[i].1 == multiset(labels)[g[i].0])
  {
    var g := MostCommon(cs);
    forall i | 0 <= i < |g|
      ensures exists k :: 0 <= k < |cs| && cs[k] == g[i]
    {
      assert g[i] in multiset(cs);
    }
    forall i, j | 0 <= i < j < |g|
      ensures g[i].0 != g[j].0
    {
      var a :| 0 <= a < |cs| && cs[a] == g[i];
      var b :| 0 <= b < |cs| && cs[b] == g[j];
      if a == b {
        TwoPositions(g, i, j);
        DistinctEntriesOnce(cs, g[i]);
      }
    }
  }
}

=== FILE: synth_recovery.dfy ===
/** `try_parse_json` (scripts/generate_synthetic_plans.py): recover one JSON object from a
    transcript. Parse the stripped text whole; else collect every complete top-level
    object with the quote-aware scanner, keep those at or after the last `assistant` when
    there are any, and take the longest that parses; else repair and parse. `parse` is
    `json.loads` (`None` when it raises) and `repair` is `json_repair.repair_json` (`None`
    when it is missing or raises). */
module SynthRecovery {
  import opened Wrappers
  import opened Text
  import opened Json
  import opened Seqs
  import opened Scanner
  import opened Recovery
  import opened Budget

  type Parser = string -> Option<JsonValue>
  type Repairer = string -> Option<string>

  /** The text of a span; spans of `s` always lie inside it (the contract of `Spans`). */
  function Chunk(s: string, c: Span): string {
    if 0 <= c.start <= c.end <= |s| then s[c.start..c.end] else ""
  }

  /** The spans starting at or after `lo`, in order. */
  function AtOrAfter(sp: seq<Span>, lo: int): (r: seq<Span>)
    ensures IsSubseq(r, sp)
    ensures forall k :: 0 <= k < |r| ==> r[k].start >= lo
    ensures forall k :: 0 <= k < |sp| && sp[k].start >= lo ==> sp[k] in r
    ensures (forall k :: 0 <= k < |sp| ==> sp[k].start < lo) ==> r == []
  {
    if |sp| == 0 then []
    else
      var init := AtOrAfter(sp[..|sp| - 1], lo);
      var c := sp[|sp| - 1];
      assert sp == sp[..|sp| - 1] + [c];
      if c.start >= lo then
        SubseqKeep(init, sp[..|sp| - 1], c);
        init + [c]
      else
        SubseqSkip(init, sp[..|sp| - 1], c);
        init
  }

  /** Where the scoped candidates begin: the last `assistant` in any case, else 0. */
  function Anchor(s: string): int {
    var a := LastIndexOf(Lower(s), "assistant");
    if a != -1 then a else 0
  }

  /** The candidates considered: the spans at or after the anchor when there are any, else
      every span. */
  function Candidates(s: string): seq<Span> {
    var scoped := AtOrAfter(Spans(s), Anchor(s));
    if |scoped| > 0 then scoped else Spans(s)
  }

  /** Anchoring: when some object starts at or after the last `assistant`, every candidate
      does, and none of those objects is dropped; otherwise every object is a candidate. */
  lemma CandidatesAnchored(s: string)
    ensures (exists k :: 0 <= k < |Spans(s)| && Spans(s)[k].start >= Anchor(s)) ==>
      && (forall k :: 0 <= k < |Candidates(s)| ==> Candidates(s)[k].start >= Anchor(s))
      && (forall k :: 0 <= k < |Spans(s)| && Spans(s)[k].start >= Anchor(s) ==>
            Spans(s)[k] in Candidates(s))
      && IsSubseq(Candidates(s), Spans(s))
    ensures (forall k :: 0 <= k < |Spans(s)| ==> Spans(s)[k].start < Anchor(s)) ==>
      Candidates(s) == Spans(s)
  {
    if exists k :: 0 <= k < |Spans(s)| && Spans(s)[k].start >= Anchor(s) {
      var k :| 0 <= k < |Spans(s)| && Spans(s)[k].start >= Anchor(s);
      assert Spans(s)[k] in AtOrAfter(Spans(s), Anchor(s));
    }
  }

  /** Candidate `k` parses. */
  predicate Parses(s: string, cs: seq<Span>, parse: Parser, k: int) {
    0 <= k < |cs| && parse(Chunk(s, cs[k])).Some?
  }

  /** Candidate `k` is the one step 4 picks: it parses, no parsing candidate is longer, and
      every earlier parsing candidate is strictly shorter (ties go to the first). */
  predicate IsBest(s: string, cs: seq<Span>, parse: Parser, k: int) {
    && Parses(s, cs, parse, k)
    && (forall j :: 0 <= j < |cs| && Parses(s, cs, parse, j) ==>
          |Chunk(s, cs[j])| <= |Chunk(s, cs[k])|)
    && (forall j :: 0 <= j < k && Parses(s, cs, parse, j) ==>
          |Chunk(s, cs[j])| < |Chunk(s, cs[k])|)
  }

  /** The pick is determined: at most one candidate is the best. */
  lemma BestUnique(s: string, cs: seq<Span>, parse: Parser, k1: int, k2: int)
    requires IsBest(s, cs, parse, k1) && IsBest(s, cs, parse, k2)
    ensures k1 == k2
  {
    assert |Chunk(s, cs[k1])| == |Chunk(s, cs[k2])|;
  }

  /** The scanning loop of step 2, collecting every complete top-level object. */
  method CollectSpans(s: string) returns (cands: seq<Span>)
    ensures cands == Spans(s)
  {
    cands := [];
    var inStr := false;
    var esc := false;
    var depth: nat := 0;
    var start := -1;
    var i := 0;
    while i < |s|
      invariant 0 <= i <= |s|
      invariant ScanTo(s, i) == ScanState(inStr, esc, depth, start, cands)
    {
      var ch := s[i];
      if inStr {
        if esc {
          esc := false;
        } else if ch == '\\' {
          esc := true;
        } else if ch == '"' {
          inStr := false;
        }
      } else {
        if ch == '"' {
          inStr := true;
        } else if ch == '{' {
          if depth == 0 {
            start := i;
          }
          depth := depth + 1;
        } else if ch == '}' {
          if depth > 0 {
            depth := depth - 1;
            if depth == 0 && start != -1 {
              cands := cands + [Span(start, i + 1)];
              start := -1;
            }
          }
        }
      }
      i := i + 1;
    }
  }

  /** Step 4: the candidate with the longest text that parses, the first on a tie. */
  method SelectBest(s: string, cs: seq<Span>, parse: Parser) returns (best: Option<nat>)
    ensures best.Some? ==> IsBest(s, cs, parse, best.value)
    ensures best.None? ==> forall j :: !Parses(s, cs, parse, j)
  {
    best := None;
    var i := 0;
    while i < |cs|
      invariant 0 <= i <= |cs|
      invariant best.Some? ==> best.value < i && Parses(s, cs, parse, best.value)
      invariant best.Some? ==> forall j :: j < i && Parses(s, cs, parse, j) ==>
        |Chunk(s, cs[j])| <= |Chunk(s, cs[best.value])|
      invariant best.Some? ==> forall j :: j < best.value && Parses(s, cs, parse, j) ==>
        |Chunk(s, cs[j])| < |Chunk(s, cs[best.value])|
      invariant best.None? ==> forall j :: j < i ==> !Parses(s, cs, parse, j)
    {
      var chunk := Chunk(s, cs[i]);
      var obj := parse(chunk);
      if obj.Some? && (best.None? || |chunk| > |Chunk(s, cs[best.value])|) {
        best := Some(i);
      }
      i := i + 1;
    }
  }

  /** `json.loads(repair_json(t))`, `None` when either raises. */
  function RepairThenParse(t: string, parse: Parser, repair: Repairer): Option<JsonValue> {
    match repair(t)
    case Some(fixed) => parse(fixed)
    case None => None
  }

  /** The lengths of the candidates' texts. */
  function ChunkLengths(s: string, cs: seq<Span>): (ls: seq<int>)
    ensures |ls| == |cs|
    ensures forall j :: 0 <= j < |cs| ==> ls[j] == |Chunk(s, cs[j])|
  {
    seq(|cs|, j requires 0 <= j < |cs| => |Chunk(s, cs[j])|)
  }

  /** What step 3 to 5 return from the candidates `cs`: the longest candidate that parses
      (the first on a tie) when one parses, else the repair of the first longest one. */
  ghost predicate PickedFrom(s: string, cs: seq<Span>, parse: Parser, repair: Repairer,
                             r: Option<JsonValue>) {
    && ((exists k :: Parses(s, cs, parse, k)) ==>
          exists k :: IsBest(s, cs, parse, k) && r == parse(Chunk(s, cs[k])))
    && (|cs| > 0 && (forall k :: !Parses(s, cs, parse, k)) ==>
          r == RepairThenParse(Chunk(s, cs[ArgMax(ChunkLengths(s, cs))]), parse, repair))
  }

  /** What the last-ditch step returns when there are no candidates: the repair of the
      slice from the first `{` to the last `}`, else nothing. */
  function NaiveFallback(s: string, parse: Parser, repair: Repairer): Option<JsonValue> {
    match FirstJsonBlock(s)
    case Some(b) => RepairThenParse(b, parse, repair)
    case None => None
  }

  /** `try_parse_json`. */
  method TryParseJson(txt: string, parse: Parser, repair: Repairer) returns (r: Option<JsonValue>)
    ensures var s := Strip(txt);
      && (parse(s).Some? ==> r == parse(s))
      && (parse(s).None? && |Spans(s)| == 0 ==> r == NaiveFallback(s, parse, repair))
      && (parse(s).None? && |Spans(s)| > 0 ==> PickedFrom(s, Candidates(s), parse, repair, r))
  {
    var s := Strip(txt);
    var whole := parse(s);
    if whole.Some? {
      return whole;
    }
    var cands := CollectSpans(s);
    if |cands| == 0 {
      r := RepairNaiveSlice(s, parse, repair);
      return;
    }
    var anchor := LastIndexOf(Lower(s), "assistant");
    var scoped := AtOrAfter(cands, if anchor != -1 then anchor else 0);
    if |scoped| > 0 {
      cands := scoped;
    }
    assert cands == Candidates(s);
    r := PickCandidate(s, cands, parse, repair);
  }

  /** Step 5 without candidates: repair the slice from the first `{` to the last `}`. */
  method RepairNaiveSlice(s: string, parse: Parser, repair: Repairer)
    returns (r: Option<JsonValue>)
    ensures r == NaiveFallback(s, parse, repair)
  {
    var i1 := FindChar(s, '{');
    var i2 := RFindChar(s, '}');
    assert FirstJsonBlock(s) == if i1 != -1 && i2 != -1 && i2 > i1 then Some(s[i1..i2 + 1]) else None;
    if i1 != -1 && i2 != -1 && i2 > i1 {
      return RepairThenParse(s[i1..i2 + 1], parse, repair);
    }
    return None;
  }

  /** Steps 4 and 5: the longest candidate that parses, else the repair of the first
      longest candidate. */
  method PickCandidate(s: string, cs: seq<Span>, parse: Parser, repair: Repairer)
    returns (r: Option<JsonValue>)
    requires |cs| > 0
    ensures PickedFrom(s, cs, parse, repair, r)
  {
    var best := SelectBest(s, cs, parse);
    if best.Some? {
      return parse(Chunk(s, cs[best.value]));
    }
    var longest := ArgMax(ChunkLengths(s, cs));
    return RepairThenParse(Chunk(s, cs[longest]), parse, repair);
  }

  /** The repair fallback works on the first longest candidate. */
  lemma LongestCandidate(s: string, cs: seq<Span>)
    requires |cs| > 0
    ensures var k := ArgMax(ChunkLengths(s, cs));
      && (forall j :: 0 <= j < |cs| ==> |Chunk(s, cs[j])| <= |Chunk(s, cs[k])|)
      && (forall j :: 0 <= j < k ==> |Chunk(s, cs[j])| < |Chunk(s, cs[k])|)
  {
  }
}

=== FILE: synth_schema.dfy ===
/** The training-data side of plan normalisation (scripts/generate_synthetic_plans.py):
    `normalize_plan`, which rescales a `[[label, weight]]` budget, and `normalize_to_schema`,
    which brings a generated plan into the schema the fine-tuning data uses. Both differ in
    small ways from the serving-side transformer in module `Align`; the differences are
    spelled out below. */
module SynthSchema {
  import opened Wrappers
  import opened Text
  import opened Json
  import opened Rounding
  import opened Seqs
  import opened Budget
  import opened Align

  // ---------------------------------------------------------------- `normalize_plan`

  /** `round(x[1]/s, 2)` is applied to every two-element entry, not only to the numeric
      pairs that were summed; so once the sum is positive, each entry must have a length and
      each entry of length two must be a list with a number second (a two-key dict raises
      `KeyError`, a two-character string `TypeError`). */
  predicate PlanBudgetUsable(items: seq<JsonValue>) {
    SumReals(Values(NumericPairs(items))) > 0.0 ==>
      forall j :: 0 <= j < |items| ==>
        && PyLen(items[j]).Some?
        && (PyLen(items[j]) == Some(2) ==> items[j].JArr? && IsNumber(items[j].items[1]))
  }

  predicate PlanUsable(p: Fields) {
    Lookup(p, "budget_split").Some? && Lookup(p, "budget_split").value.JArr? ==>
      PlanBudgetUsable(Lookup(p, "budget_split").value.items)
  }

  /** The rescaled rows: every entry of length two, its weight over `s` in hundredths. */
  function PlanRows(items: seq<JsonValue>, s: real): (rows: seq<JsonValue>)
    requires s != 0.0
    requires forall j :: 0 <= j < |items| && PyLen(items[j]) == Some(2) ==>
      items[j].JArr? && IsNumber(items[j].items[1])
    ensures |rows| <= |items|
  {
    if |items| == 0 then []
    else
      var init := PlanRows(items[..|items| - 1], s);
      var x := items[|items| - 1];
      if PyLen(x) == Some(2) then
        init + [SplitRow(x.items[0], Hundredths(NumValue(x.items[1]) / s))]
      else init
  }

  /** `normalize_plan`: a list budget whose numeric pairs have a positive sum `s` becomes
      `[[x[0], round(x[1]/s, 2)]]` over its two-element entries; everything else is left
      alone. */
  function NormalizePlan(p: Fields): (r: Fields)
    requires PlanUsable(p)
    ensures forall k :: k != "budget_split" ==> Lookup(r, k) == Lookup(p, k)
    ensures !(Lookup(p, "budget_split").Some? && Lookup(p, "budget_split").value.JArr?) ==> r == p
    ensures Lookup(p, "budget_split").Some? && Lookup(p, "budget_split").value.JArr?
      && SumReals(Values(NumericPairs(Lookup(p, "budget_split").value.items))) <= 0.0
      ==> r == p
  {
    match Lookup(p, "budget_split")
    case Some(JArr(items)) =>
      var s := SumReals(Values(NumericPairs(items)));
      if s > 0.0 then Put(p, "budget_split", JArr(PlanRows(items, s))) else p
    case _ => p
  }

  /** Under its own precondition `normalize_plan` computes exactly what the serving side's
      `normalize_budget_split` does, although it rescales every two-element entry where the
      other rescales only the numeric pairs it summed. */
  lemma NormalizePlanAgrees(p: Fields)
    requires PlanUsable(p)
    ensures NormalizePlan(p) == NormalizeBudgetSplit(p)
  {
    match Lookup(p, "budget_split")
    case Some(JArr(items)) =>
      var ps := NumericPairs(items);
      var s := SumReals(Values(ps));
      if s > 0.0 {
        PlanRowsArePairRows(items, s);
      }
    case _ =>
  }

  /** When every two-element entry is a numeric pair, the rescaled rows are the numeric
      pairs with their shares. */
  lemma {:induction false} PlanRowsArePairRows(items: seq<JsonValue>, s: real)
    requires s != 0.0
    requires forall j :: 0 <= j < |items| && PyLen(items[j]) == Some(2) ==>
      items[j].JArr? && IsNumber(items[j].items[1])
    ensures PlanRows(items, s)
      == SplitRows(Zip(Labels(NumericPairs(items)), Shares(Values(NumericPairs(items)), s)))
    decreases |items|
  {
    var ps := NumericPairs(items);
    if |items| > 0 {
      var n := |items| - 1;
      var init := items[..n];
      PlanRowsArePairRows(init, s);
      var pi := NumericPairs(init);
      var x := items[n];
      if PyLen(x) == Some(2) {
        assert ps == pi + [(x.items[0], NumValue(x.items[1]))];
        RowsOfPairsAppend(pi, (x.items[0], NumValue(x.items[1])), s);
      } else {
        assert ps == pi;
      }
    }
  }

  /** Rescaled rows of pairs extend pair by pair. */
  lemma RowsOfPairsAppend(ps: seq<(JsonValue, real)>, p: (JsonValue, real), s: real)
    requires s != 0.0
    ensures SplitRows(Zip(Labels(ps + [p]), Shares(Values(ps + [p]), s)))
      == SplitRows(Zip(Labels(ps), Shares(Values(ps), s))) + [SplitRow(p.0, Hundredths(p.1 / s))]
  {
    var qs := ps + [p];
    assert forall j :: 0 <= j < |ps| ==> qs[j] == ps[j];
  }

  // ---------------------------------------------------------------- `_default_activation_for`

  const InfluencerActivation := "Creators produce seeded content"
  const OutdoorActivation := "Billboards / OOH placements"

  /** The training data's `_default_activation_for`: Facebook, Instagram and TikTok by
      substring, LINE only for the exact names `line`, `line oa` and `line official
      account`, then influencers and outdoor; the same generic fallback. */
  function SynthActivation(name: string): (r: string)
    ensures var n := Lower(name);
      && (r == FacebookActivation <==> Contains(n, "facebook"))
      && (r == InstagramActivation <==> !Contains(n, "facebook") && Contains(n, "instagram"))
      && (r == TikTokActivation <==>
            !Contains(n, "facebook") && !Contains(n, "instagram") && Contains(n, "tiktok"))
      && (r == LineActivation <==>
            !Contains(n, "facebook") && !Contains(n, "instagram") && !Contains(n, "tiktok")
            && (n == "line" || n == "line oa" || n == "line official account"))
      && (r == InfluencerActivation <==>
            !Contains(n, "facebook") && !Contains(n, "instagram") && !Contains(n, "tiktok")
            && n != "line" && n != "line oa" && n != "line official account"
            && Contains(n, "influencer"))
      && (r == OutdoorActivation <==>
            !Contains(n, "facebook") && !Contains(n, "instagram") && !Contains(n, "tiktok")
            && n != "line" && n != "line oa" && n != "line official account"
            && !Contains(n, "influencer") && (Contains(n, "outdoor") || Contains(n, "ooh")))
      && (r == GenericActivation <==>
            !Contains(n, "facebook") && !Contains(n, "instagram") && !Contains(n, "tiktok")
            && n != "line" && n != "line oa" && n != "line official account"
            && !Contains(n, "influencer") && !Contains(n, "outdoor") && !Contains(n, "ooh"))
  {
    var n := Lower(name);
    if Contains(n, "facebook") then FacebookActivation
    else if Contains(n, "instagram") then InstagramActivation
    else if Contains(n, "tiktok") then TikTokActivation
    else if n == "line" || n == "line oa" || n == "line official account" then LineActivation
    else if Contains(n, "influencer") then InfluencerActivation
    else if Contains(n, "outdoor") || Contains(n, "ooh") then OutdoorActivation
    else GenericActivation
  }

  /** The two activation tables disagree: the serving side gives any name containing
      `line` (here `Online`) the LINE activation, the training data the generic one; and a
      LINE name that also mentions Facebook is LINE on the serving side only. */
  lemma ActivationTablesDiffer()
    ensures DefaultActivation("Online") == LineActivation
    ensures SynthActivation("Online") == GenericActivation
    ensures DefaultActivation("LINE + Facebook") == LineActivation
    ensures SynthActivation("LINE + Facebook") == FacebookActivation
  {
    OnlineActivations();
    LineFacebookActivations();
  }

  lemma OnlineActivations()
    ensures DefaultActivation("Online") == LineActivation
    ensures SynthActivation("Online") == GenericActivation
  {
    OnlineServing();
    OnlineSynth();
  }

  lemma OnlineServing()
    ensures DefaultActivation("Online") == LineActivation
  {
    assert Lower("Online") == "online";
    assert OccursAt(Lower("Online"), "line", 2);
  }

  lemma OnlineSynth()
    ensures SynthActivation("Online") == GenericActivation
  {
    var low := Lower("Online");
    assert low == "online";
    assert OccursAt(low, "line", 2);
    forall i
      ensures !OccursAt(low, "ooh", i)
    {
      if 0 <= i <= 3 {
        assert low[i..i + 3][0] == low[i] && low[i..i + 3][1] == low[i + 1];
      }
    }
  }

  lemma LineFacebookActivations()
    ensures DefaultActivation("LINE + Facebook") == LineActivation
    ensures SynthActivation("LINE + Facebook") == FacebookActivation
  {
    assert OccursAt(Lower("LINE + Facebook"), "line", 0);
    assert OccursAt(Lower("LINE + Facebook"), "facebook", 7);
  }

  // ---------------------------------------------------------------- assets

  /** One asset: a string stays; an object becomes `"type: format"` (type before name,
      format before description), stripped of colons and spaces, else its type; anything
      else is skipped. Any value may be formatted, so nothing here can raise. Text whose
      ends carry no colon or space reads as `"type: format"`, or the type alone when the
      format is empty. */
  function SynthAssetText(a: JsonValue, show: Show): (r: Option<JsonValue>)
    ensures a.JStr? ==> r == Some(a)
    ensures r.Some? <==> a.JStr? || a.JObj?
    ensures a.JObj? ==> r.value.JStr? || r.value == FirstTruthy(a.fields, ["type", "name"], JStr("Asset"))
    ensures a.JObj? ==>
      var t := FirstTruthy(a.fields, ["type", "name"], JStr("Asset"));
      var f := FirstTruthy(a.fields, ["format", "description"], JStr(""));
      t.JStr? && f.JStr? && CleanAsset(t.s, f.s) ==> r == Some(JStr(AssetLine(t.s, f.s)))
  {
    match a
    case JStr(_) => Some(a)
    case JObj(m) =>
      var t := FirstTruthy(m, ["type", "name"], JStr("Asset"));
      var f := FirstTruthy(m, ["format", "description"], JStr(""));
      var s := Strip(StripChars(PyStr(t, show) + ": " + PyStr(f, show), {':', ' '}));
      SynthJoinClean(t, f, show);
      Some(if |s| > 0 then JStr(s) else t)
    case _ => None
  }

  /** Text whose ends carry no colon or space survives the stripping as `"type: format"`. */
  lemma SynthJoinClean(t: JsonValue, f: JsonValue, show: Show)
    ensures t.JStr? && f.JStr? && CleanAsset(t.s, f.s) ==>
      Strip(StripChars(PyStr(t, show) + ": " + PyStr(f, show), {':', ' '})) == AssetLine(t.s, f.s)
  {
    if t.JStr? && f.JStr? && CleanAsset(t.s, f.s) {
      JoinAssetReads(t.s, f.s);
    }
  }

  /** The asset loop: one text per string or object entry, in order. */
  function SynthAssets(items: seq<JsonValue>, show: Show): (r: seq<JsonValue>)
    ensures |r| <= |items|
    ensures var kept := Filter(items, IsStrOrObj);
      && |r| == |kept|
      && forall k :: 0 <= k < |r| ==> Some(r[k]) == SynthAssetText(kept[k], show)
  {
    var f := (a: JsonValue) => SynthAssetText(a, show);
    CollectImage(items, f, IsStrOrObj);
    Collect(items, f)
  }

  /** A list of strings passes through unchanged. */
  lemma SynthAssetsKeepStrings(items: seq<JsonValue>, show: Show)
    requires AllStrings(items)
    ensures SynthAssets(items, show) == items
  {
    var r := SynthAssets(items, show);
    forall j | 0 <= j < |items|
      ensures IsStrOrObj(items[j])
    {
    }
    FilterAll(items, IsStrOrObj);
    forall j | 0 <= j < |r|
      ensures r[j] == items[j]
    {
      assert Some(r[j]) == SynthAssetText(items[j], show);
    }
  }

  // ---------------------------------------------------------------- budget_split

  /** `k in d and isinstance(d[k], (int, float))`. */
  predicate HasNumber(m: Fields, k: string) {
    HasKey(m, k) && IsNumber(GetOr(m, k, JNull))
  }

  /** Objects with a numeric `percentage`. */
  predicate PercEntry(it: JsonValue) {
    it.JObj? && HasNumber(it.fields, "percentage")
  }

  /** `[label, number]` lists, and objects without a numeric `percentage` but with a
      numeric `allocation`. */
  predicate AmountEntry(it: JsonValue) {
    || (it.JArr? && |it.items| == 2 && IsNumber(it.items[1]))
    || (it.JObj? && !HasNumber(it.fields, "percentage") && HasNumber(it.fields, "allocation"))
  }

  function PercPair(it: JsonValue): Option<(JsonValue, real)> {
    if PercEntry(it) then
      Some((BudgetLabel(it.fields), NumValue(GetOr(it.fields, "percentage", JNull)) / 100.0))
    else None
  }

  /** The `percentage` entries, in order, as (label, percentage / 100); other entries give
      nothing. */
  function PercPairs(items: seq<JsonValue>): (ps: seq<(JsonValue, real)>)
    ensures var kept := Filter(items, PercEntry);
      && |ps| == |kept|
      && forall k :: 0 <= k < |ps| ==>
           && kept[k].JObj?
           && ps[k] == (BudgetLabel(kept[k].fields), NumValue(GetOr(kept[k].fields, "percentage", JNull)) / 100.0)
    ensures (forall j :: 0 <= j < |items| ==> !items[j].JObj?) ==> ps == []
  {
    PercPairsImage(items);
    Collect(items, PercPair)
  }

  lemma PercPairsImage(items: seq<JsonValue>)
    ensures var kept := Filter(items, PercEntry);
      && |Collect(items, PercPair)| == |kept|
      && forall k :: 0 <= k < |kept| ==>
           && kept[k].JObj?
           && Collect(items, PercPair)[k]
                == (BudgetLabel(kept[k].fields), NumValue(GetOr(kept[k].fields, "percentage", JNull)) / 100.0)
    ensures (forall j :: 0 <= j < |items| ==> !items[j].JObj?) ==> Collect(items, PercPair) == []
  {
    CollectImage(items, PercPair, PercEntry);
    var kept := Filter(items, PercEntry);
    var ps := Collect(items, PercPair);
    forall k | 0 <= k < |kept|
      ensures kept[k].JObj?
      ensures ps[k] == (BudgetLabel(kept[k].fields), NumValue(GetOr(kept[k].fields, "percentage", JNull)) / 100.0)
    {
      assert PercEntry(kept[k]);
      assert Some(ps[k]) == PercPair(kept[k]);
    }
    if |kept| > 0 {
      FilterFrom(items, PercEntry);
      assert kept[0] in items;
    }
  }

  function AmountPair(it: JsonValue, show: Show): Option<(JsonValue, real)> {
    if it.JArr? && |it.items| == 2 && IsNumber(it.items[1]) then
      Some((JStr(PyStr(it.items[0], show)), NumValue(it.items[1])))
    else if it.JObj? && !HasNumber(it.fields, "percentage") && HasNumber(it.fields, "allocation") then
      Some((BudgetLabel(it.fields), NumValue(GetOr(it.fields, "allocation", JNull))))
    else None
  }

  /** The amount entries, in order: a `[label, number]` list as `(str(label), number)`, an
      object as (label, allocation); other entries give nothing. */
  function AmountPairs(items: seq<JsonValue>, show: Show): (ps: seq<(JsonValue, real)>)
    ensures var kept := Filter(items, AmountEntry);
      && |ps| == |kept|
      && (forall k :: 0 <= k < |ps| && kept[k].JArr? ==>
            ps[k] == (JStr(PyStr(kept[k].items[0], show)), NumValue(kept[k].items[1])))
      && (forall k :: 0 <= k < |ps| && kept[k].JObj? ==>
            ps[k] == (BudgetLabel(kept[k].fields), NumValue(GetOr(kept[k].fields, "allocation", JNull))))
    ensures (forall j :: 0 <= j < |items| ==> AmountEntry(items[j])) ==> |ps| == |items|
  {
    AmountPairsImage(items, show);
    Collect(items, (it: JsonValue) => AmountPair(it, show))
  }

  lemma AmountPairsImage(items: seq<JsonValue>, show: Show)
    ensures var kept := Filter(items, AmountEntry);
      var ps := Collect(items, (it: JsonValue) => AmountPair(it, show));
      && |ps| == |kept|
      && (forall k :: 0 <= k < |ps| && kept[k].JArr? ==>
            ps[k] == (JStr(PyStr(kept[k].items[0], show)), NumValue(kept[k].items[1])))
      && (forall k :: 0 <= k < |ps| && kept[k].JObj? ==>
            ps[k] == (BudgetLabel(kept[k].fields), NumValue(GetOr(kept[k].fields, "allocation", JNull))))
      && ((forall j :: 0 <= j < |items| ==> AmountEntry(items[j])) ==> |ps| == |items|)
  {
    var f := (it: JsonValue) => AmountPair(it, show);
    CollectImage(items, f, AmountEntry);
    FilterAllWhen(items, AmountEntry);
    var kept := Filter(items, AmountEntry);
    var ps := Collect(items, f);
    forall k | 0 <= k < |ps|
      ensures kept[k].JArr? ==>
        ps[k] == (JStr(PyStr(kept[k].items[0], show)), NumValue(kept[k].items[1]))
      ensures kept[k].JObj? ==>
        ps[k] == (BudgetLabel(kept[k].fields), NumValue(GetOr(kept[k].fields, "allocation", JNull)))
    {
      assert AmountEntry(kept[k]);
      assert Some(ps[k]) == AmountPair(kept[k], show);
    }
  }

  /** `round(v / s, 2)` in hundredths with `s = sum(...) or 1.0`: a zero sum divides by one. */
  function ScaledShares(ps: seq<(JsonValue, real)>): (h: seq<int>)
    ensures |h| == |ps|
  {
    var s := SumReals(Values(ps));
    Shares(Values(ps), if s == 0.0 then 1.0 else s)
  }

  /** With a non-zero sum the shares add up to one, give or take half a hundredth each; with
      non-negative weights and a positive sum each lies between 0 and 1. No drift correction
      follows, unlike the serving side. */
  lemma ScaledSharesNear(ps: seq<(JsonValue, real)>)
    requires SumReals(Values(ps)) != 0.0
    ensures 2 * (SumInts(ScaledShares(ps)) - 100) <= |ps|
    ensures 2 * (100 - SumInts(ScaledShares(ps))) <= |ps|
    ensures (forall j :: 0 <= j < |ps| ==> ps[j].1 >= 0.0) ==>
      forall j :: 0 <= j < |ps| ==> 0 <= ScaledShares(ps)[j] <= 100
  {
    var ws := Values(ps);
    SharesSumNear(ws, SumReals(ws));
    if forall j :: 0 <= j < |ps| ==> ps[j].1 >= 0.0 {
      SumRealsNonneg(ws);
      forall j | 0 <= j < |ps|
        ensures 0 <= ScaledShares(ps)[j] <= 100
      {
        SharesInRange(ws, SumReals(ws), j);
      }
    }
  }

  function ScaledRows(ps: seq<(JsonValue, real)>): (rows: seq<JsonValue>)
    ensures |rows| == |ps|
  {
    SplitRows(Zip(Labels(ps), ScaledShares(ps)))
  }

  /** The new `budget_split`: percentage entries win over amounts; an empty or non-list
      budget, or one with no usable entries, becomes `[]`. */
  function SynthBudget(bs: JsonValue, show: Show): (rows: seq<JsonValue>)
    ensures !bs.JArr? ==> rows == []
    ensures bs.JArr? && |PercPairs(bs.items)| > 0 ==> rows == ScaledRows(PercPairs(bs.items))
    ensures bs.JArr? && |PercPairs(bs.items)| == 0 ==> rows == ScaledRows(AmountPairs(bs.items, show))
  {
    if !bs.JArr? || |bs.items| == 0 then []
    else
      var perc := PercPairs(bs.items);
      if |perc| > 0 then ScaledRows(perc) else ScaledRows(AmountPairs(bs.items, show))
  }

  /** Settled rows read back as amount pairs, and there are no percentage entries. */
  lemma AmountPairsOfRows(rp: seq<(JsonValue, int)>, show: Show)
    requires SettledRows(rp)
    ensures PercPairs(SplitRows(rp)) == []
    ensures |AmountPairs(SplitRows(rp), show)| == |rp|
    ensures forall j :: 0 <= j < |rp| ==>
      AmountPairs(SplitRows(rp), show)[j] == (rp[j].0, rp[j].1 as real / 100.0)
  {
    var rows := SplitRows(rp);
    SplitRowsAreNumberRows(rp, show);
    assert forall j :: 0 <= j < |rows| ==> !rows[j].JObj?;
    AmountsOfSplitRows(rp, show);
  }

  lemma AmountsOfSplitRows(rp: seq<(JsonValue, int)>, show: Show)
    requires SettledRows(rp)
    ensures |AmountPairs(SplitRows(rp), show)| == |rp|
    ensures forall j :: 0 <= j < |rp| ==>
      AmountPairs(SplitRows(rp), show)[j] == (rp[j].0, rp[j].1 as real / 100.0)
  {
    var rows := SplitRows(rp);
    SplitRowsAreNumberRows(rp, show);
    AmountPairsOfNumberRows(rows, show);
    var ps := AmountPairs(rows, show);
    forall j | 0 <= j < |rp|
      ensures ps[j] == (rp[j].0, rp[j].1 as real / 100.0)
    {
      assert ps[j] == (JStr(PyStr(rows[j].items[0], show)), NumValue(rows[j].items[1]));
    }
  }

  /** Settled rows are `[label, number]` lists whose label prints as itself and whose number
      is the share in hundredths. */
  lemma SplitRowsAreNumberRows(rp: seq<(JsonValue, int)>, show: Show)
    requires SettledRows(rp)
    ensures forall j :: 0 <= j < |rp| ==>
      && SplitRows(rp)[j].JArr? && |SplitRows(rp)[j].items| == 2
      && IsNumber(SplitRows(rp)[j].items[1])
      && JStr(PyStr(SplitRows(rp)[j].items[0], show)) == rp[j].0
      && NumValue(SplitRows(rp)[j].items[1]) == rp[j].1 as real / 100.0
  {
    var rows := SplitRows(rp);
    forall j | 0 <= j < |rp|
      ensures rows[j].JArr? && |rows[j].items| == 2 && IsNumber(rows[j].items[1])
      ensures JStr(PyStr(rows[j].items[0], show)) == rp[j].0
      ensures NumValue(rows[j].items[1]) == rp[j].1 as real / 100.0
    {
      assert rows[j] == SplitRow(rp[j].0, rp[j].1);
    }
  }

  /** When every entry is a `[label, number]` row, `AmountPairs` reads each row's label as
      text and its number as the amount, entry by entry. */
  lemma AmountPairsOfNumberRows(items: seq<JsonValue>, show: Show)
    requires forall j :: 0 <= j < |items| ==>
      items[j].JArr? && |items[j].items| == 2 && IsNumber(items[j].items[1])
    ensures |AmountPairs(items, show)| == |items|
    ensures forall j :: 0 <= j < |items| ==>
      AmountPairs(items, show)[j]
        == (JStr(PyStr(items[j].items[0], show)), NumValue(items[j].items[1]))
  {
    assert forall j :: 0 <= j < |items| ==> AmountEntry(items[j]);
    FilterAll(items, AmountEntry);
  }

  /** A settled budget passes through unchanged. */
  lemma SynthBudgetFixedPoint(rp: seq<(JsonValue, int)>, show: Show)
    requires SettledBudget(rp)
    ensures SynthBudget(JArr(SplitRows(rp)), show) == SplitRows(rp)
  {
    if |rp| > 0 {
      AmountPairsOfRows(rp, show);
      var ps := AmountPairs(SplitRows(rp), show);
      var hs := Values(rp);
      SharesOfHundredths(Values(ps), hs);
      assert ScaledShares(ps) == hs;
      assert Zip(Labels(ps), hs) == rp;
    }
  }

  // ---------------------------------------------------------------- channels

  const SynthMetricKeys: seq<string> := ["reach", "ctr", "cpl", "redemption", "membership_signup"]

  /** `name.lower()` runs only when there is no truthy `activation`, and needs a string. */
  predicate SynthChannelUsable(ch: JsonValue) {
    ch.JObj? && !Truthy(GetOr(ch.fields, "activation", JNull)) ==>
      FirstTruthy(ch.fields, ["name", "channel"], JStr("Channel")).JStr?
  }

  /** One channel: an object keeps its name (or `channel`, or `"Channel"`), its activation
      (or the default for its name; `description` is not consulted) and its `kpis` when
      truthy, else a fresh object of the five basic metrics found on the channel; a string
      `s` becomes `{s, default activation, {}}`; anything else is skipped. */
  function SynthChannel(ch: JsonValue): (r: Option<JsonValue>)
    requires SynthChannelUsable(ch)
    ensures r.Some? <==> ch.JStr? || ch.JObj?
    ensures r.Some? ==> NormalChannel(r.value) && Truthy(ChannelActivation(r.value))
    ensures ch.JStr? ==> r == Some(ChannelObj(ch, JStr(SynthActivation(ch.s)), JObj([])))
    ensures ch.JObj? ==> Truthy(ChannelName(r.value))
    ensures ch.JObj? ==> ChannelName(r.value) == FirstTruthy(ch.fields, ["name", "channel"], JStr("Channel"))
    ensures ch.JObj? ==>
      var given := GetOr(ch.fields, "activation", JNull);
      ChannelActivation(r.value) ==
        if Truthy(given) then given else JStr(SynthActivation(ChannelName(r.value).s))
  {
    match ch
    case JStr(s) => Some(ChannelObj(ch, JStr(SynthActivation(s)), JObj([])))
    case JObj(m) =>
      var name := FirstTruthy(m, ["name", "channel"], JStr("Channel"));
      var given := GetOr(m, "activation", JNull);
      var act := if Truthy(given) then given else JStr(SynthActivation(name.s));
      var kpis := GetOr(m, "kpis", JNull);
      var kpis' := if Truthy(kpis) then kpis else JObj(CopyMetrics(m, SynthMetricKeys));
      Some(ChannelObj(name, act, kpis'))
    case _ => None
  }

  /** A truthy `kpis` is kept as it is, whatever its type; otherwise the channel gets a
      fresh object holding exactly the basic metrics found on the channel. */
  lemma SynthChannelKpis(ch: JsonValue)
    requires ch.JObj? && SynthChannelUsable(ch)
    ensures Truthy(GetOr(ch.fields, "kpis", JNull)) ==>
      Lookup(ch.fields, "kpis") == Some(ChannelKpisOf(SynthChannel(ch).value))
    ensures !Truthy(GetOr(ch.fields, "kpis", JNull)) ==>
      && ChannelKpisOf(SynthChannel(ch).value).JObj?
      && (forall k :: HasKey(ChannelKpisOf(SynthChannel(ch).value).fields, k)
            <==> k in SynthMetricKeys && HasKey(ch.fields, k))
      && (forall k :: HasKey(ChannelKpisOf(SynthChannel(ch).value).fields, k)
            ==> Lookup(ChannelKpisOf(SynthChannel(ch).value).fields, k) == Lookup(ch.fields, k))
  {
  }

  /** `kpis = {}` then `kpis[k] = ch[k]` for each listed key present on the channel. */
  function CopyMetrics(ch: Fields, keys: seq<string>): (r: Fields)
    ensures forall k :: HasKey(r, k) <==> k in keys && HasKey(ch, k)
    ensures forall k :: HasKey(r, k) ==> Lookup(r, k) == Lookup(ch, k)
  {
    HoistMetricsKeys([], ch, keys);
    HoistMetrics([], ch, keys)
  }

  predicate SynthChannelsUsable(v: JsonValue) {
    PyIter(v).Some?
    && forall j :: 0 <= j < |PyIter(v).value| ==> SynthChannelUsable(PyIter(v).value[j])
  }

  /** The channel loop: one channel per string or object entry, in order. */
  function SynthChannels(chs: seq<JsonValue>): (r: seq<JsonValue>)
    requires forall j :: 0 <= j < |chs| ==> SynthChannelUsable(chs[j])
    ensures |r| <= |chs|
    ensures forall j :: 0 <= j < |r| ==> NormalChannel(r[j]) && Truthy(ChannelActivation(r[j]))
    ensures var kept := Filter(chs, IsStrOrObj);
      && |r| == |kept|
      && forall k :: 0 <= k < |r| ==> SynthChannelUsable(kept[k]) && Some(r[k]) == SynthChannel(kept[k])
  {
    CollectImage(chs, SynthChannel, IsStrOrObj);
    FilterFrom(chs, IsStrOrObj);
    Collect(chs, SynthChannel)
  }

  /** A settled channel passes through unchanged. */
  lemma SynthSettledChannel(c: JsonValue)
    requires SettledChannel(c)
    ensures SynthChannelUsable(c) && SynthChannel(c) == Some(c)
  {
    var m := c.fields;
    NormalChannelFields(c);
    var name := FirstTruthy(m, ["name", "channel"], JStr("Channel"));
    assert name == ChannelName(c);
    var k := ChannelKpisOf(c);
    if !Truthy(k) {
      assert k == JObj([]);
      SettledChannelHasNoMetrics(c);
    }
    assert SynthChannelUsable(c);
  }

  /** A settled channel holds only `name`, `activation` and `kpis`, so no basic metric is
      copied from it. */
  lemma SettledChannelHasNoMetrics(c: JsonValue)
    requires SettledChannel(c)
    ensures CopyMetrics(c.fields, SynthMetricKeys) == []
  {
    NormalChannelFields(c);
    var copied := CopyMetrics(c.fields, SynthMetricKeys);
    forall key
      ensures !HasKey(copied, key)
    {
      if key in SynthMetricKeys {
        assert key != "name" && key != "activation" && key != "kpis";
      }
    }
    FirstKeyFound(copied);
  }

  lemma SettledChannelsSynth(cs: seq<JsonValue>)
    requires forall j :: 0 <= j < |cs| ==> SettledChannel(cs[j])
    ensures forall j :: 0 <= j < |cs| ==> SynthChannelUsable(cs[j]) && SynthChannel(cs[j]) == Some(cs[j])
  {
    forall j | 0 <= j < |cs|
      ensures SynthChannelUsable(cs[j]) && SynthChannel(cs[j]) == Some(cs[j])
    {
      SynthSettledChannel(cs[j]);
    }
  }

  lemma SynthChannelsUnchanged(cs: seq<JsonValue>)
    requires forall j :: 0 <= j < |cs| ==> SynthChannelUsable(cs[j])
    requires forall j :: 0 <= j < |cs| ==> SynthChannel(cs[j]) == Some(cs[j])
    ensures SynthChannels(cs) == cs
  {
    var r := SynthChannels(cs);
    forall j | 0 <= j < |cs|
      ensures IsStrOrObj(cs[j])
    {
      assert SynthChannel(cs[j]).Some?;
    }
    FilterAll(cs, IsStrOrObj);
    forall j | 0 <= j < |r|
      ensures r[j] == cs[j]
    {
      assert Some(r[j]) == SynthChannel(cs[j]);
    }
  }

  // ---------------------------------------------------------------- `normalize_to_schema`

  const SynthKeys: set<string> :=
    {"assets", "budget_split", "channels", "concept_title", "big_idea", "key_message",
     "timeline_weeks", "kpis"}

  /** What `normalize_to_schema` needs of its input not to raise. */
  predicate SynthUsable(plan: Fields) {
    SynthChannelsUsable(GetOr(plan, "channels", JArr([])))
  }

  /** Step for `assets`: a list is rebuilt, anything else is left alone. */
  function SynthAssetsStep(plan: Fields, show: Show): (r: Fields)
    ensures forall k :: k != "assets" ==> Lookup(r, k) == Lookup(plan, k)
    ensures Lookup(plan, "assets").Some? && Lookup(plan, "assets").value.JArr? ==>
      Lookup(r, "assets") == Some(JArr(SynthAssets(Lookup(plan, "assets").value.items, show)))
    ensures !(Lookup(plan, "assets").Some? && Lookup(plan, "assets").value.JArr?) ==> r == plan
  {
    var a := Lookup(plan, "assets");
    if a.Some? && a.value.JArr? then Put(plan, "assets", JArr(SynthAssets(a.value.items, show)))
    else plan
  }

  /** Store the new `budget_split`, then the new `channels`. */
  function PutBudgetChannels(plan: Fields, budget: JsonValue, channels: JsonValue): (r: Fields)
    ensures forall k :: k != "budget_split" && k != "channels" ==> Lookup(r, k) == Lookup(plan, k)
    ensures Lookup(r, "budget_split") == Some(budget)
    ensures Lookup(r, "channels") == Some(channels)
  {
    Put(Put(plan, "budget_split", budget), "channels", channels)
  }

  /** The new `budget_split`. */
  function SynthBudgetOf(plan: Fields, show: Show): JsonValue {
    JArr(SynthBudget(GetOr(plan, "budget_split", JArr([])), show))
  }

  /** The new `channels`. */
  function SynthChannelsOf(plan: Fields): JsonValue
    requires SynthUsable(plan)
  {
    JArr(SynthChannels(PyIter(GetOr(plan, "channels", JArr([]))).value))
  }

  const RequiredKeys: set<string> := {"concept_title", "big_idea", "key_message", "timeline_weeks", "kpis"}

  predicate RequiredPresent(plan: Fields) {
    HasKey(plan, "concept_title") && HasKey(plan, "big_idea") && HasKey(plan, "key_message")
    && HasKey(plan, "timeline_weeks") && HasKey(plan, "kpis")
  }

  /** The five required keys are five different keys. */
  lemma RequiredKeysDistinct()
    ensures "concept_title" != "big_idea" && "concept_title" != "key_message"
    ensures "concept_title" != "timeline_weeks" && "concept_title" != "kpis"
    ensures "big_idea" != "key_message" && "big_idea" != "timeline_weeks" && "big_idea" != "kpis"
    ensures "key_message" != "timeline_weeks" && "key_message" != "kpis"
    ensures "timeline_weeks" != "kpis"
  {
  }

  /** The keys `normalize_to_schema` writes: `assets`, `budget_split`, `channels`, and the
      required keys, which are none of the first three. */
  lemma SynthKeysSplit()
    ensures forall k :: k !in SynthKeys ==>
      k != "assets" && k != "budget_split" && k != "channels" && k !in RequiredKeys
    ensures "assets" !in RequiredKeys && "budget_split" !in RequiredKeys
    ensures "channels" !in RequiredKeys
    ensures "assets" != "budget_split" && "assets" != "channels"
  {
  }

  /** The required keys, each filled in only when missing. */
  function SynthDefaults(plan: Fields): (r: Fields)
    ensures forall k :: k !in RequiredKeys ==>
      Lookup(r, k) == Lookup(plan, k)
    ensures forall k :: HasKey(plan, k) ==> Lookup(r, k) == Lookup(plan, k)
    ensures !HasKey(plan, "concept_title") ==> Lookup(r, "concept_title") == Some(JStr(""))
    ensures !HasKey(plan, "big_idea") ==> Lookup(r, "big_idea") == Some(JStr(""))
    ensures !HasKey(plan, "key_message") ==> Lookup(r, "key_message") == Some(JStr(""))
    ensures !HasKey(plan, "timeline_weeks") ==> Lookup(r, "timeline_weeks") == Some(JInt(4))
    ensures !HasKey(plan, "kpis") ==> Lookup(r, "kpis") == Some(JObj([]))
    ensures RequiredPresent(plan) ==> r == plan
  {
    RequiredKeysDistinct();
    var p1 := SetDefault(plan, "concept_title", JStr(""));
    var p2 := SetDefault(p1, "big_idea", JStr(""));
    var p3 := SetDefault(p2, "key_message", JStr(""));
    var p4 := SetDefault(p3, "timeline_weeks", JInt(4));
    SetDefault(p4, "kpis", JObj([]))
  }

  /** `normalize_to_schema`: rebuild a listed `assets`, always replace `budget_split` and
      `channels`, and fill in the missing required keys. */
  function NormalizeToSchema(plan: Fields, show: Show): (r: Fields)
    requires SynthUsable(plan)
    ensures forall k :: k !in SynthKeys ==> Lookup(r, k) == Lookup(plan, k)
    ensures Lookup(plan, "assets").Some? && Lookup(plan, "assets").value.JArr? ==>
      Lookup(r, "assets") == Some(JArr(SynthAssets(Lookup(plan, "assets").value.items, show)))
    ensures !(Lookup(plan, "assets").Some? && Lookup(plan, "assets").value.JArr?) ==>
      Lookup(r, "assets") == Lookup(plan, "assets")
    ensures Lookup(r, "budget_split") == Some(SynthBudgetOf(plan, show))
    ensures Lookup(r, "channels") == Some(SynthChannelsOf(plan))
  {
    SynthKeysSplit();
    var p1 := SynthAssetsStep(plan, show);
    var p2 := PutBudgetChannels(p1, SynthBudgetOf(plan, show), SynthChannelsOf(plan));
    SynthDefaults(p2)
  }

  /** The required keys keep their values when present and get their defaults when
      missing: empty texts, four weeks, an empty `kpis` object. */
  lemma NormalizeToSchemaDefaults(plan: Fields, show: Show)
    requires SynthUsable(plan)
    ensures var r := NormalizeToSchema(plan, show);
      && (forall k :: k in RequiredKeys && HasKey(plan, k) ==> Lookup(r, k) == Lookup(plan, k))
      && (!HasKey(plan, "concept_title") ==> Lookup(r, "concept_title") == Some(JStr("")))
      && (!HasKey(plan, "big_idea") ==> Lookup(r, "big_idea") == Some(JStr("")))
      && (!HasKey(plan, "key_message") ==> Lookup(r, "key_message") == Some(JStr("")))
      && (!HasKey(plan, "timeline_weeks") ==> Lookup(r, "timeline_weeks") == Some(JInt(4)))
      && (!HasKey(plan, "kpis") ==> Lookup(r, "kpis") == Some(JObj([])))
  {
    var p1 := SynthAssetsStep(plan, show);
    var p2 := PutBudgetChannels(p1, SynthBudgetOf(plan, show), SynthChannelsOf(plan));
    assert NormalizeToSchema(plan, show) == SynthDefaults(p2);
    SameRequired(plan, p2);
  }

  lemma SameRequired(plan: Fields, p2: Fields)
    requires forall k :: k != "assets" && k != "budget_split" && k != "channels" ==>
      Lookup(p2, k) == Lookup(plan, k)
    ensures forall k :: k in RequiredKeys ==> Lookup(p2, k) == Lookup(plan, k)
  {
  }

  /** Every channel of the result is a normalised object with a truthy activation, and the
      budget rows are the percentage rows when there are any, else the amount rows. */
  lemma NormalizeToSchemaShape(plan: Fields, show: Show)
    requires SynthUsable(plan)
    ensures var r := NormalizeToSchema(plan, show);
      && (forall j :: 0 <= j < |Lookup(r, "channels").value.items| ==>
            NormalChannel(Lookup(r, "channels").value.items[j])
            && Truthy(ChannelActivation(Lookup(r, "channels").value.items[j])))
      && var bs := GetOr(plan, "budget_split", JArr([]));
         && (!bs.JArr? ==> Lookup(r, "budget_split") == Some(JArr([])))
         && (bs.JArr? && |PercPairs(bs.items)| > 0 ==>
               Lookup(r, "budget_split") == Some(JArr(ScaledRows(PercPairs(bs.items)))))
         && (bs.JArr? && |PercPairs(bs.items)| == 0 ==>
               Lookup(r, "budget_split") == Some(JArr(ScaledRows(AmountPairs(bs.items, show)))))
  {
  }

  /** A plan already in the training schema passes through `normalize_to_schema`
      unchanged. */
  lemma NormalizeToSchemaFixedPoint(q: Fields, rp: seq<(JsonValue, int)>, show: Show)
    requires ArrAt(q, "assets") && AllStrings(Lookup(q, "assets").value.items)
    requires ArrAt(q, "channels")
    requires forall j :: 0 <= j < |Lookup(q, "channels").value.items| ==>
      SettledChannel(Lookup(q, "channels").value.items[j])
    requires Lookup(q, "budget_split") == Some(JArr(SplitRows(rp))) && SettledBudget(rp)
    requires RequiredPresent(q)
    ensures SynthUsable(q)
    ensures NormalizeToSchema(q, show) == q
  {
    var cs := Lookup(q, "channels").value.items;
    SettledChannelsSynth(cs);
    SynthChannelsUnchanged(cs);
    SynthAssetsKeepStrings(Lookup(q, "assets").value.items, show);
    SynthBudgetFixedPoint(rp, show);
    var p1 := SynthAssetsStep(q, show);
    assert p1 == q;
    assert PutBudgetChannels(p1, SynthBudgetOf(q, show), SynthChannelsOf(q)) == q;
  }
}

=== FILE: text.dfy ===
/** Character and string helpers with Python's `str` semantics: whitespace as
    `str.isspace()` sees it, ASCII case folding, `find`/`rfind`, `strip` and decimal digits. */
module Text {

  /** Python's `str.isspace()`: the ASCII controls 9-13 and 28-31, the space, and the
      Unicode separators that Python counts as whitespace. */
  predicate IsSpace(c: char) {
    var n := c as int;
    n == 32 || 9 <= n <= 13 || 28 <= n <= 31 || n == 0x85 || n == 0xA0 || n == 0x1680
    || 0x2000 <= n <= 0x200A || n == 0x2028 || n == 0x2029 || n == 0x202F || n == 0x205F
    || n == 0x3000
  }

  predicate AllSpace(s: string) {
    forall i :: 0 <= i < |s| ==> IsSpace(s[i])
  }

  /** ASCII lower-casing of one character. */
  function LowerChar(c: char): (r: char)
    ensures 'A' <= c <= 'Z' ==> r as int == c as int + 32
    ensures !('A' <= c <= 'Z') ==> r == c
  {
    if 'A' <= c <= 'Z' then (c as int + 32) as char else c
  }

  /** `str.lower()` with ASCII case folding; it keeps every index in place. */
  function Lower(s: string): (r: string)
    ensures |r| == |s|
    ensures forall i :: 0 <= i < |s| ==> r[i] == LowerChar(s[i])
  {
    seq(|s|, i requires 0 <= i < |s| => LowerChar(s[i]))
  }

  /** `pat` occurs in `s` starting at index `i`. */
  predicate OccursAt(s: string, pat: string, i: int) {
    0 <= i && i + |pat| <= |s| && s[i..i + |pat|] == pat
  }

  /** The first index at or after `from` where `pat` occurs, or -1. */
  function IndexFrom(s: string, pat: string, from: nat): (r: int)
    requires from <= |s| + 1
    ensures r == -1 || (from <= r && OccursAt(s, pat, r))
    ensures r == -1 ==> forall i :: from <= i ==> !OccursAt(s, pat, i)
    ensures r != -1 ==> forall i :: from <= i < r ==> !OccursAt(s, pat, i)
    decreases |s| + 1 - from
  {
    if from + |pat| > |s| then -1
    else if s[from..from + |pat|] == pat then from
    else IndexFrom(s, pat, from + 1)
  }

  /** Python's `s.find(pat)`: the first occurrence, or -1. */
  function IndexOf(s: string, pat: string): (r: int)
    ensures r == -1 || OccursAt(s, pat, r)
    ensures r == -1 <==> forall i :: !OccursAt(s, pat, i)
    ensures r != -1 ==> forall i :: i < r ==> !OccursAt(s, pat, i)
  {
    IndexFrom(s, pat, 0)
  }

  /** The last index at or before `upto` where `pat` occurs, or -1. */
  function LastIndexUpTo(s: string, pat: string, upto: int): (r: int)
    requires upto < |s| + 1
    ensures r == -1 || (r <= upto && OccursAt(s, pat, r))
    ensures r == -1 ==> forall i :: i <= upto ==> !OccursAt(s, pat, i)
    ensures r != -1 ==> forall i :: r < i <= upto ==> !OccursAt(s, pat, i)
    decreases upto + 1
  {
    if upto < 0 then -1
    else if upto + |pat| <= |s| && s[upto..upto + |pat|] == pat then upto
    else LastIndexUpTo(s, pat, upto - 1)
  }

  /** Python's `s.rfind(pat)`: the last occurrence, or -1. */
  function LastIndexOf(s: string, pat: string): (r: int)
    ensures r == -1 || OccursAt(s, pat, r)
    ensures r == -1 <==> forall i :: !OccursAt(s, pat, i)
    ensures r != -1 ==> forall i :: r < i ==> !OccursAt(s, pat, i)
  {
    LastIndexUpTo(s, pat, |s|)
  }

  /** Python's `s.find(c)` for a one-character `c`: the first index holding `c`, or -1. */
  function FindChar(s: string, c: char): (r: int)
    ensures -1 <= r < |s|
    ensures r != -1 ==> s[r] == c && forall k :: 0 <= k < r ==> s[k] != c
    ensures r == -1 ==> forall k :: 0 <= k < |s| ==> s[k] != c
  {
    if |s| == 0 then -1
    else if s[0] == c then 0
    else
      var r := FindChar(s[1..], c);
      if r == -1 then -1 else r + 1
  }

  /** Python's `s.rfind(c)` for a one-character `c`: the last index holding `c`, or -1. */
  function RFindChar(s: string, c: char): (r: int)
    ensures -1 <= r < |s|
    ensures r != -1 ==> s[r] == c && forall k :: r < k < |s| ==> s[k] != c
    ensures r == -1 ==> forall k :: 0 <= k < |s| ==> s[k] != c
  {
    if |s| == 0 then -1
    else if s[|s| - 1] == c then |s| - 1
    else RFindChar(s[..|s| - 1], c)
  }

  /** Python's `pat in s` for strings. */
  predicate Contains(s: string, pat: string) {
    IndexOf(s, pat) != -1
  }

  /** Python's `s.lstrip()`. */
  function LStrip(s: string): (r: string)
    ensures |r| <= |s| && r == s[|s| - |r|..]
    ensures AllSpace(s[..|s| - |r|])
    ensures |r| > 0 ==> !IsSpace(r[0])
  {
    if |s| > 0 && IsSpace(s[0]) then LStrip(s[1..]) else s
  }

  /** Left-stripping a suffix leaves a suffix. */
  lemma LStripOfSuffix(s: string, i: int)
    requires 0 <= i <= |s|
    ensures |LStrip(s[i..])| <= |s| && LStrip(s[i..]) == s[|s| - |LStrip(s[i..])|..]
  {
    var r := LStrip(s[i..]);
    assert r == s[i..][|s| - i - |r|..];
  }

  /** Python's `s.rstrip()`. */
  function RStrip(s: string): (r: string)
    ensures |r| <= |s| && r == s[..|r|]
    ensures AllSpace(s[|r|..])
    ensures |r| > 0 ==> !IsSpace(r[|r| - 1])
  {
    if |s| > 0 && IsSpace(s[|s| - 1]) then RStrip(s[..|s| - 1]) else s
  }

  /** Python's `s.strip()`. */
  function Strip(s: string): (r: string)
    ensures |r| > 0 ==> !IsSpace(r[0]) && !IsSpace(r[|r| - 1])
  {
    RStrip(LStrip(s))
  }

  /** Python's `s.lstrip(chars)`: drop characters of `cs` from the front. */
  function LStripChars(s: string, cs: set<char>): (r: string)
    ensures |r| <= |s| && r == s[|s| - |r|..]
    ensures forall k :: 0 <= k < |s| - |r| ==> s[k] in cs
    ensures |r| > 0 ==> r[0] !in cs
  {
    if |s| > 0 && s[0] in cs then LStripChars(s[1..], cs) else s
  }

  /** Python's `s.rstrip(chars)`: drop characters of `cs` from the back. */
  function RStripChars(s: string, cs: set<char>): (r: string)
    ensures |r| <= |s| && r == s[..|r|]
    ensures forall k :: |r| <= k < |s| ==> s[k] in cs
    ensures |r| > 0 ==> r[|r| - 1] !in cs
  {
    if |s| > 0 && s[|s| - 1] in cs then RStripChars(s[..|s| - 1], cs) else s
  }

  /** Python's `s.strip(chars)`: the infix left once the characters of `cs` are dropped from
      both ends, so it neither starts nor ends with one of them. */
  function StripChars(s: string, cs: set<char>): (r: string)
    ensures |r| <= |s|
    ensures |r| > 0 ==> r[0] !in cs && r[|r| - 1] !in cs
    ensures exists i, j :: 0 <= i <= j <= |s| && r == s[i..j]
                           && (forall k :: 0 <= k < i ==> s[k] in cs)
                           && (forall k :: j <= k < |s| ==> s[k] in cs)
  {
    var l := LStripChars(s, cs);
    var r := RStripChars(l, cs);
    StripBothEnds(s, l, r, cs);
    assert |r| > 0 ==> r[0] == l[0];
    r
  }

  /** A prefix of a suffix of `s`, where both cuts drop only characters of `cs`, is an
      infix of `s` with only characters of `cs` around it. */
  lemma StripBothEnds(s: string, l: string, r: string, cs: set<char>)
    requires |l| <= |s| && l == s[|s| - |l|..]
    requires forall k :: 0 <= k < |s| - |l| ==> s[k] in cs
    requires |r| <= |l| && r == l[..|r|]
    requires forall k :: |r| <= k < |l| ==> l[k] in cs
    ensures exists i, j :: 0 <= i <= j <= |s| && r == s[i..j]
                           && (forall k :: 0 <= k < i ==> s[k] in cs)
                           && (forall k :: j <= k < |s| ==> s[k] in cs)
  {
    var i := |s| - |l|;
    var j := i + |r|;
    assert r == s[i..j];
    forall k | j <= k < |s| ensures s[k] in cs {
      assert s[k] == l[k - i];
    }
  }

  predicate IsDigit(c: char) {
    '0' <= c <= '9'
  }

  predicate AllDigits(s: string) {
    forall i :: 0 <= i < |s| ==> IsDigit(s[i])
  }

  function DigitValue(c: char): nat
    requires IsDigit(c)
  {
    c as int - '0' as int
  }

  /** The number denoted by a string of decimal digits, read left to right. */
  function DigitsValue(ds: string): nat
    requires AllDigits(ds)
  {
    if |ds| == 0 then 0 else DigitsValue(ds[..|ds| - 1]) * 10 + DigitValue(ds[|ds| - 1])
  }

  function DigitChar(d: nat): (c: char)
    requires d < 10
    ensures IsDigit(c) && DigitValue(c) == d
  {
    ('0' as int + d) as char
  }

  /** Python's `str(n)` for a non-negative int: canonical decimal digits. */
  function NatToDecimal(n: nat): (r: string)
    ensures |r| > 0 && AllDigits(r)
    ensures DigitsValue(r) == n
    ensures r[0] == '0' ==> n == 0
  {
    if n < 10 then [DigitChar(n)]
    else
      var p := NatToDecimal(n / 10);
      var r := p + [DigitChar(n % 10)];
      assert r[..|r| - 1] == p;
      r
  }

  /** Python's `str(i)` for an int. */
  function IntToDecimal(i: int): string {
    if i < 0 then "-" + NatToDecimal(-i) else NatToDecimal(i)
  }
}

=== FILE: wrappers.dfy ===
/** Failure-carrying result types shared by every module of the model. */
module Wrappers {

  /** An optional value; `None` stands for Python's `None` return or a raised-and-caught error. */
  datatype Option<+T> = None | Some(value: T)

  /** A value or an error; used where the source raises an error the caller must see. */
  datatype Result<+T, +E> = Ok(value: T) | Err(error: E)
}
